=== FILE: README.md ===
# YoureHired backend core in Dafny

A model of the Python backend of YoureHired, an interview-practice service, with proofs about it. The backend covers these services:

- **Company research.** A planner agent proposes web searches. Search agents run them in parallel. A summarizer agent turns the results into a company summary.
- **Drill generation.** Up to three generator agents (coding, debugging, system design) each propose an interview drill. An evaluator agent picks the best one.
- **Solution evaluation.** A submitted solution is graded by an agent. The feedback is saved as a markdown file.
- **GitHub Scout.** It searches GitHub through the GraphQL API and filters out tutorials and awesome-lists. It scores repositories by how welcoming they are to contributors, then has an agent rank them against a developer profile. The run is streamed as events.
- **Guardrails.** These screen agent input for prompt injection and agent output for leaked secrets.

Around these sit:

- an in-memory session store with a time to live;
- a registry of running agent streams for cancellation;
- the scout HTTP layer, with a per-address rate limit and a global "one search at a time" lock;
- input validation and sanitisation.

## How the model is organised

There is one module per source file of the core:

| module | models |
|---|---|
| `SessionStore` | `services/session_store.py` |
| `TaskRegistry` | `services/task_registry.py` |
| `ScoutApi` | `api/scout.py` |
| `EvaluationApi` | `api/evaluation.py` |
| `ScoutSchemas` | `schemas/scout.py` |
| `DrillSchemas` | `schemas/drill.py` |
| `CompanyInfo` | `schemas/company_info.py` |
| `UserSelection` | `schemas/user_selection.py` |
| `RepoFiltering` | `services/repo_filtering.py` |
| `GithubClient` | `services/github_client.py` |
| `ScoutAnalysis` | `services/scout_analysis.py` |
| `ScoutOrchestrator` | `services/scout_orchestrator.py` |
| `CompanyResearch` | `services/company_research.py` |
| `DrillGeneration` | `services/drill_generation.py` |
| `FeedbackPersistence` | `services/feedback_persistence.py` |
| `GuardrailPatterns` | `agents/guardrails/patterns.py` |
| `InjectionDetector` | `agents/guardrails/injection_detector.py` |
| `LeakageDetector` | `agents/guardrails/leakage_detector.py` |
| `Sanitization` | `utils/sanitization.py` |

Shared modules:

- `AgentOutcomes`: how an agent run can end, and the two safe guardrail messages.
- `Wrappers`: `Option` and `Result`.
- `Seqs`: filters, chunking and flattening.
- `Text`: Python's whitespace set, ASCII case, substring search, `join`, `strip`, decimal rendering.
- `StableSort`: the stable descending sort behind Python's `list.sort(reverse=True)` and `sorted(..., reverse=True)`.

Everything the backend does not compute itself becomes an input of the model:

- **Agent runs** are given as outcomes: an output, a timeout, a guardrail trip of either side, or any other exception.
- **Concurrency.** Concurrent runs collected with `asyncio.as_completed` or `asyncio.wait` become a completion order: a permutation of the task indices.
- **Regular expressions.** Regex searches are a parameter `search(pattern, text)`. The patterns whose meaning the properties need are also given a character-level definition.
- **The clock** (`time.time()`, `datetime.now()`) is a parameter.
- **The database and GitHub's HTTP answers** are parameters. The database writes a run performs are returned as values (`RunUpdate`).

Paths in the table below are relative to the repository root.

## Model

| member | source | states |
|---|---|---|
| SessionStore.NewStore | backend/app/services/session_store.py:14-17 | a new store is empty and its time to live is the given hours in seconds |
| SessionStore.DefaultStore | backend/app/services/session_store.py:14-17 | the default store keeps sessions 24 hours (86400 s) |
| SessionStore.Create | backend/app/services/session_store.py:19-33 | the new session carries the given fields stamped with the current time; it is stored under its id, replacing any older one, and every other id keeps its session |
| SessionStore.Get | backend/app/services/session_store.py:35-39 | a session is returned exactly when it is stored and younger than the time to live, and then it is the stored one; an unknown id gives nothing |
| SessionStore.CreateThenGet | backend/app/services/session_store.py:19-39 | a session just created is returned until its time to live has passed and not afterwards |
| SessionStore.CreateLeavesOthers | backend/app/services/session_store.py:19-39 | creating a session does not change what any other id returns |
| SessionStore.CreateReplaces | backend/app/services/session_store.py:32 | re-creating a session id hides the older session for good |
| SessionStore.ExpiryIsFinal | backend/app/services/session_store.py:35-39 | once a session is unseen it stays unseen as time moves forward |
| SessionStore.ExpiredStaysStored | backend/app/services/session_store.py:35-39 | expiry hides a session but does not remove it from the store |
| SessionStore.DefaultLifetime | backend/app/services/session_store.py:14-17 | in the default store a session is visible 86399 s after creation and gone at 86400 s |
| TaskRegistry.Register | backend/app/services/task_registry.py:18-20 | the handle is appended to its session's list (created if absent); other sessions are untouched and the registry keeps no empty lists |
| TaskRegistry.Unregister | backend/app/services/task_registry.py:22-32 | the first occurrence of the handle is removed and an emptied list is dropped; an absent session or handle leaves the registry as it was; other sessions are untouched |
| TaskRegistry.RemoveFirst | backend/app/services/task_registry.py:27 | `list.remove` drops exactly one occurrence (the multiset loses one copy) and is a no-op on an absent value |
| TaskRegistry.CancelAll | backend/app/services/task_registry.py:34-39 | the session's entry is removed and exactly its unfinished handles are cancelled, each as often as it was registered; an unknown session cancels nothing |
| TaskRegistry.CancelledSet | backend/app/services/task_registry.py:37-39 | the cancelled handles are the session's unfinished ones |
| TaskRegistry.Cleanup | backend/app/services/task_registry.py:41-43 | the session's entry is removed and nothing is cancelled |
| TaskRegistry.RemoveFirstAppended | backend/app/services/task_registry.py:18-32 | removing a freshly appended handle gives back the list before the append |
| TaskRegistry.RegisterUnregisterRestores | backend/app/services/task_registry.py:18-32 | registering and then unregistering a fresh handle restores the registry exactly |
| TaskRegistry.RunAgentStreamed | backend/app/services/task_registry.py:49-77 | a finished stream returns its output, an error propagates, and a timeout cancels exactly this run and re-raises; in every case the handle is registered and then unregistered |
| TaskRegistry.RunAgentStreamedRestores | backend/app/services/task_registry.py:61-77 | whatever the outcome, the registry afterwards is the registry before the run |
| ScoutApi.Prune | backend/app/api/scout.py:41 | the kept start times are exactly those inside the one-hour window |
| ScoutApi.PruneAppend | backend/app/api/scout.py:41 | pruning distributes over concatenation, so order is kept |
| ScoutApi.PruneKeepsRecent | backend/app/api/scout.py:41 | times all inside the window are kept unchanged |
| ScoutApi.PruneIdempotent | backend/app/api/scout.py:41 | pruning twice is pruning once |
| ScoutApi.PruneDropsStale | backend/app/api/scout.py:41 | times all outside the window are all dropped |
| ScoutApi.CheckRateLimit | backend/app/api/scout.py:36-44 | any active search refuses with the "already running" message and changes nothing; otherwise the caller's times are pruned and the caller is refused with the rate-limit message exactly when five or more remain; other callers are untouched |
| ScoutApi.StartSearch | backend/app/api/scout.py:69-85 | 429 with the limiter's message, 400 without a profile, otherwise the new run id, with the second clock reading (taken after the database calls, never earlier than the limiter's) appended to the caller's pruned list |
| ScoutApi.AcceptedStartKeepsWindow | backend/app/api/scout.py:36-44 | after an accepted start the caller has at most five start times, all inside the window at the limiter's reading and at most five inside it at the second reading, the newest being that second reading (with line 84) |
| ScoutApi.SixthStartRefused | backend/app/api/scout.py:42-43 | a sixth start inside the hour is refused with 429, profile or not (with lines 74-75) |
| ScoutApi.StaleStartsForgotten | backend/app/api/scout.py:41-44 | starts older than an hour no longer count: a caller with a profile is let through |
| ScoutApi.OpenStream | backend/app/api/scout.py:99-127 | an unknown run, a run already streaming, or missing profile/filters is rejected with its own message, in that order; otherwise the run is flagged active and nothing else changes |
| ScoutApi.CloseStream | backend/app/api/scout.py:91-96 | the run is unflagged and its registry entry dropped without cancelling; other runs and the rate-limit lists are untouched |
| ScoutApi.OpenStreamBlocksStarts | backend/app/api/scout.py:38-39 | while a stream is open every new search, from any address, is refused as already running (with line 127) |
| ScoutApi.SecondStreamRefused | backend/app/api/scout.py:106-107 | a second stream for a run that is streaming is refused as in progress (with line 127) |
| ScoutApi.OpenCloseRestoresActive | backend/app/api/scout.py:94-96 | opening and closing a stream restores the active flags and leaves the run without a registry entry (with line 127) |
| ScoutApi.CancelSearch | backend/app/api/scout.py:144-153 | unknown run: 404 and no change; otherwise its unfinished agent runs are cancelled, it is unflagged and recorded as cancelled with zero counts, and other runs keep both their flags and their registry entries |
| ScoutApi.CancelReleasesLock | backend/app/api/scout.py:38-39 | cancelling the only active search frees the global lock (with lines 150-151) |
| EvaluationApi.KeptSolution | backend/app/api/evaluation.py:131 | the kept text is the prefix of length min(length of the solution, 10000), equal to the solution exactly when it fits |
| EvaluationApi.PromptHeader | backend/app/api/evaluation.py:120-130 | ten header lines ending with the opening fence |
| EvaluationApi.EvaluatorLines | backend/app/api/evaluation.py:120-136 | 12 lines, or 13 when the solution is too long; the requirements line joins them with ", ", then the kept solution, the closing fence and the note |
| EvaluationApi.EvaluatorInputLayout | backend/app/api/evaluation.py:111-138 | the prompt is the header, the kept solution between fences, and the note exactly when the solution was cut |
| EvaluationApi.NoteIffTruncated | backend/app/api/evaluation.py:135-138 | the prompt ends with the truncation note if and only if the solution exceeds 10000 characters, and otherwise ends with the fence |
| EvaluationApi.AgentError | backend/app/api/evaluation.py:51-82 | an input trip is the only 400 error (input_blocked); output trips, timeouts and other failures are 500; a trip carries its side's safe message |
| EvaluationApi.HandleAgentErrorsAsWritten | backend/app/api/evaluation.py:49-82 | as written the catch-all also catches the handler's own HTTP error and turns it into 500 evaluation_failed |
| EvaluationApi.HandleAgentErrors | backend/app/api/evaluation.py:42-84 | an HTTP error raised by the handler passes through unchanged; agent errors map as above |
| EvaluationApi.HandlersAgreeOnAgentErrors | backend/app/api/evaluation.py:49-82 | the two decorators differ only on the handler's own HTTP errors |
| EvaluationApi.ValidateSessionAndDrill | backend/app/api/evaluation.py:87-108 | 404 session_not_found for a missing or expired session, 400 no_drill without a drill, otherwise the stored session and its drill |
| EvaluationApi.EvaluateBody | backend/app/api/evaluation.py:151-177 | validation errors are raised as HTTP errors; success means the evaluator was given this session's prompt and returned the feedback |
| EvaluationApi.EvaluateSolutionAsWritten | backend/app/api/evaluation.py:150-196 | as written every failure is answered 400 or 500 |
| EvaluationApi.EvaluateSolution | backend/app/api/evaluation.py:150-196 | success exactly when the handler succeeds; a missing session gives 404 and a missing drill 400 |
| EvaluationApi.StatusMatchesCode | backend/app/api/evaluation.py:51-106 | every error answer carries the status its code calls for |
| EvaluationApi.TripsAnsweredSafely | backend/app/api/evaluation.py:51-66 | a guardrail trip during evaluation is answered with its side's safe message, 400 input_blocked exactly for the input guardrail |
| EvaluationApi.MissingSessionAsWrittenIs500 | backend/app/api/evaluation.py:75-97 | as written, a missing session is answered 500 evaluation_failed with the HTTP error's text, not 404 |
| EvaluationApi.AsWrittenNever404 | backend/app/api/evaluation.py:75-97 | as written the endpoint never answers 404 |
| ScoutSchemas.ParseSkillLevel | backend/app/schemas/scout.py:19 | exactly the three literals are accepted, each to the level it names |
| ScoutSchemas.SkillLevelRoundTrip | backend/app/schemas/scout.py:19 | rendering a skill level and parsing it back gives the level |
| ScoutSchemas.MakeDeveloperProfile | backend/app/schemas/scout.py:14-20 | accepted exactly with at least one language and goals of at most 500 characters; defaults are intermediate and empty goals |
| ScoutSchemas.MakeSearchFilters | backend/app/schemas/scout.py:32-46 | accepted exactly with a language, non-negative star bounds and min ≤ max; an inverted range is refused with the validator's message |
| ScoutSchemas.DefaultFiltersValid | backend/app/schemas/scout.py:35-40 | the default star bounds 10..50000 are valid |
| ScoutSchemas.EqualStarBoundsAccepted | backend/app/schemas/scout.py:42-46 | min_stars == max_stars is allowed |
| ScoutSchemas.MakeAnalysisResult | backend/app/schemas/scout.py:70-78 | accepted exactly when the fit score is within 0..10; defaults no contributions and not rejected |
| ScoutSchemas.ParseRunStatus | backend/app/schemas/scout.py:81 | exactly the five run-status literals are accepted |
| ScoutSchemas.RunStatusRoundTrip | backend/app/schemas/scout.py:81 | rendering a run status and parsing it back gives the status |
| DrillSchemas.ParseDrillType | backend/app/schemas/drill.py:11-16 | exactly the three drill-type values are accepted |
| DrillSchemas.DrillTypeRoundTrip | backend/app/schemas/drill.py:11-16 | rendering a drill type and parsing it back gives the type |
| DrillSchemas.ParseDifficulty | backend/app/schemas/drill.py:19-24 | exactly easy, medium and hard are accepted |
| DrillSchemas.DifficultyRoundTrip | backend/app/schemas/drill.py:19-24 | rendering a difficulty and parsing it back gives it |
| DrillSchemas.MakeDrill | backend/app/schemas/drill.py:27-45 | a drill is accepted exactly when its expected time is 5..120 minutes, keeping every field |
| DrillSchemas.MakeDrillCandidate | backend/app/schemas/drill.py:48-56 | a candidate is accepted exactly when its confidence is within 0..1 |
| DrillSchemas.MakeCandidateEvaluation | backend/app/schemas/drill.py:59-72 | an evaluation is accepted exactly when all four scores are within 0..1 |
| DrillSchemas.TagsDistinct | backend/app/schemas/drill.py:121-148 | two stream events have the same type tag exactly when they are the same kind of event |
| RepoFiltering.TutorialText | backend/app/services/repo_filtering.py:27 | the searched text is the name, a space, and the description or nothing |
| RepoFiltering.HasOpenIssues | backend/app/services/repo_filtering.py:31-33 | true exactly with at least one open issue |
| RepoFiltering.ContributionScore | backend/app/services/repo_filtering.py:36-45 | ten times 2·min(gfi,10) + 1.5·min(help,10) + 0.1·min(open,100), at most 45 points, non-negative for non-negative counts |
| RepoFiltering.Kept | backend/app/services/repo_filtering.py:59-67 | exactly the repos that are not tutorials, have open issues and lie within the inclusive star range are kept, each as many times as given |
| RepoFiltering.ApplyFilters | backend/app/services/repo_filtering.py:48-69 | the result is a permutation of the kept repos sorted by descending contribution score |
| RepoFiltering.ApplyFiltersStable | backend/app/services/repo_filtering.py:68 | repos with equal exact scores keep their input order |
| RepoFiltering.StarBoundsInclusive | backend/app/services/repo_filtering.py:65-66 | both star bounds are inclusive, and a repo outside them is dropped |
| GithubClient.NewClient | backend/app/services/github_client.py:64-67 | an empty token is refused with the configuration message; any other is kept |
| GithubClient.RetryRequest | backend/app/services/github_client.py:85-116 | at most three attempts; only 502/503 are retried; the last status decides; 2xx returns, anything else (401 at once) raises |
| GithubClient.GatewayErrorsThenUnauthorized | backend/app/services/github_client.py:92-110 | three 502s raise after the third attempt; a 401 raises on the first |
| GithubClient.ProcessSearchPage | backend/app/services/github_client.py:140-172 | the page's nodes are appended; the caps warning is added when 1000+ results and none mentions "incomplete"; paging stops on a low rate limit, no next page or enough repos, otherwise continues at the end cursor |
| GithubClient.CapsWarningOnce | backend/app/services/github_client.py:149-155 | over any number of pages the caps warning appears at most once |
| GithubClient.PageKeepsCapsWarningOnce | backend/app/services/github_client.py:149-164 | one page never adds a second caps warning |
| GithubClient.IncompleteWarningMentionsIncomplete | backend/app/services/github_client.py:149-155 | the caps warning itself mentions "incomplete", which is what keeps it from repeating |
| GithubClient.WarningsDiffer | backend/app/services/github_client.py:152-164 | the rate-limit warning is not the caps warning |
| GithubClient.SearchPages | backend/app/services/github_client.py:118-138 | the page loop ends with no cursor left or no pages left |
| GithubClient.ValidNameHasNoQuote | backend/app/services/github_client.py:177-181 | an accepted owner or name cannot contain a double quote, so it cannot break out of the query string (with line 14) |
| GithubClient.TrailingNewlineAccepted | backend/app/services/github_client.py:14 | `re.match` with `$` accepts a name with one trailing newline (with line 178) |
| GithubClient.TruncateReadme | backend/app/services/github_client.py:193-195 | a README is cut to its first 16000 characters; none stays none |
| GithubClient.ReadmeSelections | backend/app/services/github_client.py:255-263 | one aliased selection per repository, numbered from the batch offset |
| GithubClient.ReadmeBatch | backend/app/services/github_client.py:184-185 | every batch is non-empty and at most 20 repositories |
| GithubClient.BatchPosition | backend/app/services/github_client.py:184-190 | repository j lands in batch j/20 at position j%20 under alias repo_j |
| GithubClient.FirstInvalid | backend/app/services/github_client.py:177-181 | finds the first repository whose owner or name is not a valid name, or none |
| GithubClient.ReadmeMapLastWins | backend/app/services/github_client.py:189-198 | a repository's key maps to its truncated README when no later entry has the same key |
| GithubClient.ReadmeMapKeys | backend/app/services/github_client.py:189-198 | the keys are exactly the owner/name of the repositories |
| GithubClient.ReadmeMapTruncated | backend/app/services/github_client.py:193-196 | no stored README exceeds 16000 characters |
| GithubClient.FetchReadmes | backend/app/services/github_client.py:174-200 | any invalid name refuses the whole request before any query, naming the first invalid `owner/name`; otherwise one query per batch of 20 and the map of truncated READMEs |
| GithubClient.ReadmeOfEachRepo | backend/app/services/github_client.py:174-200 | each repository gets its own truncated README under owner/name |
| GithubClient.SearchQueryParts | backend/app/services/github_client.py:229-250 | languages, the star range, the activity date (or six months ago), topics, the license, then archived:false and fork:false |
| GithubClient.QueryEndsWithExclusions | backend/app/services/github_client.py:249-252 | every query ends with "archived:false fork:false" |
| ScoutAnalysis.BatchRepos | backend/app/services/scout_analysis.py:72-74 | with a positive size the batches concatenate to the input, all full but the last, none empty; size 0 fails as `range` does; a negative size gives no batches |
| ScoutAnalysis.BatchCount | backend/app/services/scout_analysis.py:72-74 | the number of batches is the ceiling of length over size |
| ScoutAnalysis.ChunkShapesAgree | backend/app/services/scout_orchestrator.py:114-115 | repositories and READMEs of equal length are cut into batches of the same shapes |
| ScoutAnalysis.ReadmeLine | backend/app/services/scout_analysis.py:64-67 | a missing or empty README says "Not available"; otherwise an excerpt of at most 16000 characters |
| ScoutAnalysis.RepoBlock | backend/app/services/scout_analysis.py:50-67 | 14 lines per repository: a blank separator line, then the owner/name header, and last the README line |
| ScoutAnalysis.ProfileHeader | backend/app/services/scout_analysis.py:39-47 | the seven profile lines |
| ScoutAnalysis.RepoBlockList | backend/app/services/scout_analysis.py:49-67 | one block per repository, in order |
| ScoutAnalysis.RepoBlocks | backend/app/services/scout_analysis.py:49-67 | 14 lines per repository |
| ScoutAnalysis.RepoBlockAt | backend/app/services/scout_analysis.py:49-67 | repository i's header and README lines sit at 14i+1 and 14i+13 |
| ScoutAnalysis.BuildBatchInput | backend/app/services/scout_analysis.py:19-69 | mismatched lengths raise; otherwise the profile header followed by the blocks |
| ScoutAnalysis.BatchInputNamesEveryRepo | backend/app/services/scout_analysis.py:49-67 | every repository of the batch is named in the prompt with its README line |
| ScoutAnalysis.AnalyzeBatch | backend/app/services/scout_analysis.py:77-94 | a prompt error fails the batch; a cancelled run gives no results; a timeout or error fails it; otherwise the agent's results |
| ScoutAnalysis.BatchEvent | backend/app/services/scout_analysis.py:97-112 | a progress event exactly for an analysed batch, with the counter and the total |
| ScoutAnalysis.StreamedEventsAsWritten | backend/app/services/scout_analysis.py:139-150 | one event per batch, progress exactly for analysed batches, all with the same total |
| ScoutAnalysis.AnalyzeReposStreamedAsWritten | backend/app/services/scout_analysis.py:115-150 | given one outcome per batch of the capped input, there are exactly ceil(capped count / batch size) events, a progress event exactly for a batch with results, and the total is the capped count |
| ScoutAnalysis.StreamedCounterOvershoots | backend/app/services/scout_analysis.py:145-149 | three repositories in batches of two, both failing, report "4/3" |
| ScoutAnalysis.AfterFailedBatch | backend/app/services/scout_orchestrator.py:139-147 | the counter after a failed batch is min(counter + batch size, total): the sum while it fits, the total otherwise |
| ScoutAnalysis.StreamedEvents | backend/app/services/scout_analysis.py:139-150 | as above, an error event never reports more analysed than the total, and each event's counter is the previous one (the start for the first) plus the batch's results when analysed, or min(previous + batch size, total) when it timed out or failed |
| ScoutAnalysis.AnalyzeReposStreamed | backend/app/services/scout_analysis.py:115-150 | given one outcome per batch of the capped input, exactly ceil(capped count / batch size) events, an error exactly for a failed batch, the total is the capped count, no error event overshoots it, and each counter follows from the previous one (from 0 for the first) by the batch's outcome |
| ScoutAnalysis.CountersAgreeWithoutFailures | backend/app/services/scout_analysis.py:139-150 | with no failed batch the written and corrected streams are the same |
| ScoutAnalysis.StreamedCounterCapped | backend/app/services/scout_analysis.py:145-149 | the corrected stream reports "3/3" on the same input |
| ScoutOrchestrator.Discover | backend/app/services/scout_orchestrator.py:48-73 | a failed search fails with its error, the relaxed one included; a second search with topics cleared runs exactly when the first found nothing under topic filters, and then the repos are the relaxed search's and the warnings are the first's, the relaxed search's, and the topic note exactly when repos were found |
| ScoutOrchestrator.RelaxedDiscovery | backend/app/services/scout_orchestrator.py:59-69 | after relaxing: the relaxed search's repos, the two searches recorded, the warnings of both searches followed by the topic note when repos were found; a failed relaxed search fails |
| ScoutOrchestrator.DiscoverEmptyIff | backend/app/services/scout_orchestrator.py:48-73 | discovery is empty exactly when the first search found nothing and either no topic filter was set or the relaxed search found nothing; a non-empty first search is the result |
| ScoutOrchestrator.DiscoverWarningCount | backend/app/services/scout_orchestrator.py:57-69 | the warnings are the first search's only, or those plus the relaxed search's plus one note exactly when repos were found |
| ScoutOrchestrator.FilterRepos | backend/app/services/scout_orchestrator.py:76-86 | the filtered list is the filtering engine's result and the capped list is its first scout_max_repos |
| ScoutOrchestrator.OrderedReadmes | backend/app/services/scout_orchestrator.py:89-95 | one README per capped repository, in order, looked up by owner/name |
| ScoutOrchestrator.Clamp | backend/app/services/scout_orchestrator.py:125-127 | a bounded count of tasks completes in one wait round |
| ScoutOrchestrator.RoundEvents | backend/app/services/scout_orchestrator.py:128-152 | one analysis event per completed batch, progress exactly for analysed ones, error counters capped by the total, results only grow |
| ScoutOrchestrator.OutcomeEvent | backend/app/services/scout_orchestrator.py:130-152 | an analysed batch is reported as progress and a timed-out or failed one as an issue of that kind, with the given counter and total |
| ScoutOrchestrator.RoundCounters | backend/app/services/scout_orchestrator.py:134-152 | each event's counter follows from the previous one by the outcome it reports, and the round hands on the last event's counter |
| ScoutOrchestrator.ChainedAt | backend/app/services/scout_orchestrator.py:134-152 | the counter chain read at one position: event i reports batch i applied to event i-1's counter |
| ScoutOrchestrator.RoundEventCounter | backend/app/services/scout_orchestrator.py:134-152 | event i's counter is the previous counter (the round's start for the first) plus the batch's results when analysed, and min(previous + batch size, total) when it timed out or failed |
| ScoutOrchestrator.AnalysisLoop | backend/app/services/scout_orchestrator.py:122-157 | the loop reports each batch once when it runs to the end, fewer when stopped; a cancellation at a check stops it with nothing more reported |
| ScoutOrchestrator.RunAnalysis | backend/app/services/scout_orchestrator.py:98-157 | a run that finishes reports one event per batch, and no error event overshoots the number of repositories |
| ScoutOrchestrator.NonRejected | backend/app/services/scout_orchestrator.py:178 | exactly the results not rejected, each as often as given |
| ScoutOrchestrator.CompletionEvent | backend/app/services/scout_orchestrator.py:160-192 | partial exactly when fewer results than capped repositories; counters recorded and reported agree; visible results are the non-rejected ones sorted by descending fit score |
| ScoutOrchestrator.Close | backend/app/services/scout_orchestrator.py:195-248 | ending a stream of open events with an agreeing terminal event gives a well-formed run |
| ScoutOrchestrator.FailTrace | backend/app/services/scout_orchestrator.py:245-248 | any exception ends the stream with the error event and records a failed run with zero counts |
| ScoutOrchestrator.CancelTrace | backend/app/services/scout_orchestrator.py:241-244 | a cancellation ends with the cancelled event and records a cancelled run with zero counts |
| ScoutOrchestrator.Checkpoint | backend/app/services/scout_orchestrator.py:42-45 | a cancellation check continues, cancels, or fails the run as the probe says (with line 211) |
| ScoutOrchestrator.FilterStage | backend/app/services/scout_orchestrator.py:211-215 | the first check after discovery cancels or fails the run before filtering is reported |
| ScoutOrchestrator.FilteredStage | backend/app/services/scout_orchestrator.py:217-224 | the filtered stage ends well formed |
| ScoutOrchestrator.NothingPassed | backend/app/services/scout_orchestrator.py:217-222 | nothing passing the filters completes the run with the discovered count and zeros |
| ScoutOrchestrator.ReadmeStage | backend/app/services/scout_orchestrator.py:226-229 | the README stage ends well formed |
| ScoutOrchestrator.AnalysisStage | backend/app/services/scout_orchestrator.py:231-239 | the analysis stage ends well formed |
| ScoutOrchestrator.DiscoveryStage | backend/app/services/scout_orchestrator.py:204-211 | discovering nothing ends with the "no repositories" error and a completed run with zero counts; otherwise filtering follows |
| ScoutOrchestrator.ScoutSearchStream | backend/app/services/scout_orchestrator.py:195-248 | every run opens with "Searching GitHub...", ends with exactly one terminal event, and records a run status that agrees with it |
| ScoutOrchestrator.NothingDiscoveredCompletes | backend/app/services/scout_orchestrator.py:206-209 | a search that finds nothing completes with zero counts and the "broaden your filters" error |
| ScoutOrchestrator.CancelAfterDiscovery | backend/app/services/scout_orchestrator.py:241-244 | a cancellation at the first check records a cancelled run and ends with the cancelled event right after discovery (with line 211) |
| ScoutOrchestrator.MissingProbeFailsEveryRun | backend/app/services/scout_orchestrator.py:42-45 | since the registry has no is_cancelled, every search that discovers repositories fails at the first check (with lines 245-248) |
| ScoutOrchestrator.FullAnalysisCompletes | backend/app/services/scout_orchestrator.py:122-152 | without cancellation every batch is reported exactly once |
| ScoutOrchestrator.LiveLoopFinishes | backend/app/services/scout_orchestrator.py:123-127 | without cancellation the wait loop runs to the end |
| CompanyResearch.StatusOf | backend/app/services/company_research.py:44-58 | a search is "success" exactly with an output and "timed_out" exactly on a timeout |
| CompanyResearch.Escalate | backend/app/services/company_research.py:97-104 | a timeout becomes the timeout error and a trip the guardrail error of its side |
| CompanyResearch.Step.ToEvent | backend/app/services/company_research.py:26 | only the terminal steps are not status events, and only the finish is "complete" (with line 95) |
| CompanyResearch.OutputsIn | backend/app/services/company_research.py:65-69 | the collected results are outputs of the searches, in completion order |
| CompanyResearch.AllOutputs | backend/app/services/company_research.py:65-69 | when every search succeeds the results are all outputs in completion order |
| CompanyResearch.ProgressSteps | backend/app/services/company_research.py:65-79 | one status per completed search until the first trip, which stops the loop; without a trip every search is reported |
| CompanyResearch.ProgressAgrees | backend/app/services/company_research.py:65-79 | the loop stops exactly at the first trip, and without one collects exactly the outputs (with lines 55-56) |
| CompanyResearch.Summarize | backend/app/services/company_research.py:81-95 | the tail of the stream ends with exactly one terminal step |
| CompanyResearch.SummarizeEnd | backend/app/services/company_research.py:81-104 | no results ends with "all searches failed"; otherwise the summarizer's outcome ends the stream |
| CompanyResearch.PlannedStream | backend/app/services/company_research.py:30-104 | planning and "Found N areas" come first; exactly one terminal step, at the end |
| CompanyResearch.ResearchStream | backend/app/services/company_research.py:21-104 | the stream opens with "Planning" and has exactly one terminal event, at the end |
| CompanyResearch.PlannerTimeoutEnds | backend/app/services/company_research.py:32-34 | a planner timeout ends the stream at once with the timeout error (with lines 101-102) |
| CompanyResearch.ProgressNumbered | backend/app/services/company_research.py:65-79 | the k-th search to finish is reported with "(k/N)" and its reason and status |
| CompanyResearch.ResearchStreamOutcome | backend/app/services/company_research.py:55-104 | the first trip's safe message; no results ends in error without a summary; otherwise the summarizer sees the results in completion order |
| CompanyResearch.FirstFailure | backend/app/services/company_research.py:131 | finds the first search without output in completion order, every earlier one having output, or none when all have output |
| CompanyResearch.ResearchCompany | backend/app/services/company_research.py:107-139 | succeeds exactly when the planner, every search and the summarizer succeed; the summarizer is then given the results in plan order; a planner failure, else the first failing search in completion order, else the summarizer failure is the error raised |
| CompanyResearch.StreamAndPlainAgree | backend/app/services/company_research.py:60-88 | when every search succeeds, both variants give the summarizer the same results, up to order (with lines 125-135) |
| DrillGeneration.SelectedGenerators | backend/app/services/drill_generation.py:37-41 | Python's `ALL_GENERATORS[:n]`, negative n included (with line 151) |
| DrillGeneration.ConfiguredGeneratorsDistinct | backend/app/services/drill_generation.py:37-41 | all three generators are used and their drill types differ |
| DrillGeneration.IfTruthy | backend/app/services/drill_generation.py:58-75 | an optional line appears exactly when the value is present and non-empty |
| DrillGeneration.TechLine | backend/app/services/drill_generation.py:67-71 | the tech-stack line appears exactly when the stack has an entry |
| DrillGeneration.SummaryParts | backend/app/services/drill_generation.py:62-75 | the company-context block opens with its header and always carries the description |
| DrillGeneration.GeneratorParts | backend/app/services/drill_generation.py:44-82 | company and role first, then each optional section exactly when its value is truthy, the feedback last |
| DrillGeneration.MinimalGeneratorInput | backend/app/services/drill_generation.py:52-55 | with no optional inputs the prompt is exactly the company and role lines (with line 82) |
| DrillGeneration.TechStackInPrompt | backend/app/services/drill_generation.py:67-71 | a non-empty tech stack appears in the prompt, languages then frameworks then tools |
| DrillGeneration.StarterCodeLines | backend/app/services/drill_generation.py:108-109 | starter code is shown exactly when present and non-empty |
| DrillGeneration.CandidateDetails | backend/app/services/drill_generation.py:101-115 | the candidate's lines open with its title and end with a blank line |
| DrillGeneration.CandidateBlock | backend/app/services/drill_generation.py:99-115 | each candidate block opens with its numbered header |
| DrillGeneration.EveryCandidateAnnounced | backend/app/services/drill_generation.py:99-100 | every candidate's numbered header appears in the evaluator prompt |
| DrillGeneration.EvaluatorParts | backend/app/services/drill_generation.py:85-117 | the five opening lines, then the candidate blocks numbered from 1 |
| DrillGeneration.Relabel | backend/app/services/drill_generation.py:163-164 | the candidate keeps its drill but takes the generator's type |
| DrillGeneration.Successes | backend/app/services/drill_generation.py:178-181 | only generator outputs become candidates, relabelled |
| DrillGeneration.Select | backend/app/services/drill_generation.py:183-198 | no candidates fails; one is returned directly; with two or more the evaluator decides |
| DrillGeneration.Step.ToEvent | backend/app/services/drill_generation.py:263-336 | only terminal steps become terminal events, and only offers become candidate events |
| DrillGeneration.RunSteps | backend/app/services/drill_generation.py:257-281 | an output yields a candidate then a status; a timeout or failure one status |
| DrillGeneration.CompletionSteps | backend/app/services/drill_generation.py:257-281 | no terminal event in the loop, and one candidate event per candidate collected |
| DrillGeneration.CompletionAgrees | backend/app/services/drill_generation.py:257-281 | the loop stops at the first trip, and without one collects exactly the successes (with lines 244-247) |
| DrillGeneration.Conclusion | backend/app/services/drill_generation.py:283-336 | the conclusion ends with exactly one terminal step and offers nothing more |
| DrillGeneration.ConclusionEnd | backend/app/services/drill_generation.py:283-336 | a trip ends with its safe message; otherwise the selection's result ends the stream, and the evaluator runs exactly with two or more candidates |
| DrillGeneration.GenerateDrillStream | backend/app/services/drill_generation.py:201-336 | the stream opens with the starting and generating notes and has exactly one terminal event, at the end |
| DrillGeneration.StreamOver | backend/app/services/drill_generation.py:213-336 | the same shape for any generator list |
| DrillGeneration.DrillStreamOutcome | backend/app/services/drill_generation.py:257-336 | the first trip ends the stream safely; otherwise the selection's outcome ends it, the evaluator runs exactly for two or more candidates, with one candidate event each |
| DrillGeneration.StreamOverEnd | backend/app/services/drill_generation.py:257-336 | the terminal event of the stream follows the trip or the selection |
| DrillGeneration.StreamOverOffers | backend/app/services/drill_generation.py:260-267 | without a trip there is one candidate event per candidate |
| DrillGeneration.GenerateDrill | backend/app/services/drill_generation.py:120-198 | any guardrail trip fails with a guardrail error; otherwise the candidates are selected in list order |
| DrillGeneration.SuccessesIgnoreTrips | backend/app/services/drill_generation.py:178-181 | the candidate filter treats a trip like any other failure |
| DrillGeneration.GenerateDrillAsWritten | backend/app/services/drill_generation.py:168-181 | as written a generator's guardrail trip never surfaces: a guardrail error can only come from the evaluator, and a run where no generator produced a candidate ends with "no candidates"; `AsWrittenIgnoresTrips` shows a trip counts as an ordinary failure and `TripSwallowedExample` shows the evaluator's pick returned despite a trip |
| DrillGeneration.CandidateSuffices | backend/app/services/drill_generation.py:178-184 | one generator that produces a candidate is enough to avoid the "all generators failed" error |
| DrillGeneration.AsWrittenIgnoresTrips | backend/app/services/drill_generation.py:178-181 | as written, a trip changes nothing compared with an ordinary error (with lines 168-169) |
| DrillGeneration.TripSwallowedExample | backend/app/services/drill_generation.py:178-181 | a tripped coding generator with two good ones returns the evaluator's pick as written, and the guardrail error as intended (with lines 168-169) |
| FeedbackPersistence.ReplaceUnsafe | backend/app/services/feedback_persistence.py:17 | each character other than word characters and "-" becomes "_", the rest are kept |
| FeedbackPersistence.CollapseUnderscores | backend/app/services/feedback_persistence.py:19 | no "__" remains, every character comes from the input, first and last characters are kept, and a string without "__" is unchanged |
| FeedbackPersistence.CollapseKeepsOthers | backend/app/services/feedback_persistence.py:19 | the characters other than "_" come through collapsing unchanged and in order |
| FeedbackPersistence.CollapseKeepsUnderscore | backend/app/services/feedback_persistence.py:19 | "_" remains after collapsing exactly when the input had one |
| FeedbackPersistence.CollapseIsScan | backend/app/services/feedback_persistence.py:19 | the result equals a left-to-right scan that drops exactly each "_" following a "_" |
| FeedbackPersistence.CollapseExample | backend/app/services/feedback_persistence.py:19 | "a__b" becomes "a_b" |
| FeedbackPersistence.LStripUnderscores | backend/app/services/feedback_persistence.py:21 | the suffix left after dropping the leading "_" characters; it does not start with "_" |
| FeedbackPersistence.RStripUnderscores | backend/app/services/feedback_persistence.py:21 | the prefix left after dropping the trailing "_" characters; it does not end with "_" |
| FeedbackPersistence.StripUnderscores | backend/app/services/feedback_persistence.py:21 | the slice starting after the leading "_" characters with only "_" after it and no "_" at either end, so exactly the "_" at the two ends are dropped; unchanged when there was none |
| FeedbackPersistence.StripUnique | backend/app/services/feedback_persistence.py:21 | any slice with only "_" outside it and no "_" at its ends is the stripped string |
| FeedbackPersistence.StripKeepsOthers | backend/app/services/feedback_persistence.py:21 | stripping keeps every character other than "_", in order |
| FeedbackPersistence.SanitizeFilename | backend/app/services/feedback_persistence.py:14-21 | only lower-case word characters and "-", no "__", no "_" at either end, and its characters other than "_" are those of the lower-cased name with unsafe characters replaced, in order |
| FeedbackPersistence.SanitizeFilenameIdempotent | backend/app/services/feedback_persistence.py:14-21 | sanitising a sanitised name changes nothing |
| FeedbackPersistence.SanitizeFilenameExample | backend/app/services/feedback_persistence.py:14-21 | "Acme Corp!" becomes "acme_corp" |
| FeedbackPersistence.YearText | backend/app/services/feedback_persistence.py:46 | `%Y` has four digits for years 1000 to 9999 and at most three before 1000 |
| FeedbackPersistence.StampDir | backend/app/services/feedback_persistence.py:46 | the directory name has its separators at fixed places from both ends and 16 characters exactly for four-digit years |
| FeedbackPersistence.StampDate | backend/app/services/feedback_persistence.py:118 | the date line's stamp has its separators at fixed places from the end and 16 characters exactly for four-digit years |
| FeedbackPersistence.DigitsOfNat | backend/app/services/feedback_persistence.py:46 | the decimal year reads back as the year |
| FeedbackPersistence.StampDirRoundTrip | backend/app/services/feedback_persistence.py:46 | the dd-mm-Y_hh-mm directory name parses back to its time stamp for every year |
| FeedbackPersistence.StampDateRoundTrip | backend/app/services/feedback_persistence.py:118 | the Y-mm-dd hh:mm date line parses back to its time stamp for every year |
| FeedbackPersistence.ShortYearDir | backend/app/services/feedback_persistence.py:46 | 2 January 999 at 03:04 gives the directory "02-01-999_03-04" |
| FeedbackPersistence.ShortYearDate | backend/app/services/feedback_persistence.py:118 | the same minute gives the date "999-01-02 03:04" |
| FeedbackPersistence.FullYearStamp | backend/app/services/feedback_persistence.py:46 | 15 March 2024 at 09:05 gives the directory "15-03-2024_09-05" |
| FeedbackPersistence.FeedbackPath | backend/app/services/feedback_persistence.py:24-54 | the path is docs/drills/feedbacks/\<stamp\>/\<company\>_\<role\>.md, and the stem has no dot |
| FeedbackPersistence.NumberedInjective | backend/app/services/feedback_persistence.py:76 | different counters give different paths |
| FeedbackPersistence.NumberedBound | backend/app/services/feedback_persistence.py:74-79 | the counter cannot pass the number of existing files, so the search ends |
| FeedbackPersistence.ResolveDuplicatePath | backend/app/services/feedback_persistence.py:57-79 | the result does not exist; it is the path itself when free, otherwise the first free numbered path |
| FeedbackPersistence.ScoreRating | backend/app/services/feedback_persistence.py:106-111 | Good exactly from 7, Needs Improvement exactly below 5 |
| FeedbackPersistence.RatingMonotone | backend/app/services/feedback_persistence.py:106-111 | a higher score never gets a lower rating |
| FeedbackPersistence.HeaderLines | backend/app/services/feedback_persistence.py:113-125 | the eleven header lines |
| FeedbackPersistence.StrengthLines | backend/app/services/feedback_persistence.py:127-136 | four lines per strength, or the one "none noted" line exactly when there are none |
| FeedbackPersistence.ImprovementLines | backend/app/services/feedback_persistence.py:145-156 | six lines per improvement, or the one "none noted" line exactly when there are none |
| FeedbackPersistence.FeedbackLines | backend/app/services/feedback_persistence.py:113-167 | the score line carries the rating, the "none noted" lines appear exactly for empty lists, and the summary is the next-to-last line |
| GuardrailPatterns.FirstMatch | backend/app/agents/guardrails/patterns.py:57-60 | the index of the first matching pattern, or none when no pattern matches (with lines 104-107) |
| GuardrailPatterns.CheckPatterns | backend/app/agents/guardrails/patterns.py:50-60 | flagged exactly when some pattern matches, reporting the first one that does (with lines 97-107) |
| GuardrailPatterns.AnyCasingOfJailbreakTrips | backend/app/agents/guardrails/patterns.py:34 | "jailbreak" in any casing is an injection (with line 47) |
| GuardrailPatterns.SkKeyLeaks | backend/app/agents/guardrails/patterns.py:68 | "sk-" and twenty letters or digits are a leak (with line 94) |
| GuardrailPatterns.PrivateKeyHeaderLeaks | backend/app/agents/guardrails/patterns.py:90 | a PEM private-key header is a leak (with line 94) |
| InjectionDetector.InjectionGuardrail | backend/app/agents/guardrails/injection_detector.py:40-84 | trips exactly on a pattern match, or on the classifier's flag for suspicious text; the classifier runs only for suspicious text without a match; the safe answer has no pattern |
| InjectionDetector.PlainInputIgnoresClassifier | backend/app/agents/guardrails/injection_detector.py:87-126 | for text that is not suspicious the classifier cannot change the result (with line 67) |
| InjectionDetector.SuspicionPersists | backend/app/agents/guardrails/injection_detector.py:87-126 | suspicious text stays suspicious inside longer text |
| InjectionDetector.JailbreakTripsWithoutClassifier | backend/app/agents/guardrails/injection_detector.py:52-63 | "jailbreak" trips the fast path without the classifier |
| LeakageDetector.LeakageGuardrail | backend/app/agents/guardrails/leakage_detector.py:43-87 | trips exactly on a pattern match, or on the classifier's flag when the text might hold secrets; the classifier runs only then |
| LeakageDetector.PlainOutputIgnoresClassifier | backend/app/agents/guardrails/leakage_detector.py:90-128 | for text with no secret hint the classifier cannot change the result (with line 70) |
| LeakageDetector.SecretHintPersists | backend/app/agents/guardrails/leakage_detector.py:90-128 | a secret hint stays one inside longer text |
| LeakageDetector.UnmatchedLongKeyIsClassified | backend/app/agents/guardrails/leakage_detector.py:68-82 | a 32-character key that no pattern matches goes to the classifier, which decides (with lines 119-122) |
| LeakageDetector.SkKeyTripsWithoutClassifier | backend/app/agents/guardrails/leakage_detector.py:55-66 | an "sk-" key trips the fast path without the classifier |
| LeakageDetector.PrivateKeyTripsWithoutClassifier | backend/app/agents/guardrails/leakage_detector.py:55-66 | a private-key header trips the fast path without the classifier |
| Sanitization.WordLength | backend/app/utils/sanitization.py:12 | the length of the leading run of non-whitespace |
| Sanitization.Split | backend/app/utils/sanitization.py:12 | `str.split()` gives non-empty words without whitespace |
| Sanitization.SplitIsScan | backend/app/utils/sanitization.py:12 | the words are exactly those an independent character scanner collects: each maximal run of non-whitespace, in order |
| Sanitization.JoinSplitIsScan | backend/app/utils/sanitization.py:12 | splitting and joining with one space equals an independent scanner that drops leading and trailing whitespace and turns each inner whitespace run into one space |
| Sanitization.ScanAppend | backend/app/utils/sanitization.py:12 | the scanner reads a concatenation piece by piece |
| Sanitization.TwoWordsScan | backend/app/utils/sanitization.py:12 | two words with any whitespace around and between them normalise to the words joined by one space |
| Sanitization.SanitizeInput | backend/app/utils/sanitization.py:1-15 | a prefix of the words joined by single spaces whose length is exactly the smaller of max_length and the joined length (for a negative limit, the joined length less the overshoot); all-whitespace gives ""; tidy text within the limit is unchanged |
| Sanitization.SanitizeDefault | backend/app/utils/sanitization.py:1 | with the default limit the result is the first min(8000 and joined length) characters of the words joined by single spaces |
| Sanitization.SanitizedByScan | backend/app/utils/sanitization.py:1-15 | text whose scan fits in 8000 characters sanitises to exactly its scan |
| Sanitization.SanitizeHelloWorld | backend/tests/test_sanitization.py:4-35 | "hello" and "world" with any whitespace around and between them sanitise to "hello world" |
| Sanitization.SanitizeSurroundingSpace | backend/tests/test_sanitization.py:7-15 | "  hello world  " sanitises to "hello world" |
| Sanitization.SanitizeSpaceRun | backend/tests/test_sanitization.py:17-25 | "hello    world" sanitises to "hello world" |
| Sanitization.SanitizeTabNewline | backend/tests/test_sanitization.py:27-35 | "hello\t\nworld" sanitises to "hello world" |
| Sanitization.LongWordTruncated | backend/app/utils/sanitization.py:12-14 | a run of n letters limited to m <= n gives exactly the first m letters |
| Sanitization.SanitizeCustomLimit | backend/tests/test_sanitization.py:51-59 | one hundred letters limited to 50 give 50 characters |
| Sanitization.SanitizeDefaultLimit | backend/tests/test_sanitization.py:61-69 | ten thousand letters under the default limit give 8000 characters |
| Sanitization.SplitEdgeCases | backend/app/utils/sanitization.py:12 | all-whitespace text splits to nothing, and normalised text joins back to itself |
| Sanitization.JoinedIsNormalised | backend/app/utils/sanitization.py:12 | the re-joined words have single spaces and no space at either end |
| Sanitization.SqueezeJoined | backend/app/utils/sanitization.py:12 | normalising keeps every non-whitespace character, in order |
| Sanitization.NormalisedRoundTrip | backend/app/utils/sanitization.py:12 | normalised text is a fixed point of split-then-join |
| Sanitization.TruncationLeavesTrailingSpace | backend/app/utils/sanitization.py:12-14 | truncation can leave a trailing space, so sanitising twice can differ from once |
| UserSelection.ValidateCompanyName | backend/app/schemas/user_selection.py:19-50 | accepted exactly when the raw value has 2..100 characters and the stripped one is long enough, has no emoji and no symbol repeated three times; the stripped value is kept (with lines 7-12) |
| UserSelection.StrippedNeverTooLong | backend/app/schemas/user_selection.py:27-28 | the "at most 100" check never fires (with line 10) |
| UserSelection.CompanyNameStable | backend/app/schemas/user_selection.py:19-50 | an accepted name is accepted again unchanged |
| UserSelection.AsciiHasNoEmoji | backend/app/schemas/user_selection.py:31-44 | ASCII text never counts as containing an emoji |
| UserSelection.AcceptedUnchanged | backend/app/schemas/user_selection.py:19-50 | a well-formed name is accepted as it is |
| UserSelection.DigitsAccepted | backend/app/schemas/user_selection.py:46-48 | digits are not symbols: "Google123" is accepted |
| UserSelection.SeparatorsAccepted | backend/app/schemas/user_selection.py:46-48 | single separators such as "-" and "." are accepted |
| UserSelection.RepeatedSymbolsRefused | backend/app/schemas/user_selection.py:46-48 | "Acme!!!" is refused for repeated symbols |
| UserSelection.ValidateRoleDescription | backend/app/schemas/user_selection.py:52-64 | absent or blank gives none; more than 8000 stripped characters is refused; otherwise the stripped text |
| UserSelection.RoleDescriptionStable | backend/app/schemas/user_selection.py:52-64 | an accepted description is accepted again unchanged |
| AgentOutcomes.SafeMessage | backend/app/agents/guardrails/exceptions.py:8-14 | the injection message exactly for input trips, the leakage message for output trips |
| AgentOutcomes.FirstTrip | backend/app/services/drill_generation.py:244-247 | the first guardrail trip in completion order, none exactly when nothing tripped (with lines 324-327) |

## Left out

- Agent internals, prompts, model choice and the OpenAI Agents runtime are left out. Agent runs are oracle outcomes.
- Concurrency is modelled by completion orders, not by interleavings or locks. The registry's `threading.Lock` is not modelled.
- The database layer (`github_repos_db.py`) is left out. Its reads are boolean or value parameters. Its writes are the returned `RunUpdate` values.
- Server-sent-event framing is left out: JSON encoding and `data: ...\n\n`. Events are datatypes with their texts.
- Floating point is left out. Scores and times are `real`. Contribution scores are scaled by ten to integers. Python's rendering of floats is a parameter (`showReal`).
- Regular expressions: the engine is a parameter. Only `jailbreak`, `sk-...` and the private-key header get a character-level meaning. The engine is assumed to match at least every text those literals describe. It may match more: with `IGNORECASE` Python also folds the dotless i, the long s and the Kelvin sign, so no claim is made that a text the engine flags has an ASCII match.
- Case and character classes: `lower()`, `\w` and `IGNORECASE` are ASCII only. Whitespace follows Python's `str.isspace` set exactly.
- `GithubClient.RetryRequest`: the sleeps with random jitter between retries are left out.
- `GithubClient.SearchQueryParts`: "six months ago" is a parameter. The clock is not read.
- `_parse_repo_node` is left out. Pages arrive already parsed into repository records.
- Save-feedback writing is left out: directory creation, file writing and the relative path returned to the caller. `ResolveDuplicatePath` takes the set of existing files as a parameter.
- `update_last_feedback_summary` and `Session.current_drill` are not defined on the session store. As written, the evaluation endpoint would raise `AttributeError` on them, which the decorator turns into 500. The model takes the current drill as a parameter and leaves the summary update out.
- `is_cancelled` is missing from the task registry, so `_check_cancelled` raises. The model makes the check an oracle probe. `MissingProbeFailsEveryRun` shows what the code as written does.
- `ScoutOrchestrator.RunAnalysis`: `_run_analysis` passes `SearchFilters` where `analyze_batch` expects a `DeveloperProfile`. As written every batch fails on the missing `skill_level`/`goals` attributes. The model takes each batch's outcome as an input, so this failure is one of the possible inputs.
- `scout_search_stream` is called with four arguments by the API but takes two. The model follows the orchestrator's own signature.
- `FeedbackPersistence.StampDir` and `FeedbackPersistence.StampDate`: `%Y` is written as glibc does, in decimal without padding, so years before 1000 give shorter stamps. C libraries that pad `%Y` to four digits are not modelled.
- `RepoFiltering.ApplyFiltersStable`: ties are ties of the exact score (scaled by ten to integers). Python's float keys can separate scores that are equal in exact arithmetic. A repo with 17 open issues and no labelled ones scores 17 x 0.1 = 1.7000000000000002; one with one help-wanted and two open issues scores 1.5 + 2 x 0.1 = 1.7. Given the second before the first, the source puts the first ahead, while the model keeps the input order.
- `ScoutOrchestrator.Clamp`: how many tasks one `asyncio.wait` round returns is an oracle. The clamp only keeps it between one and the pending count.
- `CompanyInfo` holds only the data types of `schemas/company_info.py`. Its API module is not part of this model.
- The profile endpoints and the results endpoint of `api/scout.py` are pass-throughs to the database and are left out.
- `ScoutApi.StartSearch`: the second clock reading is a parameter no earlier than the limiter's. Other requests that run during the awaits between the check and the append are not modelled: each request sees the state the previous one left.

## Findings

| source | as written | input that shows it | evidently intended | confidence | as-written member | corrected member |
|---|---|---|---|---|---|---|
| backend/app/services/scout_analysis.py:145-149 | a failed batch adds the whole batch size to the analysed counter | 3 repositories, batch size 2, both batches fail: the second error reads "(4/3)" | the counter is capped at the total, as `min(analyzed + bs, total)` does in `scout_orchestrator.py` lines 139 and 147 | not executed | ScoutAnalysis.StreamedCounterOvershoots | ScoutAnalysis.StreamedCounterCapped |
| backend/app/services/drill_generation.py:168-181 | the guardrail trip re-raised by `run_generator` is caught by `gather(return_exceptions=True)` and dropped like an ordinary failure | the coding generator's input guardrail trips, the other two produce candidates: the evaluator's pick is returned | the trip propagates, as the docstring's "Raises" section and the re-raise intend | not executed | DrillGeneration.TripSwallowedExample | DrillGeneration.GenerateDrill |
| backend/app/api/evaluation.py:75-106 | the decorator's `except Exception` also catches the HTTPException raised by the session check | an unknown or expired session id: the answer is 500 evaluation_failed, not 404 session_not_found | the handler's own HTTP errors (404, 400) pass through unchanged | not executed | EvaluationApi.MissingSessionAsWrittenIs500 | EvaluationApi.EvaluateSolution |

=== FILE: agent_outcome.dfy ===
/** How one agent run can end, as the services that await it see it, and the
    user-facing messages that replace guardrail trips (`exceptions.py` of the
    guardrails package). */
module AgentOutcomes {
  import opened Wrappers

  /** The guardrail that tripped: the input guardrail (injection) or the
      output guardrail (leakage). */
  datatype Tripwire = InputTrip | OutputTrip

  /** An awaited agent run: its final output, a timeout, a guardrail trip,
      or any other exception (a `ValueError` is told apart because the
      streams report its text verbatim). */
  datatype AgentOutcome<T> =
    | Output(value: T)
    | AgentTimeout
    | Tripped(tripwire: Tripwire)
    | AgentRaised(isValueError: bool, message: string)

  const SafeInjectionMessage := "Unable to process this request. Please provide a valid company name and role."

  const SafeLeakageMessage := "Research completed but results could not be displayed. Please try again."

  /** The safe message shown for a trip, revealing nothing of the check. */
  function SafeMessage(t: Tripwire): (m: string)
    ensures m == SafeInjectionMessage || m == SafeLeakageMessage
    ensures (m == SafeInjectionMessage) <==> t == InputTrip
  {
    match t
    case InputTrip => SafeInjectionMessage
    case OutputTrip => SafeLeakageMessage
  }

  /** No run in `order` tripped a guardrail. */
  predicate NoTrip<T>(order: seq<nat>, outcome: nat -> AgentOutcome<T>)
  {
    forall j :: 0 <= j < |order| ==> !outcome(order[j]).Tripped?
  }

  /** The first guardrail trip in `order`, if any: awaiting the runs in that
      order re-raises it and nothing after it is seen. */
  function FirstTrip<T>(order: seq<nat>, outcome: nat -> AgentOutcome<T>): (t: Option<Tripwire>)
    ensures t.None? <==> NoTrip(order, outcome)
    ensures t.Some? ==> exists j :: 0 <= j < |order| && outcome(order[j]) == Tripped(t.value)
  {
    if order == [] then None
    else if outcome(order[0]).Tripped? then Some(outcome(order[0]).tripwire)
    else
      assert forall j :: 1 <= j < |order| ==> order[j] == order[1..][j - 1];
      FirstTrip(order[1..], outcome)
  }
}

=== FILE: company_info.dfy ===
/** The company-research data of `schemas/company_info.py`: the planner's
    search plan and the summarizer's company summary. */
module CompanyInfo {
  import opened Wrappers

  datatype SearchQuery = SearchQuery(reason: string, query: string)

  datatype SearchPlan = SearchPlan(searches: seq<SearchQuery>)

  datatype TechStack = TechStack(languages: seq<string>, frameworks: seq<string>, tools: seq<string>)

  datatype CompanySummary = CompanySummary(
    name: string,
    industry: Option<string>,
    description: string,
    size: Option<string>,
    techStack: Option<TechStack>,
    engineeringCulture: Option<string>,
    recentNews: seq<string>,
    interviewTips: Option<string>,
    sources: seq<string>)
}

=== FILE: company_research.dfy ===
/** The company-research pipeline (`services/company_research.py`): a planner
    proposes searches, the searches run concurrently, and a summarizer turns
    the successful results into a company summary. The streamed variant
    reports progress as the searches complete; the plain variant gathers
    them in plan order. Agent runs are oracle outcomes and the completion
    order of the searches is an input. */
module CompanyResearch {
  import opened Wrappers
  import opened Seqs
  import opened Text
  import opened AgentOutcomes
  import opened CompanyInfo

  // ---------------------------------------------------------------------
  // Prompts

  /** The planner's input. */
  function PlanInput(company: string, role: string): string
  {
    "Company: " + company + "\nRole: " + role
  }

  /** One search agent's input. */
  function SearchInput(item: SearchQuery): string
  {
    "Search term: " + item.query + "\nReason: " + item.reason
  }

  /** The summarizer's input: the planner's header, then the results
      separated by blank lines. */
  function SummaryInput(company: string, role: string, results: seq<string>): string
  {
    PlanInput(company, role) + "\n\nResearch:\n" + Join(results, "\n\n")
  }

  // ---------------------------------------------------------------------
  // Events

  /** The status `run_search` reports for a search that did not trip a
      guardrail. */
  datatype SearchStatus = SearchSucceeded | SearchTimedOut | SearchFailed

  function StatusOf(o: AgentOutcome<string>): (st: SearchStatus)
    requires !o.Tripped?
    ensures st == SearchSucceeded <==> o.Output?
    ensures st == SearchTimedOut <==> o.AgentTimeout?
  {
    match o
    case Output(_) => SearchSucceeded
    case AgentTimeout => SearchTimedOut
    case AgentRaised(_, _) => SearchFailed
  }

  /** The status notes of the stream. `Progress` is the k-th of n searches to
      finish. */
  datatype Note =
    | Planning
    | FoundAreas(count: nat)
    | Progress(status: SearchStatus, k: nat, n: nat, reason: string)
    | Analyzing
  {
    function Text(): string {
      match this
      case Planning => "Planning research strategy..."
      case FoundAreas(n) => "Found " + NatToString(n) + " areas to research"
      case Progress(st, k, n, r) =>
        var counter := "(" + NatToString(k) + "/" + NatToString(n) + "): ";
        (match st
         case SearchSucceeded => "Completed " + counter + r
         case SearchTimedOut => "Timed out " + counter + r + ", continuing..."
         case SearchFailed => "Failed " + counter + r + ", continuing...")
      case Analyzing => "Analyzing findings..."
    }
  }

  /** Why research gives no summary. */
  datatype ResearchFailure =
    | GuardrailTripped(tripwire: Tripwire)
    | AllSearchesFailed
    | ResearchTimedOut
    | ResearchRaised(message: string)
  {
    /** The error event's message in the stream. */
    function Text(): string {
      match this
      case GuardrailTripped(t) => SafeMessage(t)
      case AllSearchesFailed => "All searches failed. Please try again."
      case ResearchTimedOut => "Research timed out. Please try again."
      case ResearchRaised(m) => "Research failed: " + m
    }
  }

  /** The failure an agent run that gave no output raises to the stream's
      handlers. */
  function Escalate<T>(o: AgentOutcome<T>): (f: ResearchFailure)
    requires !o.Output?
    ensures o.AgentTimeout? <==> f == ResearchTimedOut
    ensures o.Tripped? <==> f.GuardrailTripped?
    ensures o.Tripped? ==> f.tripwire == o.tripwire
  {
    match o
    case AgentTimeout => ResearchTimedOut
    case Tripped(t) => GuardrailTripped(t)
    case AgentRaised(_, m) => ResearchRaised(m)
  }

  /** The dictionaries the stream yields. */
  datatype ResearchEvent = Status(message: string) | Complete(data: CompanySummary) | Error(message: string)
  {
    function Type(): string {
      match this
      case Status(_) => "status"
      case Complete(_) => "complete"
      case Error(_) => "error"
    }
  }

  /** One step of the stream, before it is rendered as an event. */
  datatype Step = Say(note: Note) | Finish(summary: CompanySummary) | Fail(failure: ResearchFailure)
  {
    predicate IsTerminal() { Finish? || Fail? }

    function ToEvent(): (e: ResearchEvent)
      ensures e.Type() == "status" <==> !IsTerminal()
      ensures e.Complete? <==> Finish?
    {
      match this
      case Say(n) => Status(n.Text())
      case Finish(s) => Complete(s)
      case Fail(f) => Error(f.Text())
    }
  }

  // ---------------------------------------------------------------------
  // Completion order

  /** The search results in the given order, failures skipped: the
      reference the stream and the plain variant are held to. */
  function OutputsIn(order: seq<nat>, outcome: nat -> AgentOutcome<string>): (rs: seq<string>)
    ensures |rs| <= |order|
    ensures forall r :: r in rs ==> exists j :: 0 <= j < |order| && outcome(order[j]) == Output(r)
  {
    if order == [] then []
    else
      var rest := OutputsIn(order[1..], outcome);
      assert forall r :: r in rest ==> exists j :: 1 <= j < |order| && outcome(order[j]) == Output(r);
      (if outcome(order[0]).Output? then [outcome(order[0]).value] else []) + rest
  }

  /** A search's text, or "" for one that gave none. */
  function ValueOf(outcome: nat -> AgentOutcome<string>): nat -> string
  {
    (j: nat) => if outcome(j).Output? then outcome(j).value else ""
  }

  /** When every search succeeded, the results are the outputs in order. */
  lemma {:induction false} AllOutputs(order: seq<nat>, outcome: nat -> AgentOutcome<string>)
    requires forall i :: 0 <= i < |order| ==> outcome(order[i]).Output?
    ensures OutputsIn(order, outcome) == Map(order, ValueOf(outcome))
  {
    if order != [] {
      AllOutputs(order[1..], outcome);
      assert Map(order, ValueOf(outcome)) == [ValueOf(outcome)(order[0])] + Map(order[1..], ValueOf(outcome));
    }
  }

  /** What the `as_completed` loop collected. */
  datatype Gathered = Gathered(steps: seq<Step>, results: seq<string>, tripped: Option<Tripwire>)

  /** The `as_completed` loop, `done` searches already reported: one status
      per finished search, numbered from `done + 1`, and a stop at the first
      guardrail trip, which `run_search` re-raises. */
  function ProgressSteps(searches: seq<SearchQuery>, order: seq<nat>, outcome: nat -> AgentOutcome<string>, done: nat)
    : (g: Gathered)
    requires InRange(order, |searches|)
    ensures |g.steps| <= |order|
    ensures forall i :: 0 <= i < |g.steps| ==> !outcome(order[i]).Tripped?
    ensures forall i :: 0 <= i < |g.steps| ==>
      g.steps[i] == Say(Progress(StatusOf(outcome(order[i])), done + i + 1, |searches|, searches[order[i]].reason))
    ensures g.tripped.None? ==> |g.steps| == |order|
    ensures g.tripped.Some? ==> |g.steps| < |order| && outcome(order[|g.steps|]) == Tripped(g.tripped.value)
  {
    if order == [] then Gathered([], [], None)
    else
      var o := outcome(order[0]);
      if o.Tripped? then Gathered([], [], Some(o.tripwire))
      else
        var rest := ProgressSteps(searches, order[1..], outcome, done + 1);
        var step := Say(Progress(StatusOf(o), done + 1, |searches|, searches[order[0]].reason));
        Gathered([step] + rest.steps, (if o.Output? then [o.value] else []) + rest.results, rest.tripped)
  }

  /** The loop stops exactly at the first trip and, without one, collects
      the successful results in completion order. */
  lemma {:induction false} ProgressAgrees(searches: seq<SearchQuery>, order: seq<nat>, outcome: nat -> AgentOutcome<string>, done: nat)
    requires InRange(order, |searches|)
    ensures ProgressSteps(searches, order, outcome, done).tripped == FirstTrip(order, outcome)
    ensures FirstTrip(order, outcome).None? ==> ProgressSteps(searches, order, outcome, done).results == OutputsIn(order, outcome)
  {
    if order != [] && !outcome(order[0]).Tripped? {
      ProgressAgrees(searches, order[1..], outcome, done + 1);
    }
  }

  // ---------------------------------------------------------------------
  // research_company_stream

  datatype ResearchTrace = ResearchTrace(steps: seq<Step>, summaryInput: Option<string>)
  {
    function Events(): seq<ResearchEvent> {
      seq(|steps|, i requires 0 <= i < |steps| => steps[i].ToEvent())
    }
  }

  /** After the searches: a trip's safe message, the no-results error, or
      the summarizer's run. */
  function Summarize(company: string, role: string, g: Gathered, summarizer: AgentOutcome<CompanySummary>): (t: ResearchTrace)
    ensures |t.steps| >= 1 && t.steps[|t.steps| - 1].IsTerminal()
    ensures forall i :: 0 <= i < |t.steps| - 1 ==> !t.steps[i].IsTerminal()
  {
    if g.tripped.Some? then ResearchTrace([Fail(GuardrailTripped(g.tripped.value))], None)
    else if g.results == [] then ResearchTrace([Fail(AllSearchesFailed)], None)
    else
      var last := if summarizer.Output? then Finish(summarizer.value) else Fail(Escalate(summarizer));
      ResearchTrace([Say(Analyzing), last], Some(SummaryInput(company, role, g.results)))
  }

  lemma SummarizeEnd(company: string, role: string, g: Gathered, summarizer: AgentOutcome<CompanySummary>)
    ensures var t := Summarize(company, role, g, summarizer);
      var last := t.steps[|t.steps| - 1];
      && (g.tripped.Some? ==> last == Fail(GuardrailTripped(g.tripped.value)) && t.summaryInput.None?)
      && (g.tripped.None? && g.results == [] ==> last == Fail(AllSearchesFailed) && t.summaryInput.None?)
      && (g.tripped.None? && g.results != [] ==>
            && t.summaryInput == Some(SummaryInput(company, role, g.results))
            && last == (if summarizer.Output? then Finish(summarizer.value) else Fail(Escalate(summarizer))))
  {
  }

  /** Two runs of non-terminal steps followed by a run that ends, and only
      ends, with a terminal step: the whole ends exactly once. */
  lemma EndsOnce(a: seq<Step>, b: seq<Step>, c: seq<Step>)
    requires forall i :: 0 <= i < |a| ==> !a[i].IsTerminal()
    requires forall i :: 0 <= i < |b| ==> !b[i].IsTerminal()
    requires |c| >= 1 && c[|c| - 1].IsTerminal()
    requires forall i :: 0 <= i < |c| - 1 ==> !c[i].IsTerminal()
    ensures var s := a + b + c;
      && s[|s| - 1].IsTerminal()
      && forall i :: 0 <= i < |s| - 1 ==> !s[i].IsTerminal()
  {
    var s := a + b + c;
    forall i | 0 <= i < |s| - 1
      ensures !s[i].IsTerminal()
    {
      if i < |a| {
        assert s[i] == a[i];
      } else if i < |a| + |b| {
        assert s[i] == b[i - |a|];
      } else {
        assert s[i] == c[i - |a| - |b|];
      }
    }
  }

  /** The stream once the plan is known. */
  function PlannedStream(company: string, role: string, searches: seq<SearchQuery>, order: seq<nat>,
                         outcome: nat -> AgentOutcome<string>, summarizer: AgentOutcome<CompanySummary>): (t: ResearchTrace)
    requires InRange(order, |searches|)
    ensures |t.steps| >= 3 && t.steps[0] == Say(Planning) && t.steps[1] == Say(FoundAreas(|searches|))
    ensures t.steps[|t.steps| - 1].IsTerminal()
    ensures forall i :: 0 <= i < |t.steps| - 1 ==> !t.steps[i].IsTerminal()
  {
    var opening := [Say(Planning), Say(FoundAreas(|searches|))];
    var g := ProgressSteps(searches, order, outcome, 0);
    var rest := Summarize(company, role, g, summarizer);
    EndsOnce(opening, g.steps, rest.steps);
    ResearchTrace(opening + g.steps + rest.steps, rest.summaryInput)
  }

  /** `research_company_stream`: exactly one terminal event, at the end,
      either the summary or an error. */
  function ResearchStream(company: string, role: string, planner: AgentOutcome<SearchPlan>, order: seq<nat>,
                          outcome: nat -> AgentOutcome<string>, summarizer: AgentOutcome<CompanySummary>): (t: ResearchTrace)
    requires planner.Output? ==> IsOrder(order, |planner.value.searches|)
    ensures |t.steps| >= 2 && t.steps[0] == Say(Planning)
    ensures t.steps[|t.steps| - 1].IsTerminal()
    ensures forall i :: 0 <= i < |t.steps| - 1 ==> !t.steps[i].IsTerminal()
  {
    match planner
    case Output(plan) => PlannedStream(company, role, plan.searches, order, outcome, summarizer)
    case _ => ResearchTrace([Say(Planning), Fail(Escalate(planner))], None)
  }

  /** A planner that times out ends the stream with the timeout error,
      before any search runs. */
  lemma PlannerTimeoutEnds(company: string, role: string, order: seq<nat>,
                           outcome: nat -> AgentOutcome<string>, summarizer: AgentOutcome<CompanySummary>)
    ensures var t := ResearchStream(company, role, AgentTimeout, order, outcome, summarizer);
      && t.steps == [Say(Planning), Fail(ResearchTimedOut)]
      && t.Events()[1] == Error("Research timed out. Please try again.")
      && t.summaryInput.None?
  {
  }

  /** Every search that finishes before a trip is reported once, the k-th
      to finish carrying "(k/N)" and its own status, whatever the others
      did. */
  lemma ProgressNumbered(company: string, role: string, plan: SearchPlan, order: seq<nat>,
                         outcome: nat -> AgentOutcome<string>, summarizer: AgentOutcome<CompanySummary>, i: nat)
    requires IsOrder(order, |plan.searches|)
    requires NoTrip(order, outcome) && i < |order|
    ensures var t := ResearchStream(company, role, Output(plan), order, outcome, summarizer);
      && 2 + i < |t.steps|
      && t.steps[2 + i] == Say(Progress(StatusOf(outcome(order[i])), i + 1, |plan.searches|, plan.searches[order[i]].reason))
  {
    var g := ProgressSteps(plan.searches, order, outcome, 0);
    ProgressAgrees(plan.searches, order, outcome, 0);
    var t := PlannedStream(company, role, plan.searches, order, outcome, summarizer);
    assert t.steps[2 + i] == g.steps[i];
  }

  /** The outcome rules of the stream once the plan is known: the first
      trip's safe message; with no successful search (an empty plan
      included) the "all failed" error and no summarizer run; otherwise the
      summarizer sees the results in completion order and its outcome ends
      the stream. */
  lemma ResearchStreamOutcome(company: string, role: string, plan: SearchPlan, order: seq<nat>,
                              outcome: nat -> AgentOutcome<string>, summarizer: AgentOutcome<CompanySummary>)
    requires IsOrder(order, |plan.searches|)
    ensures var t := ResearchStream(company, role, Output(plan), order, outcome, summarizer);
      var rs := OutputsIn(order, outcome);
      var last := t.steps[|t.steps| - 1];
      && (FirstTrip(order, outcome).Some? ==>
            last == Fail(GuardrailTripped(FirstTrip(order, outcome).value)) && t.summaryInput.None?)
      && (FirstTrip(order, outcome).None? && rs == [] ==>
            last == Fail(AllSearchesFailed) && t.summaryInput.None?
            && forall i :: 0 <= i < |t.steps| ==> !t.steps[i].Finish?)
      && (FirstTrip(order, outcome).None? && rs != [] ==>
            && t.summaryInput == Some(SummaryInput(company, role, rs))
            && last == (if summarizer.Output? then Finish(summarizer.value) else Fail(Escalate(summarizer))))
  {
    var g := ProgressSteps(plan.searches, order, outcome, 0);
    var rest := Summarize(company, role, g, summarizer);
    var t := PlannedStream(company, role, plan.searches, order, outcome, summarizer);
    assert t.steps[|t.steps| - 1] == rest.steps[|rest.steps| - 1];
    ProgressAgrees(plan.searches, order, outcome, 0);
    SummarizeEnd(company, role, g, summarizer);
  }

  // ---------------------------------------------------------------------
  // research_company

  /** The first search, in completion order, that gave no output. */
  function FirstFailure(order: seq<nat>, outcome: nat -> AgentOutcome<string>): (f: Option<AgentOutcome<string>>)
    ensures f.None? <==> forall i :: 0 <= i < |order| ==> outcome(order[i]).Output?
    ensures f.Some? ==> !f.value.Output? && exists i :: && 0 <= i < |order| && outcome(order[i]) == f.value
                                                        && forall j :: 0 <= j < i ==> outcome(order[j]).Output?
  {
    if order == [] then None
    else if !outcome(order[0]).Output? then Some(outcome(order[0]))
    else
      assert forall i :: 1 <= i < |order| ==> order[i] == order[1..][i - 1];
      var f := FirstFailure(order[1..], outcome);
      FailureAfterOutput(order, outcome, f);
      f
  }

  /** A failure found after a first search with output is still the first
      failure of the whole order. */
  lemma FailureAfterOutput(order: seq<nat>, outcome: nat -> AgentOutcome<string>, f: Option<AgentOutcome<string>>)
    requires order != [] && outcome(order[0]).Output?
    requires f.Some? ==> exists i :: && 0 <= i < |order| - 1 && outcome(order[1..][i]) == f.value
                                     && forall j :: 0 <= j < i ==> outcome(order[1..][j]).Output?
    ensures f.Some? ==> exists i :: && 0 <= i < |order| && outcome(order[i]) == f.value
                                    && forall j :: 0 <= j < i ==> outcome(order[j]).Output?
  {
    if f.Some? {
      var i :| && 0 <= i < |order| - 1 && outcome(order[1..][i]) == f.value
               && forall j :: 0 <= j < i ==> outcome(order[1..][j]).Output?;
      forall j | 0 <= j < i + 1
        ensures outcome(order[j]).Output?
      {
        if j > 0 {
          assert order[j] == order[1..][j - 1];
        }
      }
      assert outcome(order[i + 1]) == f.value;
    }
  }

  /** What the summarizer was given and what it returned. */
  datatype Summarized = Summarized(input: string, summary: CompanySummary)

  /** `research_company`: no timeouts of its own, and `gather` without
      `return_exceptions` propagates the first search to raise; otherwise
      the results are joined in plan order. */
  function ResearchCompany(company: string, role: string, planner: AgentOutcome<SearchPlan>, order: seq<nat>,
                           outcome: nat -> AgentOutcome<string>, summarizer: AgentOutcome<CompanySummary>)
    : (r: Result<Summarized, ResearchFailure>)
    requires planner.Output? ==> IsOrder(order, |planner.value.searches|)
    ensures r.Success? <==>
      && planner.Output?
      && (forall j :: 0 <= j < |planner.value.searches| ==> outcome(j).Output?)
      && summarizer.Output?
    ensures r.Success? ==>
      r.value == Summarized(SummaryInput(company, role, Map(Indices(|planner.value.searches|), ValueOf(outcome))), summarizer.value)
    ensures !planner.Output? ==> r == Failure(Escalate(planner))
    ensures planner.Output? && FirstFailure(order, outcome).Some? ==>
      r == Failure(Escalate(FirstFailure(order, outcome).value))
    ensures planner.Output? && (forall j :: 0 <= j < |planner.value.searches| ==> outcome(j).Output?) && !summarizer.Output? ==>
      r == Failure(Escalate(summarizer))
  {
    if !planner.Output? then Failure(Escalate(planner))
    else
      var n := |planner.value.searches|;
      match FirstFailure(order, outcome)
      case Some(o) =>
        assert exists j :: 0 <= j < n && !outcome(j).Output?;
        Failure(Escalate(o))
      case None =>
        assert forall j :: 0 <= j < n ==> outcome(j).Output? by {
          forall j | 0 <= j < n
            ensures outcome(j).Output?
          {
            OrderCovers(order, n, j);
          }
        }
        if summarizer.Output? then
          Success(Summarized(SummaryInput(company, role, Map(Indices(n), ValueOf(outcome))), summarizer.value))
        else Failure(Escalate(summarizer))
  }

  /** When every search succeeds, the stream and the plain variant give the
      summarizer the same results, in completion order and in plan order
      respectively. */
  lemma StreamAndPlainAgree(company: string, role: string, plan: SearchPlan, order: seq<nat>,
                            outcome: nat -> AgentOutcome<string>, summarizer: AgentOutcome<CompanySummary>)
    requires IsOrder(order, |plan.searches|) && |plan.searches| > 0
    requires forall j :: 0 <= j < |plan.searches| ==> outcome(j).Output?
    ensures var t := ResearchStream(company, role, Output(plan), order, outcome, summarizer);
      exists rs ::
        && t.summaryInput == Some(SummaryInput(company, role, rs))
        && multiset(rs) == multiset(Map(Indices(|plan.searches|), ValueOf(outcome)))
  {
    var n := |plan.searches|;
    assert forall i :: 0 <= i < |order| ==> outcome(order[i]).Output?;
    AllOutputs(order, outcome);
    var rs := OutputsIn(order, outcome);
    assert NoTrip(order, outcome);
    assert rs != [] by {
      assert |order| == n by {
        assert |order| == |multiset(order)| == |multiset(Indices(n))|;
      }
      assert |rs| == |order|;
    }
    ResearchStreamOutcome(company, role, plan, order, outcome, summarizer);
    MapPermutation(order, Indices(n), ValueOf(outcome));
  }
}

=== FILE: drill_generation.dfy ===
/** Drill generation (`drill_generation.py`): the generator prompt, the
    parallel generators with the evaluator that picks among their
    candidates, and the streamed variant.

    Agent runs are inputs: `outcome(i)` is how the i-th selected generator's
    run ended, `order` is the order in which the generators finished, and
    `evaluation` is how the evaluator's run ended. Python float formatting
    of the confidence score is the parameter `showReal`. */
module DrillGeneration {
  import opened Wrappers
  import opened Seqs
  import opened Text
  import opened DrillSchemas
  import opened CompanyInfo
  import opened AgentOutcomes

  datatype Generator = Generator(drillType: DrillType, desc: string)

  /** `ALL_GENERATORS`, in priority order. */
  const AllGenerators: seq<Generator> := [
    Generator(Coding, "coding challenge"),
    Generator(Debugging, "debugging scenario"),
    Generator(SystemDesign, "system design problem")]

  /** `HOW_MANY_GENERATORS`. */
  const HowManyGenerators := 3

  /** `ALL_GENERATORS[:HOW_MANY_GENERATORS]`. */
  function SelectedGenerators(howMany: int): (gens: seq<Generator>)
    ensures gens <= AllGenerators
    ensures howMany >= 0 ==> |gens| == Min(howMany, 3)
    ensures howMany < 0 ==> |gens| == Max(0, 3 + howMany)
  {
    PyPrefix(AllGenerators, howMany)
  }

  /** With the configured count every generator runs, each with its own
      drill type. */
  lemma ConfiguredGeneratorsDistinct()
    ensures SelectedGenerators(HowManyGenerators) == AllGenerators
    ensures forall i, j :: 0 <= i < j < |AllGenerators| ==> AllGenerators[i].drillType != AllGenerators[j].drillType
  {
  }

  /** The request a drill is generated for. */
  datatype DrillRequest = DrillRequest(
    companyName: string,
    role: string,
    roleDescription: Option<string>,
    companySummary: Option<CompanySummary>,
    previousFeedback: Option<string>)

  /** Python truthiness of an optional string. */
  predicate Truthy(o: Option<string>) { o.Some? && o.value != "" }

  function IfTruthy(prefix: string, o: Option<string>): (lines: seq<string>)
    ensures Truthy(o) ==> lines == [prefix + o.value]
    ensures !Truthy(o) ==> lines == []
  {
    if Truthy(o) then [prefix + o.value] else []
  }

  /** All technologies of a tech stack: languages, then frameworks, then tools. */
  function AllTech(t: TechStack): seq<string>
  {
    t.languages + t.frameworks + t.tools
  }

  function TechLine(t: Option<TechStack>): (lines: seq<string>)
    ensures lines != [] <==> t.Some? && AllTech(t.value) != []
    ensures lines != [] ==> lines == ["Tech Stack: " + Join(AllTech(t.value), ", ")]
  {
    if t.Some? && AllTech(t.value) != [] then ["Tech Stack: " + Join(AllTech(t.value), ", ")] else []
  }

  /** The company-context lines of the generator prompt. */
  function SummaryParts(s: CompanySummary): (lines: seq<string>)
    ensures 2 <= |lines| <= 6
    ensures lines[0] == "\nCompany Context:"
    ensures "Description: " + s.description in lines
  {
    ["\nCompany Context:"] + IfTruthy("Industry: ", s.industry) + ["Description: " + s.description]
      + TechLine(s.techStack) + IfTruthy("Engineering Culture: ", s.engineeringCulture)
      + IfTruthy("Interview Tips: ", s.interviewTips)
  }

  const FeedbackHeader := "\nPrevious Drill Feedback (target these weak areas):"

  /** `_build_generator_input`, as its list of lines. */
  function GeneratorParts(req: DrillRequest): (parts: seq<string>)
    ensures |parts| >= 2
    ensures parts[0] == "Company: " + req.companyName && parts[1] == "Role: " + req.role
    ensures Truthy(req.roleDescription) ==> |parts| >= 3 && parts[2] == "Role Description: " + req.roleDescription.value
    ensures Truthy(req.previousFeedback) ==> parts[|parts| - 2..] == [FeedbackHeader, req.previousFeedback.value]
    ensures req.companySummary.Some? ==> "\nCompany Context:" in parts
    ensures !Truthy(req.roleDescription) && req.companySummary.None? && !Truthy(req.previousFeedback) ==> |parts| == 2
  {
    ["Company: " + req.companyName, "Role: " + req.role]
      + IfTruthy("Role Description: ", req.roleDescription)
      + (if req.companySummary.Some? then SummaryParts(req.companySummary.value) else [])
      + (if Truthy(req.previousFeedback) then [FeedbackHeader, req.previousFeedback.value] else [])
  }

  function GeneratorInput(req: DrillRequest): string
  {
    Join(GeneratorParts(req), "\n")
  }

  /** With nothing but a company and a role, the prompt is exactly those two
      lines. */
  lemma MinimalGeneratorInput(company: string, role: string)
    ensures GeneratorInput(DrillRequest(company, role, None, None, None)) == "Company: " + company + "\nRole: " + role
  {
    var parts := GeneratorParts(DrillRequest(company, role, None, None, None));
    assert parts == ["Company: " + company, "Role: " + role];
    assert parts[1..] == ["Role: " + role];
    assert Join(parts[1..], "\n") == "Role: " + role;
    assert Join(parts, "\n") == parts[0] + "\n" + Join(parts[1..], "\n");
  }

  /** A summary's tech stack reaches the prompt as one line listing the
      languages, then the frameworks, then the tools. */
  lemma TechStackInPrompt(req: DrillRequest)
    requires req.companySummary.Some? && req.companySummary.value.techStack.Some?
    requires AllTech(req.companySummary.value.techStack.value) != []
    ensures "Tech Stack: " + Join(req.companySummary.value.techStack.value.languages
                                  + req.companySummary.value.techStack.value.frameworks
                                  + req.companySummary.value.techStack.value.tools, ", ") in GeneratorParts(req)
  {
    var s := req.companySummary.value;
    var line := "Tech Stack: " + Join(AllTech(s.techStack.value), ", ");
    var sp := SummaryParts(s);
    var pre := ["\nCompany Context:"] + IfTruthy("Industry: ", s.industry) + ["Description: " + s.description];
    assert sp[|pre|] == line;
    var head := ["Company: " + req.companyName, "Role: " + req.role] + IfTruthy("Role Description: ", req.roleDescription);
    var tail := if Truthy(req.previousFeedback) then [FeedbackHeader, req.previousFeedback.value] else [];
    assert GeneratorParts(req) == head + sp + tail;
    assert GeneratorParts(req)[|head| + |pre|] == line;
  }

  // ---------------------------------------------------------------------
  // _build_evaluator_input

  function CandidateHeader(i: nat, c: DrillCandidate): string
  {
    "--- Candidate " + NatToString(i) + " (" + c.generatorType.Value() + ") ---"
  }

  /** The starter code, fenced, when there is any. */
  function StarterCodeLines(code: Option<string>): (lines: seq<string>)
    ensures |lines| == (if Truthy(code) then 1 else 0)
  {
    if Truthy(code) then ["Starter Code:\n```\n" + code.value + "\n```"] else []
  }

  /** The lines describing one candidate's drill, after its header. */
  function CandidateDetails(c: DrillCandidate, showReal: real -> string): (lines: seq<string>)
    ensures 11 <= |lines| <= 13
    ensures lines[0] == "Title: " + c.drill.title
    ensures lines[|lines| - 1] == ""
  {
    var d := c.drill;
    ["Title: " + d.title,
     "Type: " + d.drillType.Value(),
     "Difficulty: " + d.difficulty.Value(),
     "Description: " + d.description,
     "Requirements: " + Join(d.requirements, ", "),
     "Expected Time: " + IntToString(d.expectedTimeMinutes) + " minutes",
     "Tech Stack: " + Join(d.techStack, ", ")]
    + StarterCodeLines(d.starterCode)
    + (if d.hints != [] then ["Hints: " + Join(d.hints, ", ")] else [])
    + ["Company Context: " + (if Truthy(d.companyContext) then d.companyContext.value else "N/A"),
       "Generator Reasoning: " + c.reasoning,
       "Generator Confidence: " + showReal(c.confidenceScore),
       ""]
  }

  /** The lines describing candidate number `i` (counted from one). */
  function CandidateBlock(i: nat, c: DrillCandidate, showReal: real -> string): (lines: seq<string>)
    ensures 12 <= |lines| <= 14
    ensures lines[0] == CandidateHeader(i, c)
    ensures lines[1] == "Title: " + c.drill.title
    ensures lines[|lines| - 1] == ""
  {
    [CandidateHeader(i, c)] + CandidateDetails(c, showReal)
  }

  /** The candidate section: the candidates' blocks, numbered from
      `first` in list order, one after another. */
  function CandidateBlocks(candidates: seq<DrillCandidate>, first: nat, showReal: real -> string): (lines: seq<string>)
  {
    Flatten(seq(|candidates|, i requires 0 <= i < |candidates| => CandidateBlock(first + i, candidates[i], showReal)))
  }

  /** Every candidate is announced in the prompt under its own number,
      counted from `first` in list order, with its generator type. */
  lemma EveryCandidateAnnounced(candidates: seq<DrillCandidate>, first: nat, showReal: real -> string, k: nat)
    requires k < |candidates|
    ensures CandidateHeader(first + k, candidates[k]) in CandidateBlocks(candidates, first, showReal)
  {
    var blocks := seq(|candidates|, i requires 0 <= i < |candidates| => CandidateBlock(first + i, candidates[i], showReal));
    assert blocks[k][0] == CandidateHeader(first + k, candidates[k]);
    InFlatten(blocks, k, 0);
  }

  /** `_build_evaluator_input`, as its list of lines. */
  function EvaluatorParts(company: string, role: string, candidates: seq<DrillCandidate>, showReal: real -> string): (parts: seq<string>)
    ensures |parts| >= 5 && parts[..5] == ["Company: " + company, "Role: " + role, "", "CANDIDATES TO EVALUATE:", ""]
    ensures parts[5..] == CandidateBlocks(candidates, 1, showReal)
  {
    ["Company: " + company, "Role: " + role, "", "CANDIDATES TO EVALUATE:", ""] + CandidateBlocks(candidates, 1, showReal)
  }

  // ---------------------------------------------------------------------
  // Running the generators

  /** A candidate carries the drill type of the generator that produced it,
      whatever the agent put there. */
  function Relabel(c: DrillCandidate, g: Generator): (r: DrillCandidate)
    ensures r.generatorType == g.drillType
    ensures r.drill == c.drill && r.reasoning == c.reasoning && r.confidenceScore == c.confidenceScore
  {
    c.(generatorType := g.drillType)
  }

  /** `order` lists each of `n` generators exactly once. */
  /** The successful candidates, relabelled, in the order the runs are
      listed: the reference the streams and the gathering are held to. */
  function Successes(gens: seq<Generator>, order: seq<nat>, outcome: nat -> AgentOutcome<DrillCandidate>): (cs: seq<DrillCandidate>)
    requires InRange(order, |gens|)
    ensures |cs| <= |order|
    ensures forall c :: c in cs ==> exists j :: 0 <= j < |order| && outcome(order[j]).Output? && c == Relabel(outcome(order[j]).value, gens[order[j]])
  {
    if order == [] then []
    else
      var rest := Successes(gens, order[1..], outcome);
      assert forall c :: c in rest ==> exists j :: 1 <= j < |order| && outcome(order[j]).Output? && c == Relabel(outcome(order[j]).value, gens[order[j]]);
      match outcome(order[0])
      case Output(c) => [Relabel(c, gens[order[0]])] + rest
      case _ => rest
  }

  // ---------------------------------------------------------------------
  // How a generation ends

  /** Why a generation gives no drill. The streamed variant reports these as
      error events, the plain one raises them. */
  datatype DrillFailure =
    | GuardrailTripped(tripwire: Tripwire)
    | NoCandidates
    | EvaluatorTimedOut
    | EvaluatorRaised(isValueError: bool, message: string)
  {
    /** The error event's message in the stream. */
    function Text(): string {
      match this
      case GuardrailTripped(t) => SafeMessage(t)
      case NoCandidates => "All generators failed. Please try again."
      case EvaluatorTimedOut => "Drill generation timed out. Please try again."
      case EvaluatorRaised(isValueError, m) => if isValueError then m else "Drill generation failed: " + m
    }
  }

  /** The selection once the candidates are known: none is a failure, one
      is used as is, two or more go to the evaluator. */
  function Select(candidates: seq<DrillCandidate>, evaluation: AgentOutcome<DrillEvaluation>): (r: Result<Drill, DrillFailure>)
    ensures candidates == [] <==> r == Failure(NoCandidates)
    ensures |candidates| == 1 ==> r == Success(candidates[0].drill)
    ensures |candidates| >= 2 ==> (r.Success? <==> evaluation.Output?)
    ensures |candidates| >= 2 && evaluation.Output? ==> r == Success(evaluation.value.selectedDrill)
  {
    if candidates == [] then Failure(NoCandidates)
    else if |candidates| == 1 then Success(candidates[0].drill)
    else match evaluation
      case Output(ev) => Success(ev.selectedDrill)
      case AgentTimeout => Failure(EvaluatorTimedOut)
      case Tripped(t) => Failure(GuardrailTripped(t))
      case AgentRaised(v, m) => Failure(EvaluatorRaised(v, m))
  }

  // ---------------------------------------------------------------------
  // generate_drill_stream

  /** The status notes of the stream. */
  datatype Note =
    | Starting
    | Generating(count: nat)
    | Generated(desc: string, title: string)
    | GeneratorTimedOut(desc: string)
    | GeneratorFailed(desc: string)
    | UsingOnlyCandidate
    | Evaluating(count: nat)
    | Selected(generator: DrillType, reasoning: string)
  {
    function Text(): string {
      match this
      case Starting => "Starting drill generation..."
      case Generating(n) => "Generating " + NatToString(n) + " drill candidates in parallel..."
      case Generated(d, t) => "Generated " + d + ": " + t
      case GeneratorTimedOut(d) => Capitalize(d) + " timed out, continuing..."
      case GeneratorFailed(d) => Capitalize(d) + " failed, continuing..."
      case UsingOnlyCandidate => "Only one candidate generated, using it directly."
      case Evaluating(n) => "Evaluating " + NatToString(n) + " candidates..."
      case Selected(g, r) => "Selected: " + g.Value() + " - " + PyPrefix(r, 100) + "..."
    }
  }

  /** One step of the stream, before it is rendered as an event. */
  datatype Step =
    | Say(note: Note)
    | Offer(generator: DrillType, title: string)
    | Finish(drill: Drill)
    | Fail(failure: DrillFailure)
  {
    predicate IsTerminal() { Finish? || Fail? }

    /** The event sent to the client. */
    function ToEvent(): (e: DrillEvent)
      ensures e.IsTerminal() <==> IsTerminal()
      ensures e.CandidateReady? <==> Offer?
    {
      match this
      case Say(n) => Status(n.Text(), None)
      case Offer(g, t) => CandidateReady(g, t)
      case Finish(d) => Complete(d)
      case Fail(f) => Error(f.Text())
    }
  }

  function CountOffers(steps: seq<Step>): nat
  {
    if steps == [] then 0 else (if steps[0].Offer? then 1 else 0) + CountOffers(steps[1..])
  }

  lemma {:induction false} CountOffersAppend(a: seq<Step>, b: seq<Step>)
    ensures CountOffers(a + b) == CountOffers(a) + CountOffers(b)
  {
    if a == [] {
      assert a + b == b;
    } else {
      assert (a + b)[0] == a[0];
      assert (a + b)[1..] == a[1..] + b;
      CountOffersAppend(a[1..], b);
    }
  }

  lemma {:induction false} CountNoOffers(steps: seq<Step>)
    requires forall i :: 0 <= i < |steps| ==> !steps[i].Offer?
    ensures CountOffers(steps) == 0
  {
    if steps != [] {
      CountNoOffers(steps[1..]);
    }
  }

  datatype Collected = Collected(steps: seq<Step>, candidates: seq<DrillCandidate>, tripped: Option<Tripwire>)

  /** The steps for one finished generator run. */
  function RunSteps(g: Generator, o: AgentOutcome<DrillCandidate>): (steps: seq<Step>)
    requires !o.Tripped?
    ensures o.Output? ==> steps == [Offer(g.drillType, o.value.drill.title), Say(Generated(g.desc, o.value.drill.title))]
    ensures o.AgentTimeout? ==> steps == [Say(GeneratorTimedOut(g.desc))]
    ensures o.AgentRaised? ==> steps == [Say(GeneratorFailed(g.desc))]
  {
    match o
    case Output(c) => [Offer(g.drillType, c.drill.title), Say(Generated(g.desc, c.drill.title))]
    case AgentTimeout => [Say(GeneratorTimedOut(g.desc))]
    case AgentRaised(_, _) => [Say(GeneratorFailed(g.desc))]
  }

  /** The `as_completed` loop of the stream: a candidate step and a status
      per success, one status per timeout or failure, and a stop at the
      first guardrail trip. */
  function CompletionSteps(gens: seq<Generator>, order: seq<nat>, outcome: nat -> AgentOutcome<DrillCandidate>): (c: Collected)
    requires InRange(order, |gens|)
    ensures forall i :: 0 <= i < |c.steps| ==> !c.steps[i].IsTerminal()
    ensures CountOffers(c.steps) == |c.candidates|
  {
    if order == [] then Collected([], [], None)
    else
      var o := outcome(order[0]);
      if o.Tripped? then Collected([], [], Some(o.tripwire))
      else
        var rest := CompletionSteps(gens, order[1..], outcome);
        var head := RunSteps(gens[order[0]], o);
        CountOffersAppend(head, rest.steps);
        Collected(head + rest.steps,
                  (if o.Output? then [Relabel(o.value, gens[order[0]])] else []) + rest.candidates,
                  rest.tripped)
  }

  /** The loop stops at the first guardrail trip and, without one, gathers
      exactly the reference list of candidates. */
  lemma {:induction false} CompletionAgrees(gens: seq<Generator>, order: seq<nat>, outcome: nat -> AgentOutcome<DrillCandidate>)
    requires InRange(order, |gens|)
    ensures CompletionSteps(gens, order, outcome).tripped == FirstTrip(order, outcome)
    ensures FirstTrip(order, outcome).None? ==> CompletionSteps(gens, order, outcome).candidates == Successes(gens, order, outcome)
  {
    if order != [] && !outcome(order[0]).Tripped? {
      CompletionAgrees(gens, order[1..], outcome);
    }
  }

  datatype DrillTrace = DrillTrace(steps: seq<Step>, evaluatorInput: Option<string>)
  {
    function Events(): seq<DrillEvent> {
      seq(|steps|, i requires 0 <= i < |steps| => steps[i].ToEvent())
    }
  }

  /** What the stream yields once the generators are done: the failure, the
      lone candidate, or the evaluation and its pick. */
  function Conclusion(req: DrillRequest, c: Collected, evaluation: AgentOutcome<DrillEvaluation>, showReal: real -> string): (t: DrillTrace)
    ensures |t.steps| >= 1 && t.steps[|t.steps| - 1].IsTerminal()
    ensures forall i :: 0 <= i < |t.steps| ==> !t.steps[i].Offer?
    ensures forall i :: 0 <= i < |t.steps| - 1 ==> !t.steps[i].IsTerminal()
  {
    if c.tripped.Some? then
      DrillTrace([Fail(GuardrailTripped(c.tripped.value))], None)
    else if |c.candidates| == 0 then
      DrillTrace([Fail(NoCandidates)], None)
    else if |c.candidates| == 1 then
      DrillTrace([Say(UsingOnlyCandidate), Finish(c.candidates[0].drill)], None)
    else
      var input := Join(EvaluatorParts(req.companyName, req.role, c.candidates, showReal), "\n");
      var last := match evaluation
        case Output(ev) => [Say(Selected(ev.selectedGenerator, ev.selectionReasoning)), Finish(ev.selectedDrill)]
        case AgentTimeout => [Fail(EvaluatorTimedOut)]
        case Tripped(t) => [Fail(GuardrailTripped(t))]
        case AgentRaised(v, m) => [Fail(EvaluatorRaised(v, m))];
      DrillTrace([Say(Evaluating(|c.candidates|))] + last, Some(input))
  }

  /** The last step of a conclusion is the selection's result, and the
      evaluator sees the candidates exactly when there are two or more. */
  lemma ConclusionEnd(req: DrillRequest, c: Collected, evaluation: AgentOutcome<DrillEvaluation>, showReal: real -> string)
    ensures var t := Conclusion(req, c, evaluation, showReal);
      var last := t.steps[|t.steps| - 1];
      && (c.tripped.Some? ==> t.evaluatorInput.None?)
      && (c.tripped.None? ==> (t.evaluatorInput.Some? <==> |c.candidates| >= 2))
      && (c.tripped.None? && |c.candidates| >= 2 ==>
            t.evaluatorInput == Some(Join(EvaluatorParts(req.companyName, req.role, c.candidates, showReal), "\n")))
      && (c.tripped.Some? ==> last == Fail(GuardrailTripped(c.tripped.value)))
      && (c.tripped.None? ==>
            match Select(c.candidates, evaluation)
            case Success(d) => last == Finish(d)
            case Failure(f) => last == Fail(f))
  {
  }

  /** Two runs of non-terminal steps followed by a run that ends, and only
      ends, with a terminal step: the whole ends exactly once. */
  lemma EndsOnce(a: seq<Step>, b: seq<Step>, c: seq<Step>)
    requires forall i :: 0 <= i < |a| ==> !a[i].IsTerminal()
    requires forall i :: 0 <= i < |b| ==> !b[i].IsTerminal()
    requires |c| >= 1 && c[|c| - 1].IsTerminal()
    requires forall i :: 0 <= i < |c| - 1 ==> !c[i].IsTerminal()
    ensures var s := a + b + c;
      && s[|s| - 1].IsTerminal()
      && forall i :: 0 <= i < |s| - 1 ==> !s[i].IsTerminal()
  {
    var s := a + b + c;
    forall i | 0 <= i < |s| - 1
      ensures !s[i].IsTerminal()
    {
      if i < |a| {
        assert s[i] == a[i];
      } else if i < |a| + |b| {
        assert s[i] == b[i - |a|];
      } else {
        assert s[i] == c[i - |a| - |b|];
      }
    }
  }

  /** `generate_drill_stream`. */
  function GenerateDrillStream(req: DrillRequest, howMany: int, order: seq<nat>, outcome: nat -> AgentOutcome<DrillCandidate>,
                               evaluation: AgentOutcome<DrillEvaluation>, showReal: real -> string): (t: DrillTrace)
    requires IsOrder(order, |SelectedGenerators(howMany)|)
    ensures |t.steps| >= 3
    ensures t.steps[0] == Say(Starting) && t.steps[1] == Say(Generating(|SelectedGenerators(howMany)|))
    ensures t.steps[|t.steps| - 1].IsTerminal()
    ensures forall i :: 0 <= i < |t.steps| - 1 ==> !t.steps[i].IsTerminal()
  {
    StreamOver(req, SelectedGenerators(howMany), order, outcome, evaluation, showReal)
  }

  /** The stream over a given list of generators. */
  function StreamOver(req: DrillRequest, gens: seq<Generator>, order: seq<nat>, outcome: nat -> AgentOutcome<DrillCandidate>,
                      evaluation: AgentOutcome<DrillEvaluation>, showReal: real -> string): (t: DrillTrace)
    requires InRange(order, |gens|)
    ensures |t.steps| >= 3
    ensures t.steps[0] == Say(Starting) && t.steps[1] == Say(Generating(|gens|))
    ensures t.steps[|t.steps| - 1].IsTerminal()
    ensures forall i :: 0 <= i < |t.steps| - 1 ==> !t.steps[i].IsTerminal()
  {
    var c := CompletionSteps(gens, order, outcome);
    var rest := Conclusion(req, c, evaluation, showReal);
    StreamShape(|gens|, c.steps, rest.steps);
    DrillTrace([Say(Starting), Say(Generating(|gens|))] + c.steps + rest.steps, rest.evaluatorInput)
  }

  /** The opening notes, the loop's steps and the conclusion make a stream
      that ends exactly once. */
  lemma StreamShape(n: nat, b: seq<Step>, c: seq<Step>)
    requires forall i :: 0 <= i < |b| ==> !b[i].IsTerminal()
    requires |c| >= 1 && c[|c| - 1].IsTerminal()
    requires forall i :: 0 <= i < |c| - 1 ==> !c[i].IsTerminal()
    ensures var s := [Say(Starting), Say(Generating(n))] + b + c;
      && |s| >= 3 && s[0] == Say(Starting) && s[1] == Say(Generating(n))
      && s[|s| - 1].IsTerminal()
      && forall i :: 0 <= i < |s| - 1 ==> !s[i].IsTerminal()
  {
    EndsOnce([Say(Starting), Say(Generating(n))], b, c);
  }

  /** The outcome rules of the stream: it ends with the first guardrail
      trip's safe message, or else with the selection's result (no
      candidate, the lone candidate, or the evaluator's pick); the
      evaluator is consulted exactly when two or more candidates arrived,
      and there is one candidate event per candidate. */
  lemma DrillStreamOutcome(req: DrillRequest, howMany: int, order: seq<nat>, outcome: nat -> AgentOutcome<DrillCandidate>,
                           evaluation: AgentOutcome<DrillEvaluation>, showReal: real -> string)
    requires IsOrder(order, |SelectedGenerators(howMany)|)
    ensures var t := GenerateDrillStream(req, howMany, order, outcome, evaluation, showReal);
      var cs := Successes(SelectedGenerators(howMany), order, outcome);
      var last := t.steps[|t.steps| - 1];
      && (FirstTrip(order, outcome).Some? ==>
            last == Fail(GuardrailTripped(FirstTrip(order, outcome).value)) && t.evaluatorInput.None?)
      && (FirstTrip(order, outcome).None? ==>
            && (match Select(cs, evaluation)
                case Success(d) => last == Finish(d)
                case Failure(f) => last == Fail(f))
            && (t.evaluatorInput.Some? <==> |cs| >= 2)
            && CountOffers(t.steps) == |cs|)
  {
    var gens := SelectedGenerators(howMany);
    StreamOverEnd(req, gens, order, outcome, evaluation, showReal);
    StreamOverOffers(req, gens, order, outcome, evaluation, showReal);
  }

  lemma StreamOverEnd(req: DrillRequest, gens: seq<Generator>, order: seq<nat>, outcome: nat -> AgentOutcome<DrillCandidate>,
                      evaluation: AgentOutcome<DrillEvaluation>, showReal: real -> string)
    requires InRange(order, |gens|)
    ensures var t := StreamOver(req, gens, order, outcome, evaluation, showReal);
      var cs := Successes(gens, order, outcome);
      var last := t.steps[|t.steps| - 1];
      && (FirstTrip(order, outcome).Some? ==>
            last == Fail(GuardrailTripped(FirstTrip(order, outcome).value)) && t.evaluatorInput.None?)
      && (FirstTrip(order, outcome).None? ==>
            && (match Select(cs, evaluation)
                case Success(d) => last == Finish(d)
                case Failure(f) => last == Fail(f))
            && (t.evaluatorInput.Some? <==> |cs| >= 2))
  {
    var c := CompletionSteps(gens, order, outcome);
    var rest := Conclusion(req, c, evaluation, showReal);
    var opening := [Say(Starting), Say(Generating(|gens|))];
    var t := StreamOver(req, gens, order, outcome, evaluation, showReal);
    assert t.steps[|t.steps| - 1] == rest.steps[|rest.steps| - 1];
    CompletionAgrees(gens, order, outcome);
    ConclusionEnd(req, c, evaluation, showReal);
  }

  lemma StreamOverOffers(req: DrillRequest, gens: seq<Generator>, order: seq<nat>, outcome: nat -> AgentOutcome<DrillCandidate>,
                         evaluation: AgentOutcome<DrillEvaluation>, showReal: real -> string)
    requires InRange(order, |gens|)
    ensures FirstTrip(order, outcome).None? ==>
      CountOffers(StreamOver(req, gens, order, outcome, evaluation, showReal).steps) == |Successes(gens, order, outcome)|
  {
    var c := CompletionSteps(gens, order, outcome);
    var rest := Conclusion(req, c, evaluation, showReal);
    var opening := [Say(Starting), Say(Generating(|gens|))];
    CompletionAgrees(gens, order, outcome);
    CountOffersAppend(opening, c.steps);
    CountOffersAppend(opening + c.steps, rest.steps);
    CountNoOffers(opening);
    CountNoOffers(rest.steps);
  }

  // ---------------------------------------------------------------------
  // generate_drill

  /** `generate_drill` as written: `gather(..., return_exceptions=True)`
      turns a re-raised guardrail trip into a list entry that is then
      dropped with the timeouts and failures. */
  function GenerateDrillAsWritten(howMany: int, outcome: nat -> AgentOutcome<DrillCandidate>,
                                  evaluation: AgentOutcome<DrillEvaluation>): (r: Result<Drill, DrillFailure>)
    ensures r.Failure? && r.error.GuardrailTripped? ==> evaluation.Tripped?
    ensures (forall i :: 0 <= i < |SelectedGenerators(howMany)| ==> !outcome(i).Output?) ==> r == Failure(NoCandidates)
  {
    var gens := SelectedGenerators(howMany);
    var cs := Successes(gens, Indices(|gens|), outcome);
    assert (forall i :: 0 <= i < |gens| ==> !outcome(i).Output?) ==> cs == [] by {
      if cs != [] {
        assert cs[0] in cs;
      }
    }
    Select(cs, evaluation)
  }

  /** Any generator that produces a candidate keeps the generation from
      ending with "no candidates". */
  lemma {:induction false} CandidateSuffices(howMany: int, outcome: nat -> AgentOutcome<DrillCandidate>,
                                             evaluation: AgentOutcome<DrillEvaluation>, i: nat)
    requires i < |SelectedGenerators(howMany)| && outcome(i).Output?
    ensures GenerateDrillAsWritten(howMany, outcome, evaluation) != Failure(NoCandidates)
  {
    var gens := SelectedGenerators(howMany);
    SuccessesNonEmpty(gens, Indices(|gens|), outcome, i);
  }

  lemma {:induction false} SuccessesNonEmpty(gens: seq<Generator>, order: seq<nat>, outcome: nat -> AgentOutcome<DrillCandidate>, j: nat)
    requires InRange(order, |gens|) && j < |order| && outcome(order[j]).Output?
    ensures Successes(gens, order, outcome) != []
    decreases |order|
  {
    if j > 0 && !outcome(order[0]).Output? {
      SuccessesNonEmpty(gens, order[1..], outcome, j - 1);
    }
  }

  /** `generate_drill` as its docstring and the re-raise in `run_generator`
      intend: the first guardrail trip to happen (in completion order)
      propagates; otherwise the candidates are gathered in list order. */
  function GenerateDrill(howMany: int, order: seq<nat>, outcome: nat -> AgentOutcome<DrillCandidate>,
                         evaluation: AgentOutcome<DrillEvaluation>): (r: Result<Drill, DrillFailure>)
    requires IsOrder(order, |SelectedGenerators(howMany)|)
    ensures !NoTrip(order, outcome) ==> r.Failure? && r.error.GuardrailTripped?
    ensures NoTrip(order, outcome) ==> r == GenerateDrillAsWritten(howMany, outcome, evaluation)
  {
    match FirstTrip(order, outcome)
    case Some(t) => Failure(GuardrailTripped(t))
    case None => GenerateDrillAsWritten(howMany, outcome, evaluation)
  }

  /** The run outcome with guardrail trips turned into ordinary failures. */
  function Untripped(outcome: nat -> AgentOutcome<DrillCandidate>): nat -> AgentOutcome<DrillCandidate>
  {
    (i: nat) => if outcome(i).Tripped? then AgentRaised(false, "") else outcome(i)
  }

  lemma {:induction false} SuccessesIgnoreTrips(gens: seq<Generator>, order: seq<nat>, outcome: nat -> AgentOutcome<DrillCandidate>)
    requires InRange(order, |gens|)
    ensures Successes(gens, order, outcome) == Successes(gens, order, Untripped(outcome))
  {
    if order != [] {
      SuccessesIgnoreTrips(gens, order[1..], outcome);
    }
  }

  /** As written, a guardrail trip counts for no more than a failed
      generator: the result is the one the same run would give if the trip
      had been an ordinary error. */
  lemma AsWrittenIgnoresTrips(howMany: int, outcome: nat -> AgentOutcome<DrillCandidate>, evaluation: AgentOutcome<DrillEvaluation>)
    ensures GenerateDrillAsWritten(howMany, outcome, evaluation) == GenerateDrillAsWritten(howMany, Untripped(outcome), evaluation)
  {
    var gens := SelectedGenerators(howMany);
    SuccessesIgnoreTrips(gens, Indices(|gens|), outcome);
  }

  function SampleDrill(title: string): Drill
  {
    Drill(title, Coding, Easy, "", [], None, [], 30, [], None)
  }

  /** The coding generator's input guardrail trips while the other two
      produce candidates: as written the evaluator's pick is returned; the
      intended behaviour is the guardrail error. */
  lemma TripSwallowedExample()
    ensures var outcome := (i: nat) => if i == 0 then Tripped(InputTrip)
                                       else Output(DrillCandidate(SampleDrill("t"), Coding, "", 0.5));
            var evaluation := Output(DrillEvaluation(SampleDrill("picked"), Debugging, "", []));
            && GenerateDrillAsWritten(3, outcome, evaluation) == Success(SampleDrill("picked"))
            && GenerateDrill(3, Indices(3), outcome, evaluation) == Failure(GuardrailTripped(InputTrip))
  {
    var outcome := (i: nat) => if i == 0 then Tripped(InputTrip)
                               else Output(DrillCandidate(SampleDrill("t"), Coding, "", 0.5));
    var gens := SelectedGenerators(3);
    assert Indices(3) == [0, 1, 2];
    assert |Successes(gens, [0, 1, 2], outcome)| == 2;
  }
}

=== FILE: drill_schemas.dfy ===
/** The drill records of `schemas/drill.py`: closed enums, bounded scores and
    the tagged stream events. Pydantic validation becomes constructor
    functions returning `Result`; the error names the offending field. */
module DrillSchemas {
  import opened Wrappers

  datatype DrillType = Coding | Debugging | SystemDesign {
    function Value(): string {
      match this
      case Coding => "coding"
      case Debugging => "debugging"
      case SystemDesign => "system_design"
    }
  }

  function ParseDrillType(s: string): (r: Option<DrillType>)
    ensures r.Some? <==> s in {"coding", "debugging", "system_design"}
    ensures r.Some? ==> r.value.Value() == s
  {
    if s == "coding" then Some(Coding)
    else if s == "debugging" then Some(Debugging)
    else if s == "system_design" then Some(SystemDesign)
    else None
  }

  lemma DrillTypeRoundTrip(t: DrillType)
    ensures ParseDrillType(t.Value()) == Some(t)
  {
  }

  datatype DifficultyLevel = Easy | Medium | Hard {
    function Value(): string {
      match this
      case Easy => "easy"
      case Medium => "medium"
      case Hard => "hard"
    }
  }

  function ParseDifficulty(s: string): (r: Option<DifficultyLevel>)
    ensures r.Some? <==> s in {"easy", "medium", "hard"}
    ensures r.Some? ==> r.value.Value() == s
  {
    if s == "easy" then Some(Easy)
    else if s == "medium" then Some(Medium)
    else if s == "hard" then Some(Hard)
    else None
  }

  lemma DifficultyRoundTrip(d: DifficultyLevel)
    ensures ParseDifficulty(d.Value()) == Some(d)
  {
  }

  /** `expected_time_minutes` lies in [5, 120]. */
  type Minutes = m: int | 5 <= m <= 120 witness 5

  /** A score in [0, 1]. */
  type UnitScore = r: real | 0.0 <= r <= 1.0

  datatype Drill = Drill(
    title: string,
    drillType: DrillType,
    difficulty: DifficultyLevel,
    description: string,
    requirements: seq<string>,
    starterCode: Option<string>,
    hints: seq<string>,
    expectedTimeMinutes: Minutes,
    techStack: seq<string>,
    companyContext: Option<string>)

  /** `Drill(...)` with the omitted fields at their defaults: no starter code,
      no hints, no tech stack, no company context. */
  function MakeDrill(title: string, drillType: DrillType, difficulty: DifficultyLevel, description: string,
                     requirements: seq<string>, expectedTimeMinutes: int): (r: Result<Drill, string>)
    ensures r.Success? <==> 5 <= expectedTimeMinutes <= 120
    ensures r.Success? ==> r.value.expectedTimeMinutes == expectedTimeMinutes && r.value.title == title
    ensures r.Success? ==>
      r.value.starterCode == None && r.value.hints == [] && r.value.techStack == [] && r.value.companyContext == None
  {
    if 5 <= expectedTimeMinutes <= 120 then
      Success(Drill(title, drillType, difficulty, description, requirements, None, [], expectedTimeMinutes, [], None))
    else
      Failure("expected_time_minutes")
  }

  datatype DrillCandidate = DrillCandidate(
    drill: Drill,
    generatorType: DrillType,
    reasoning: string,
    confidenceScore: UnitScore)

  function MakeDrillCandidate(drill: Drill, generatorType: DrillType, reasoning: string, confidence: real): (r: Result<DrillCandidate, string>)
    ensures r.Success? <==> 0.0 <= confidence <= 1.0
    ensures r.Success? ==> r.value.confidenceScore == confidence && r.value.drill == drill
  {
    if 0.0 <= confidence <= 1.0 then Success(DrillCandidate(drill, generatorType, reasoning, confidence))
    else Failure("confidence_score")
  }

  datatype CandidateEvaluation = CandidateEvaluation(
    generatorType: DrillType,
    relevanceScore: UnitScore,
    difficultyAppropriateness: UnitScore,
    companyFitScore: UnitScore,
    overallScore: UnitScore,
    strengths: seq<string>,
    weaknesses: seq<string>)

  predicate InUnit(x: real) { 0.0 <= x <= 1.0 }

  function MakeCandidateEvaluation(generatorType: DrillType, relevance: real, appropriateness: real, fit: real,
                                   overall: real, strengths: seq<string>, weaknesses: seq<string>): (r: Result<CandidateEvaluation, string>)
    ensures r.Success? <==> InUnit(relevance) && InUnit(appropriateness) && InUnit(fit) && InUnit(overall)
    ensures r.Success? ==>
      && r.value.relevanceScore == relevance && r.value.difficultyAppropriateness == appropriateness
      && r.value.companyFitScore == fit && r.value.overallScore == overall
  {
    if !InUnit(relevance) then Failure("relevance_score")
    else if !InUnit(appropriateness) then Failure("difficulty_appropriateness")
    else if !InUnit(fit) then Failure("company_fit_score")
    else if !InUnit(overall) then Failure("overall_score")
    else Success(CandidateEvaluation(generatorType, relevance, appropriateness, fit, overall, strengths, weaknesses))
  }

  datatype DrillEvaluation = DrillEvaluation(
    selectedDrill: Drill,
    selectedGenerator: DrillType,
    selectionReasoning: string,
    evaluations: seq<CandidateEvaluation>)

  /** The drill stream events, each with its fixed `type` tag. */
  datatype DrillEvent =
    | Status(message: string, generator: Option<DrillType>)
    | CandidateReady(generatorType: DrillType, title: string)
    | Complete(data: Drill)
    | Error(message: string)
  {
    function Tag(): string {
      match this
      case Status(_, _) => "status"
      case CandidateReady(_, _) => "candidate"
      case Complete(_) => "complete"
      case Error(_) => "error"
    }

    predicate IsTerminal() { Complete? || Error? }
  }

  /** The tag identifies the event kind: distinct kinds have distinct tags. */
  lemma TagsDistinct(a: DrillEvent, b: DrillEvent)
    ensures a.Tag() == b.Tag() <==>
      (a.Status? && b.Status?) || (a.CandidateReady? && b.CandidateReady?) ||
      (a.Complete? && b.Complete?) || (a.Error? && b.Error?)
  {
  }
}

=== FILE: evaluation_api.dfy ===
/** The solution-evaluation endpoint of `api/evaluation.py`: the session
    and drill checks, the evaluator prompt with its truncated solution, and
    the decorator that turns what the handler raises into an HTTP error.

    The evaluator agent is an oracle from the prompt to the run's outcome.
    The session's current drill is a parameter: `services/session_store.py`
    has no such field. Writing the feedback file is not part of this model. */
module EvaluationApi {
  import opened Wrappers
  import opened Text
  import opened AgentOutcomes
  import opened DrillSchemas
  import opened SessionStore
  import opened FeedbackPersistence
  import Seqs

  // ---------------------------------------------------------------------
  // The evaluator prompt

  /** The longest solution the evaluator sees, in characters. */
  const MaxSolutionLength := 10000

  const TruncationNote := "(Note: Solution was truncated for evaluation due to length)"

  const Fence := "```"

  /** `solution[:MAX_SOLUTION_LENGTH]`. */
  function KeptSolution(solution: string): (r: string)
    ensures |r| <= MaxSolutionLength
    ensures |r| == Seqs.Min(|solution|, MaxSolutionLength)
    ensures r <= solution
    ensures r == solution <==> |solution| <= MaxSolutionLength
  {
    if |solution| <= MaxSolutionLength then solution else solution[..MaxSolutionLength]
  }

  /** The ten lines before the solution: company, role, the drill's title,
      description and comma-separated requirements, and the opening fence. */
  function PromptHeader(title: string, description: string, requirements: seq<string>,
                        companyName: string, role: string): (r: seq<string>)
    ensures |r| == 10 && r[9] == Fence
  {
    [ "Company: " + companyName,
      "Role: " + role,
      "",
      "ORIGINAL DRILL:",
      "Title: " + title,
      "Description: " + description,
      "Requirements: " + Join(requirements, ", "),
      "",
      "USER'S SUBMITTED SOLUTION:",
      Fence ]
  }

  /** The lines of `_build_evaluator_input`: the header, the kept solution
      between fences, and the truncation note when the solution was cut. */
  function EvaluatorLines(title: string, description: string, requirements: seq<string>,
                          solution: string, companyName: string, role: string): (r: seq<string>)
    ensures |r| == (if |solution| > MaxSolutionLength then 13 else 12)
    ensures r[6] == "Requirements: " + Join(requirements, ", ")
    ensures r[10] == KeptSolution(solution) && r[11] == Fence
    ensures |solution| > MaxSolutionLength ==> r[12] == TruncationNote
  {
    PromptHeader(title, description, requirements, companyName, role)
      + [KeptSolution(solution), Fence]
      + (if |solution| > MaxSolutionLength then [TruncationNote] else [])
  }

  /** `_build_evaluator_input`: the lines joined by newlines. */
  function BuildEvaluatorInput(title: string, description: string, requirements: seq<string>,
                               solution: string, companyName: string, role: string): string
  {
    Join(EvaluatorLines(title, description, requirements, solution, companyName, role), "\n")
  }

  /** The prompt is the header, then the kept solution on its own lines
      between fences, then the note exactly when the solution was cut. */
  lemma EvaluatorInputLayout(title: string, description: string, requirements: seq<string>,
                             solution: string, companyName: string, role: string)
    ensures var head := Join(PromptHeader(title, description, requirements, companyName, role), "\n");
            var tail := if |solution| > MaxSolutionLength then "\n" + TruncationNote else "";
            BuildEvaluatorInput(title, description, requirements, solution, companyName, role)
              == head + "\n" + KeptSolution(solution) + "\n" + Fence + tail
  {
    var header := PromptHeader(title, description, requirements, companyName, role);
    var kept := KeptSolution(solution);
    var head := Join(header, "\n");
    JoinSplitLast(header, kept, "\n");
    assert Join(header + [kept], "\n") == head + "\n" + kept;
    JoinSplitLast(header + [kept], Fence, "\n");
    assert header + [kept] + [Fence] == header + [kept, Fence];
    if |solution| > MaxSolutionLength {
      JoinSplitLast(header + [kept, Fence], TruncationNote, "\n");
      assert header + [kept, Fence] + [TruncationNote] == EvaluatorLines(title, description, requirements, solution, companyName, role);
    } else {
      assert header + [kept, Fence] + [] == header + [kept, Fence];
    }
  }

  /** The prompt ends with the truncation note exactly when the solution is
      longer than the limit; otherwise it ends with the closing fence. */
  lemma NoteIffTruncated(title: string, description: string, requirements: seq<string>,
                         solution: string, companyName: string, role: string)
    ensures var p := BuildEvaluatorInput(title, description, requirements, solution, companyName, role);
            && (EndsWith(p, TruncationNote) <==> |solution| > MaxSolutionLength)
            && (|solution| <= MaxSolutionLength ==> EndsWith(p, Fence))
  {
    EvaluatorInputLayout(title, description, requirements, solution, companyName, role);
    var p := BuildEvaluatorInput(title, description, requirements, solution, companyName, role);
    var head := Join(PromptHeader(title, description, requirements, companyName, role), "\n");
    var kept := KeptSolution(solution);
    if |solution| > MaxSolutionLength {
      assert p == (head + "\n" + kept + "\n" + Fence + "\n") + TruncationNote;
    } else {
      assert p == (head + "\n" + kept + "\n") + Fence;
      assert p[|p| - 1] == '`';
      LastCharDiffers(p, TruncationNote);
    }
  }

  // ---------------------------------------------------------------------
  // Errors

  /** `EvaluationErrorDetail`: a machine-readable code and a message. */
  datatype ErrorDetail = ErrorDetail(code: string, message: string)

  /** An `HTTPException` with its status code and detail. */
  datatype HttpError = HttpError(status: nat, detail: ErrorDetail)

  /** What the decorated handler can raise. */
  datatype Raised =
    | HttpRaised(error: HttpError)
    | TripRaised(tripwire: Tripwire)
    | TimeoutRaised
    | OtherRaised(text: string)

  const SessionNotFound := HttpError(404, ErrorDetail("session_not_found", "Session not found or expired"))

  const NoDrill := HttpError(400, ErrorDetail("no_drill", "No drill found for this session. Generate a drill first."))

  const TimeoutMessage := "Evaluation timed out. Please try again."

  const FailedPrefix := "Evaluation failed: "

  /** `str()` of an `HTTPException`: its status code, a colon, and the
      detail dictionary as Python prints it. */
  function HttpText(e: HttpError): string
  {
    NatToString(e.status) + ": {'code': '" + e.detail.code + "', 'message': '" + e.detail.message + "'}"
  }

  /** The exception's text, as `f"{e!s}"` renders it. */
  function RaisedText(e: Raised): string
  {
    match e
    case HttpRaised(err) => HttpText(err)
    case TripRaised(_) => ""
    case TimeoutRaised => ""
    case OtherRaised(t) => t
  }

  /** The HTTP error for a guardrail trip, a timeout or any other failure
      of the agent run; shared by both versions of the decorator. */
  function AgentError(e: Raised): (r: HttpError)
    requires !e.HttpRaised?
    ensures e.TripRaised? ==> r.detail.message == SafeMessage(e.tripwire)
    ensures r.status == 400 <==> e == TripRaised(InputTrip)
    ensures r.status == 500 <==> e != TripRaised(InputTrip)
  {
    match e
    case TripRaised(InputTrip) => HttpError(400, ErrorDetail("input_blocked", SafeInjectionMessage))
    case TripRaised(OutputTrip) => HttpError(500, ErrorDetail("output_blocked", SafeLeakageMessage))
    case TimeoutRaised => HttpError(500, ErrorDetail("timeout", TimeoutMessage))
    case OtherRaised(t) => HttpError(500, ErrorDetail("evaluation_failed", FailedPrefix + t))
  }

  /** `handle_agent_errors` as written: the last clause catches `Exception`,
      and with it the handler's own `HTTPException`, which is turned into a
      500 `evaluation_failed` carrying the exception's text. */
  function HandleAgentErrorsAsWritten(e: Raised): (r: HttpError)
    ensures !e.HttpRaised? ==> r == AgentError(e)
    ensures e.HttpRaised? ==> r.status == 500 && r.detail.code == "evaluation_failed"
  {
    if e.HttpRaised? then HttpError(500, ErrorDetail("evaluation_failed", FailedPrefix + RaisedText(e)))
    else AgentError(e)
  }

  /** `handle_agent_errors` as evidently intended: an `HTTPException` the
      handler raised itself passes through unchanged. */
  function HandleAgentErrors(e: Raised): (r: HttpError)
    ensures e.HttpRaised? ==> r == e.error
    ensures !e.HttpRaised? ==> r == AgentError(e)
  {
    if e.HttpRaised? then e.error else AgentError(e)
  }

  /** The two versions differ only on the handler's own HTTP errors. */
  lemma HandlersAgreeOnAgentErrors(e: Raised)
    ensures HandleAgentErrors(e) == HandleAgentErrorsAsWritten(e) <==> !e.HttpRaised? || e.error == HandleAgentErrorsAsWritten(e)
  {
  }

  // ---------------------------------------------------------------------
  // The endpoint

  /** `_get_validated_session_and_drill`: 404 when the session is missing
      or expired, 400 when it has no drill. */
  function ValidateSessionAndDrill(store: Store, sessionId: string, now: real,
                                   currentDrill: Option<Drill>): (r: Result<(Session, Drill), HttpError>)
    ensures r.Success? <==> Get(store, sessionId, now).Some? && currentDrill.Some?
    ensures Get(store, sessionId, now).None? ==> r == Failure(SessionNotFound)
    ensures Get(store, sessionId, now).Some? && currentDrill.None? ==> r == Failure(NoDrill)
    ensures r.Success? ==> r.value.0 == store.sessions[sessionId] && Some(r.value.1) == currentDrill
  {
    match Get(store, sessionId, now)
    case None => Failure(SessionNotFound)
    case Some(session) =>
      match currentDrill
      case None => Failure(NoDrill)
      case Some(drill) => Success((session, drill))
  }

  /** A successful evaluation: the session, the evaluator's feedback, and the
      prompt it was given. */
  datatype Evaluation = Evaluation(sessionId: string, feedback: Feedback, prompt: string)

  /** The prompt for a validated session and drill. */
  function PromptFor(session: Session, drill: Drill, solution: string): string
  {
    BuildEvaluatorInput(drill.title, drill.description, drill.requirements, solution,
                        session.companyName, session.role)
  }

  /** The undecorated handler: validate, build the prompt, run the
      evaluator, and either return its feedback or raise. */
  function EvaluateBody(store: Store, sessionId: string, now: real, currentDrill: Option<Drill>,
                        solution: string, evaluator: string -> AgentOutcome<Feedback>): (r: Result<Evaluation, Raised>)
    ensures ValidateSessionAndDrill(store, sessionId, now, currentDrill).Failure? ==>
      r == Failure(HttpRaised(ValidateSessionAndDrill(store, sessionId, now, currentDrill).error))
    ensures r.Success? ==>
      && ValidateSessionAndDrill(store, sessionId, now, currentDrill).Success?
      && var (session, drill) := ValidateSessionAndDrill(store, sessionId, now, currentDrill).value;
         && r.value.prompt == PromptFor(session, drill, solution)
         && evaluator(r.value.prompt) == Output(r.value.feedback)
         && r.value.sessionId == sessionId
    ensures r.Failure? && r.error.HttpRaised? ==> ValidateSessionAndDrill(store, sessionId, now, currentDrill).Failure?
  {
    match ValidateSessionAndDrill(store, sessionId, now, currentDrill)
    case Failure(err) => Failure(HttpRaised(err))
    case Success((session, drill)) =>
      var prompt := PromptFor(session, drill, solution);
      match evaluator(prompt)
      case Output(feedback) => Success(Evaluation(sessionId, feedback, prompt))
      case AgentTimeout => Failure(TimeoutRaised)
      case Tripped(t) => Failure(TripRaised(t))
      case AgentRaised(_, message) => Failure(OtherRaised(message))
  }

  /** `evaluate_solution` under the decorator as written. */
  function EvaluateSolutionAsWritten(store: Store, sessionId: string, now: real, currentDrill: Option<Drill>,
                                     solution: string, evaluator: string -> AgentOutcome<Feedback>): (r: Result<Evaluation, HttpError>)
    ensures r.Failure? ==> r.error.status == 400 || r.error.status == 500
    ensures r.Success? <==> EvaluateBody(store, sessionId, now, currentDrill, solution, evaluator).Success?
  {
    match EvaluateBody(store, sessionId, now, currentDrill, solution, evaluator)
    case Success(ev) => Success(ev)
    case Failure(e) => Failure(HandleAgentErrorsAsWritten(e))
  }

  /** `evaluate_solution` with the handler's HTTP errors passed through. */
  function EvaluateSolution(store: Store, sessionId: string, now: real, currentDrill: Option<Drill>,
                            solution: string, evaluator: string -> AgentOutcome<Feedback>): (r: Result<Evaluation, HttpError>)
    ensures r.Success? <==> EvaluateBody(store, sessionId, now, currentDrill, solution, evaluator).Success?
    ensures Get(store, sessionId, now).None? ==> r == Failure(SessionNotFound)
    ensures Get(store, sessionId, now).Some? && currentDrill.None? ==> r == Failure(NoDrill)
  {
    match EvaluateBody(store, sessionId, now, currentDrill, solution, evaluator)
    case Success(ev) => Success(ev)
    case Failure(e) => Failure(HandleAgentErrors(e))
  }

  /** The status each error code is answered with. */
  function StatusOf(code: string): nat
  {
    if code == "input_blocked" || code == "no_drill" then 400
    else if code == "session_not_found" then 404
    else 500
  }

  /** Every error of the endpoint carries the status its code calls for. */
  lemma StatusMatchesCode(store: Store, sessionId: string, now: real, currentDrill: Option<Drill>,
                          solution: string, evaluator: string -> AgentOutcome<Feedback>)
    ensures var r := EvaluateSolution(store, sessionId, now, currentDrill, solution, evaluator);
            r.Failure? ==> r.error.status == StatusOf(r.error.detail.code)
  {
  }

  /** A guardrail trip is answered with the safe message of its side: 400
      `input_blocked` for the input guardrail, 500 `output_blocked` for the
      output guardrail. */
  lemma TripsAnsweredSafely(store: Store, sessionId: string, now: real, drill: Drill,
                            solution: string, evaluator: string -> AgentOutcome<Feedback>)
    requires Get(store, sessionId, now).Some?
    requires evaluator(PromptFor(store.sessions[sessionId], drill, solution)).Tripped?
    ensures var t := evaluator(PromptFor(store.sessions[sessionId], drill, solution)).tripwire;
            var r := EvaluateSolution(store, sessionId, now, Some(drill), solution, evaluator);
            && r.Failure?
            && r.error.detail.message == SafeMessage(t)
            && (r.error == HttpError(400, ErrorDetail("input_blocked", SafeInjectionMessage)) <==> t == InputTrip)
  {
  }

  /** The discrepancy of the decorator as written: a missing or expired
      session is answered 500 `evaluation_failed` instead of 404. */
  lemma MissingSessionAsWrittenIs500(store: Store, sessionId: string, now: real, currentDrill: Option<Drill>,
                                     solution: string, evaluator: string -> AgentOutcome<Feedback>)
    requires Get(store, sessionId, now).None?
    ensures var r := EvaluateSolutionAsWritten(store, sessionId, now, currentDrill, solution, evaluator);
            && r.Failure? && r.error.status == 500 && r.error.detail.code == "evaluation_failed"
            && r.error.detail.message == FailedPrefix + HttpText(SessionNotFound)
            && r != EvaluateSolution(store, sessionId, now, currentDrill, solution, evaluator)
  {
  }

  /** As written, the endpoint never answers 404. */
  lemma AsWrittenNever404(store: Store, sessionId: string, now: real, currentDrill: Option<Drill>,
                          solution: string, evaluator: string -> AgentOutcome<Feedback>)
    ensures var r := EvaluateSolutionAsWritten(store, sessionId, now, currentDrill, solution, evaluator);
            r.Failure? ==> r.error.status != 404
  {
  }
}

=== FILE: feedback_persistence.dfy ===
/** Saving evaluation feedback as markdown (`services/feedback_persistence.py`):
    file-name sanitising, the dated path, the duplicate-avoiding suffix and
    the document's lines. The clock and the file system are parameters: the
    timestamp is given, and the existing files are a finite set of paths. */
module FeedbackPersistence {
  import opened Wrappers
  import opened Seqs
  import opened Text

  // ---------------------------------------------------------------------
  // sanitize_filename

  /** The class `[\w\-]`, ASCII only. */
  predicate IsFileChar(c: char) { IsWordChar(c) || c == '-' }

  /** No two `_` in a row. */
  predicate NoDoubleUnderscore(s: string)
  {
    forall i :: 0 <= i < |s| - 1 ==> !(s[i] == '_' && s[i + 1] == '_')
  }

  predicate UnderscoreFreeEnds(s: string)
  {
    s == [] || (s[0] != '_' && s[|s| - 1] != '_')
  }

  /** `re.sub(r"[^\w\-]", "_", s)`. */
  function ReplaceUnsafe(s: string): (r: string)
    ensures |r| == |s|
    ensures forall i :: 0 <= i < |s| ==> (IsFileChar(s[i]) ==> r[i] == s[i]) && (!IsFileChar(s[i]) ==> r[i] == '_')
  {
    if s == [] then [] else [if IsFileChar(s[0]) then s[0] else '_'] + ReplaceUnsafe(s[1..])
  }

  /** The characters of `s` other than `_`, in order. */
  function NonUnderscores(s: string): (r: string)
    ensures |r| <= |s|
  {
    if s == [] then [] else (if s[0] == '_' then [] else [s[0]]) + NonUnderscores(s[1..])
  }

  /** `re.sub(r"_+", "_", s)`: each run of `_` becomes one. */
  function CollapseUnderscores(s: string): (r: string)
    ensures NoDoubleUnderscore(r)
    ensures forall c :: c in r ==> c in s
    ensures s != [] ==> r != [] && r[0] == s[0] && r[|r| - 1] == s[|s| - 1]
    ensures NoDoubleUnderscore(s) ==> r == s
  {
    if |s| < 2 then s
    else if s[0] == '_' && s[1] == '_' then CollapseUnderscores(s[1..])
    else
      var rest := CollapseUnderscores(s[1..]);
      assert forall c :: c in rest ==> c in s[1..];
      [s[0]] + rest
  }

  /** Every character other than `_` survives collapsing, in order. */
  lemma {:induction false} CollapseKeepsOthers(s: string)
    ensures NonUnderscores(CollapseUnderscores(s)) == NonUnderscores(s)
    decreases |s|
  {
    if |s| >= 2 {
      CollapseKeepsOthers(s[1..]);
      if !(s[0] == '_' && s[1] == '_') {
        assert ([s[0]] + CollapseUnderscores(s[1..]))[1..] == CollapseUnderscores(s[1..]);
      }
    }
  }

  /** A `_` survives collapsing exactly when there was one. */
  lemma {:induction false} CollapseKeepsUnderscore(s: string)
    ensures '_' in CollapseUnderscores(s) <==> '_' in s
    decreases |s|
  {
    if |s| >= 2 {
      CollapseKeepsUnderscore(s[1..]);
      assert s == [s[0]] + s[1..];
      if !(s[0] == '_' && s[1] == '_') {
        assert CollapseUnderscores(s) == [s[0]] + CollapseUnderscores(s[1..]);
      }
    }
  }

  /** The regex rewrite as a left-to-right scan: a `_` is dropped exactly
      when the character before it in `s` was also `_`. */
  function ScanCollapse(afterUnderscore: bool, s: string): (r: string)
    ensures |r| <= |s|
    decreases |s|
  {
    if s == [] then []
    else if afterUnderscore && s[0] == '_' then ScanCollapse(true, s[1..])
    else [s[0]] + ScanCollapse(s[0] == '_', s[1..])
  }

  /** Collapsing agrees with the scan on every input, so the result is fixed
      character by character, not only in its shape. */
  lemma {:induction false} CollapseIsScan(s: string)
    ensures CollapseUnderscores(s) == ScanCollapse(false, s)
  {
    if s != [] {
      CollapseFromHead(s);
    }
  }

  lemma {:induction false} CollapseFromHead(s: string)
    requires s != []
    ensures CollapseUnderscores(s) == [s[0]] + ScanCollapse(s[0] == '_', s[1..])
    decreases |s|
  {
    if |s| >= 2 {
      CollapseFromHead(s[1..]);
      assert s[1..][1..] == s[2..];
    }
  }

  /** `re.sub(r"_+", "_", "a__b")` is `"a_b"`. */
  lemma CollapseExample()
    ensures CollapseUnderscores("a__b") == "a_b"
  {
    CollapseKeeps('_', "b");
    CollapseDrops("_b");
    CollapseKeeps('a', "__b");
    assert "a__b" == ['a'] + "__b";
    assert "__b" == ['_'] + "_b";
    assert "_b" == ['_'] + "b";
  }

  /** A character that does not extend a run of `_` is kept. */
  lemma CollapseKeeps(c: char, t: string)
    requires t != [] && !(c == '_' && t[0] == '_')
    ensures CollapseUnderscores([c] + t) == [c] + CollapseUnderscores(t)
  {
    assert ([c] + t)[1..] == t;
  }

  /** A `_` followed by another `_` is dropped. */
  lemma CollapseDrops(t: string)
    requires t != [] && t[0] == '_'
    ensures CollapseUnderscores(['_'] + t) == CollapseUnderscores(t)
  {
    assert (['_'] + t)[1..] == t;
  }

  /** `s.lstrip("_")`: the suffix left after dropping the leading `_`. */
  function LStripUnderscores(s: string): (r: string)
    ensures |r| <= |s| && r == s[|s| - |r|..]
    ensures forall i :: 0 <= i < |s| - |r| ==> s[i] == '_'
    ensures r == [] || r[0] != '_'
  {
    if s != [] && s[0] == '_' then
      var r := LStripUnderscores(s[1..]);
      assert s[1..][|s| - 1 - |r|..] == s[|s| - |r|..];
      assert forall i :: 1 <= i < |s| - |r| ==> s[i] == s[1..][i - 1];
      r
    else
      s
  }

  /** `s.rstrip("_")`: the prefix left after dropping the trailing `_`. */
  function RStripUnderscores(s: string): (r: string)
    ensures |r| <= |s| && r == s[..|r|]
    ensures forall i :: |r| <= i < |s| ==> s[i] == '_'
    ensures r == [] || r[|r| - 1] != '_'
  {
    if s != [] && s[|s| - 1] == '_' then
      var r := RStripUnderscores(s[..|s| - 1]);
      assert s[..|s| - 1][..|r|] == s[..|r|];
      r
    else
      s
  }

  /** The number of `_` at the start of `s`. */
  function LeadingUnderscores(s: string): (n: nat)
    ensures n <= |s|
  {
    if s != [] && s[0] == '_' then 1 + LeadingUnderscores(s[1..]) else 0
  }

  /** `lstrip` drops exactly the leading `_`. */
  lemma {:induction false} LeadingIsLStrip(s: string)
    ensures LeadingUnderscores(s) == |s| - |LStripUnderscores(s)|
  {
    if s != [] && s[0] == '_' {
      LeadingIsLStrip(s[1..]);
    }
  }

  /** `r` is the slice of `s` that starts at `i`, and `s` has only `_`
      outside it. */
  predicate SliceWithin(s: string, i: nat, r: string)
  {
    && i + |r| <= |s| && r == s[i..i + |r|]
    && (forall k :: 0 <= k < i ==> s[k] == '_')
    && (forall k :: i + |r| <= k < |s| ==> s[k] == '_')
  }

  /** `s.strip("_")`: the slice of `s` after its leading `_` with only `_`
      after it, and with no `_` at either end, so exactly the `_` at the two
      ends are dropped. */
  function StripUnderscores(s: string): (r: string)
    ensures UnderscoreFreeEnds(r)
    ensures exists i, j :: 0 <= i <= j <= |s| && r == s[i..j]
    ensures SliceWithin(s, LeadingUnderscores(s), r)
    ensures UnderscoreFreeEnds(s) ==> r == s
  {
    var l := LStripUnderscores(s);
    var r := RStripUnderscores(l);
    var i := LeadingUnderscores(s);
    LeadingIsLStrip(s);
    StrippedWithin(s, i, l, r);
    r
  }

  /** Dropping a prefix of `_` and then a suffix of `_` leaves a slice
      with only `_` outside it. */
  lemma StrippedWithin(s: string, i: nat, l: string, r: string)
    requires i <= |s| && l == s[i..] && forall k :: 0 <= k < i ==> s[k] == '_'
    requires |r| <= |l| && r == l[..|r|] && forall k :: |r| <= k < |l| ==> l[k] == '_'
    ensures SliceWithin(s, i, r)
  {
    SliceOfSuffix(s, i, l, r);
    assert forall k :: i + |r| <= k < |s| ==> s[k] == '_' by {
      assert forall k :: i + |r| <= k < |s| ==> s[k] == l[k - i];
    }
  }

  /** Stripping is determined by its contract: any slice of `s` with only
      `_` outside it and no `_` at its ends is the stripped `s`. */
  lemma StripUnique(s: string, t: string, i: nat)
    requires SliceWithin(s, i, t)
    requires UnderscoreFreeEnds(t)
    ensures t == StripUnderscores(s)
  {
    SlicesAgree(s, i, t, LeadingUnderscores(s), StripUnderscores(s));
  }

  /** Two slices of `s` with only `_` outside them and no `_` at their
      ends are the same slice. */
  lemma SlicesAgree(s: string, i: nat, t: string, a: nat, r: string)
    requires SliceWithin(s, i, t) && UnderscoreFreeEnds(t)
    requires SliceWithin(s, a, r) && UnderscoreFreeEnds(r)
    ensures t == r
  {
    var j, b := i + |t|, a + |r|;
    if t != [] {
      assert s[i] == t[0] && s[j - 1] == t[|t| - 1];
      assert a <= i < b && a <= j - 1 < b;
      assert r[0] == s[a] && r[|r| - 1] == s[b - 1];
      assert i <= a < j && i <= b - 1 < j;
    } else {
      assert forall k :: 0 <= k < |s| ==> s[k] == '_';
    }
  }

  /** Stripping drops only `_`: the other characters are kept, in order. */
  lemma StripKeepsOthers(s: string)
    ensures NonUnderscores(StripUnderscores(s)) == NonUnderscores(s)
  {
    var r := StripUnderscores(s);
    NonUnderscoresBetween(s, LeadingUnderscores(s), r);
  }

  /** A slice with only `_` outside it has all the other characters. */
  lemma NonUnderscoresBetween(s: string, a: nat, mid: string)
    requires SliceWithin(s, a, mid)
    ensures NonUnderscores(mid) == NonUnderscores(s)
  {
    var b := a + |mid|;
    var pre, post := s[..a], s[b..];
    assert NonUnderscores(pre) == [] by {
      UnderscoresBefore(s, a);
    }
    assert NonUnderscores(post) == [] by {
      UnderscoresAfter(s, b);
    }
    assert s == pre + mid + post by {
      SliceThree(s, a, b);
    }
    NonUnderscoresAppend(pre + mid, post);
    NonUnderscoresAppend(pre, mid);
  }

  lemma UnderscoresBefore(s: string, a: nat)
    requires a <= |s| && forall k :: 0 <= k < a ==> s[k] == '_'
    ensures NonUnderscores(s[..a]) == []
  {
    NonUnderscoresOfUnderscores(s[..a]);
  }

  lemma UnderscoresAfter(s: string, b: nat)
    requires b <= |s| && forall k :: b <= k < |s| ==> s[k] == '_'
    ensures NonUnderscores(s[b..]) == []
  {
    assert forall k :: 0 <= k < |s| - b ==> s[b..][k] == s[b + k];
    NonUnderscoresOfUnderscores(s[b..]);
  }

  lemma SliceThree<T>(s: seq<T>, a: nat, b: nat)
    requires a <= b <= |s|
    ensures s == s[..a] + s[a..b] + s[b..]
  {
    assert s[..b] == s[..a] + s[a..b];
  }

  lemma {:induction false} NonUnderscoresAppend(a: string, b: string)
    ensures NonUnderscores(a + b) == NonUnderscores(a) + NonUnderscores(b)
    decreases |a|
  {
    if a == [] {
      assert a + b == b;
    } else {
      assert (a + b)[1..] == a[1..] + b;
      NonUnderscoresAppend(a[1..], b);
    }
  }

  lemma {:induction false} NonUnderscoresOfUnderscores(s: string)
    requires forall k :: 0 <= k < |s| ==> s[k] == '_'
    ensures NonUnderscores(s) == []
    decreases |s|
  {
    if s != [] {
      NonUnderscoresOfUnderscores(s[1..]);
    }
  }

  /** A prefix of a suffix is a slice. */
  lemma SliceOfSuffix(s: string, i: nat, l: string, r: string)
    requires i <= |s| && l == s[i..] && |r| <= |l| && r == l[..|r|]
    ensures i + |r| <= |s| && r == s[i..i + |r|]
  {
  }

  /** Only lower-case word characters and `-`. */
  predicate SafeChars(s: string)
  {
    forall i :: 0 <= i < |s| ==> IsFileChar(s[i]) && !IsUpper(s[i])
  }

  /** `sanitize_filename(name)`: the lower-cased name with every unsafe
      character turned into `_`, runs of `_` collapsed and `_` stripped from
      the ends. Only `_` is ever dropped: the other characters are those of
      the lower-cased, replaced name, in order. */
  function SanitizeFilename(name: string): (r: string)
    ensures SafeChars(r)
    ensures NoDoubleUnderscore(r)
    ensures UnderscoreFreeEnds(r)
    ensures NonUnderscores(r) == NonUnderscores(ReplaceUnsafe(Lower(name)))
  {
    var replaced := ReplaceUnsafe(Lower(name));
    ReplacedIsSafe(name);
    var collapsed := CollapseUnderscores(replaced);
    SafeCharsKept(replaced, collapsed);
    CollapseKeepsOthers(replaced);
    var r := StripUnderscores(collapsed);
    SliceKeeps(collapsed, r);
    StripKeepsOthers(collapsed);
    r
  }

  lemma ReplacedIsSafe(name: string)
    ensures SafeChars(ReplaceUnsafe(Lower(name)))
  {
  }

  lemma SafeCharsKept(a: string, b: string)
    requires SafeChars(a) && forall c :: c in b ==> c in a
    ensures SafeChars(b)
  {
    forall i | 0 <= i < |b|
      ensures IsFileChar(b[i]) && !IsUpper(b[i])
    {
      assert b[i] in a;
    }
  }

  lemma SliceKeeps(s: string, r: string)
    requires SafeChars(s) && NoDoubleUnderscore(s)
    requires exists i, j :: 0 <= i <= j <= |s| && r == s[i..j]
    ensures SafeChars(r) && NoDoubleUnderscore(r)
  {
    var i, j :| 0 <= i <= j <= |s| && r == s[i..j];
    assert forall k :: 0 <= k < |r| ==> r[k] == s[i + k];
  }

  /** A company name with a space and a trailing `!`: the space becomes
      `_` and the `_` left by the `!` is stripped. */
  lemma SanitizeFilenameExample()
    ensures SanitizeFilename("Acme Corp!") == "acme_corp"
  {
    ExampleLowered();
    ExampleReplaced();
    ExampleSingleUnderscores();
    ExampleStripped();
  }

  lemma ExampleLowered()
    ensures Lower("Acme Corp!") == "acme corp!"
  {
    var s, t := "Acme Corp!", "acme corp!";
    forall i | 0 <= i < |s|
      ensures t[i] == LowerChar(s[i])
    {
    }
    LoweredPointwise(s, t);
  }

  lemma LoweredPointwise(s: string, t: string)
    requires |t| == |s|
    requires forall i :: 0 <= i < |s| ==> t[i] == LowerChar(s[i])
    ensures Lower(s) == t
  {
  }

  lemma ExampleReplaced()
    ensures ReplaceUnsafe("acme corp!") == "acme_corp_"
  {
    var s, t := "acme corp!", "acme_corp_";
    forall i | 0 <= i < |s|
      ensures (IsFileChar(s[i]) ==> t[i] == s[i]) && (!IsFileChar(s[i]) ==> t[i] == '_')
    {
    }
    ReplacedPointwise(s, t);
  }

  lemma ReplacedPointwise(s: string, t: string)
    requires |t| == |s|
    requires forall i :: 0 <= i < |s| ==> (IsFileChar(s[i]) ==> t[i] == s[i]) && (!IsFileChar(s[i]) ==> t[i] == '_')
    ensures ReplaceUnsafe(s) == t
  {
  }

  lemma ExampleSingleUnderscores()
    ensures NoDoubleUnderscore("acme_corp_")
  {
  }

  lemma ExampleStripped()
    ensures StripUnderscores("acme_corp_") == "acme_corp"
  {
    assert LStripUnderscores("acme_corp_") == "acme_corp_";
    assert RStripUnderscores("acme_corp_") == "acme_corp";
  }

  /** Sanitising a sanitised name changes nothing. */
  lemma SanitizeFilenameIdempotent(name: string)
    ensures SanitizeFilename(SanitizeFilename(name)) == SanitizeFilename(name)
  {
    var s := SanitizeFilename(name);
    LowerOfLower(s);
    assert ReplaceUnsafe(s) == s;
  }

  // ---------------------------------------------------------------------
  // generate_feedback_path

  /** A `datetime` down to the minute, with its field ranges. */
  datatype Stamp = Stamp(day: nat, month: nat, year: nat, hour: nat, minute: nat)
  {
    predicate Valid()
    {
      1 <= day <= 31 && 1 <= month <= 12 && 1 <= year <= 9999 && hour < 24 && minute < 60
    }
  }

  /** `n` in two zero-padded digits. */
  function Pad2(n: nat): (r: string)
    requires n < 100
    ensures |r| == 2 && IsDigit(r[0]) && IsDigit(r[1])
  {
    [DigitChar(n / 10), DigitChar(n % 10)]
  }

  /** `%Y` as glibc's `strftime` writes it: the year in decimal, without
      padding, so years before 1000 have fewer than four digits. */
  function YearText(y: nat): (r: string)
    ensures 1 <= |r| && forall i :: 0 <= i < |r| ==> IsDigit(r[i])
    ensures 1000 <= y <= 9999 ==> |r| == 4
    ensures y < 1000 ==> |r| <= 3
  {
    NatToStringDigits(y);
    YearWidth(y);
    NatToString(y)
  }

  lemma YearWidth(y: nat)
    ensures 1000 <= y <= 9999 ==> |NatToString(y)| == 4
    ensures y < 1000 ==> |NatToString(y)| <= 3
  {
    if 10 <= y <= 9999 {
      var a, b, c := y / 10, y / 100, y / 1000;
      assert a / 10 == b && b / 10 == c;
      assert |NatToString(y)| == |NatToString(a)| + 1;
      if a >= 10 {
        assert |NatToString(a)| == |NatToString(b)| + 1;
        if b >= 10 {
          assert |NatToString(b)| == |NatToString(c)| + 1;
        }
      }
    }
  }

  /** `strftime("%d-%m-%Y_%H-%M")`. */
  function StampDir(t: Stamp): (r: string)
    requires t.Valid()
    ensures 13 <= |r| && r[2] == '-' && r[5] == '-' && r[|r| - 6] == '_' && r[|r| - 3] == '-'
    ensures 1000 <= t.year ==> |r| == 16
    ensures t.year < 1000 ==> |r| < 16
  {
    Pad2(t.day) + "-" + Pad2(t.month) + "-" + YearText(t.year) + "_" + Pad2(t.hour) + "-" + Pad2(t.minute)
  }

  /** `strftime("%Y-%m-%d %H:%M")`, the document's date line. */
  function StampDate(t: Stamp): (r: string)
    requires t.Valid()
    ensures 13 <= |r| && r[|r| - 12] == '-' && r[|r| - 9] == '-' && r[|r| - 6] == ' ' && r[|r| - 3] == ':'
    ensures 1000 <= t.year ==> |r| == 16
    ensures t.year < 1000 ==> |r| < 16
  {
    YearText(t.year) + "-" + Pad2(t.month) + "-" + Pad2(t.day) + " " + Pad2(t.hour) + ":" + Pad2(t.minute)
  }

  function DigitValue(c: char): nat
  {
    if IsDigit(c) then c as int - '0' as int else 0
  }

  /** The number a run of decimal digits spells. */
  function DigitsValue(s: string): nat
    decreases |s|
  {
    if s == [] then 0 else 10 * DigitsValue(s[..|s| - 1]) + DigitValue(s[|s| - 1])
  }

  function TwoDigits(s: string, i: nat): nat
    requires i + 1 < |s|
  {
    10 * DigitValue(s[i]) + DigitValue(s[i + 1])
  }

  /** Reads back a directory name written by `StampDir`: two-digit fields
      at both ends and the year, of any width, between them. */
  function ParseStampDir(s: string): (t: Option<Stamp>)
  {
    if |s| >= 13 && s[2] == '-' && s[5] == '-' && s[|s| - 6] == '_' && s[|s| - 3] == '-' then
      Some(Stamp(TwoDigits(s, 0), TwoDigits(s, 3), DigitsValue(s[6..|s| - 6]), TwoDigits(s, |s| - 5), TwoDigits(s, |s| - 2)))
    else None
  }

  /** Reads back a date line written by `StampDate`. */
  function ParseStampDate(s: string): (t: Option<Stamp>)
  {
    if |s| >= 13 && s[|s| - 12] == '-' && s[|s| - 9] == '-' && s[|s| - 6] == ' ' && s[|s| - 3] == ':' then
      Some(Stamp(TwoDigits(s, |s| - 8), TwoDigits(s, |s| - 11), DigitsValue(s[..|s| - 12]), TwoDigits(s, |s| - 5), TwoDigits(s, |s| - 2)))
    else None
  }

  /** Reading the decimal rendering of a number gives the number back. */
  lemma {:induction false} DigitsOfNat(n: nat)
    ensures DigitsValue(NatToString(n)) == n
  {
    var s := NatToString(n);
    if n < 10 {
      assert s[..|s| - 1] == [];
    } else {
      assert s[..|s| - 1] == NatToString(n / 10);
      DigitsOfNat(n / 10);
    }
  }

  /** The directory name determines the minute it was written for, whatever
      the width of the year. */
  lemma StampDirRoundTrip(t: Stamp)
    requires t.Valid()
    ensures ParseStampDir(StampDir(t)) == Some(t)
  {
    var s := StampDir(t);
    var y := YearText(t.year);
    var head := Pad2(t.day) + "-" + Pad2(t.month) + "-";
    var tail := "_" + Pad2(t.hour) + "-" + Pad2(t.minute);
    var n := |s|;
    assert s[..6] == head && s[6..n - 6] == y && s[n - 6..] == tail by {
      assert s == head + y + tail;
    }
    assert DigitsValue(s[6..n - 6]) == t.year by { DigitsOfNat(t.year); }
    assert TwoDigits(s, 0) == TwoDigits(head, 0) && TwoDigits(s, 3) == TwoDigits(head, 3) by {
      assert s[0] == head[0] && s[1] == head[1] && s[3] == head[3] && s[4] == head[4];
    }
    assert TwoDigits(s, n - 5) == TwoDigits(tail, 1) && TwoDigits(s, n - 2) == TwoDigits(tail, 4) by {
      assert s[n - 5] == tail[1] && s[n - 4] == tail[2] && s[n - 2] == tail[4] && s[n - 1] == tail[5];
    }
    Pad2At(head, 0, t.day);
    Pad2At(head, 3, t.month);
    Pad2At(tail, 1, t.hour);
    Pad2At(tail, 4, t.minute);
  }

  /** The date line determines the minute it was written for. */
  lemma StampDateRoundTrip(t: Stamp)
    requires t.Valid()
    ensures ParseStampDate(StampDate(t)) == Some(t)
  {
    var s := StampDate(t);
    var y := YearText(t.year);
    var tail := "-" + Pad2(t.month) + "-" + Pad2(t.day) + " " + Pad2(t.hour) + ":" + Pad2(t.minute);
    var n := |s|;
    assert s[..n - 12] == y && s[n - 12..] == tail by {
      assert s == y + tail;
    }
    assert DigitsValue(s[..n - 12]) == t.year by { DigitsOfNat(t.year); }
    assert TwoDigits(s, n - 11) == TwoDigits(tail, 1) && TwoDigits(s, n - 8) == TwoDigits(tail, 4) by {
      assert s[n - 11] == tail[1] && s[n - 10] == tail[2] && s[n - 8] == tail[4] && s[n - 7] == tail[5];
    }
    assert TwoDigits(s, n - 5) == TwoDigits(tail, 7) && TwoDigits(s, n - 2) == TwoDigits(tail, 10) by {
      assert s[n - 5] == tail[7] && s[n - 4] == tail[8] && s[n - 2] == tail[10] && s[n - 1] == tail[11];
    }
    Pad2At(tail, 1, t.month);
    Pad2At(tail, 4, t.day);
    Pad2At(tail, 7, t.hour);
    Pad2At(tail, 10, t.minute);
  }

  /** A field written by `Pad2` at position `i` reads back as its number. */
  lemma Pad2At(s: string, i: nat, n: nat)
    requires n < 100 && i + 2 <= |s| && s[i..i + 2] == Pad2(n)
    ensures TwoDigits(s, i) == n
  {
    assert s[i] == Pad2(n)[0] && s[i + 1] == Pad2(n)[1];
  }

  /** A minute in year 999: the short year is written with three digits in
      the directory name, as glibc does. */
  lemma ShortYearDir()
    ensures StampDir(Stamp(2, 1, 999, 3, 4)) == "02-01-999_03-04"
  {
    var y, p1, p2, p3, p4 := YearText(999), Pad2(1), Pad2(2), Pad2(3), Pad2(4);
    assert y == "999" by { ShortYearText(); }
    assert p1 == "01" && p2 == "02" && p3 == "03" && p4 == "04" by { SmallPads(); }
  }

  /** The same minute in the date line. */
  lemma ShortYearDate()
    ensures StampDate(Stamp(2, 1, 999, 3, 4)) == "999-01-02 03:04"
  {
    var y, p1, p2, p3, p4 := YearText(999), Pad2(1), Pad2(2), Pad2(3), Pad2(4);
    assert y == "999" by { ShortYearText(); }
    assert p1 == "01" && p2 == "02" && p3 == "03" && p4 == "04" by { SmallPads(); }
  }

  lemma ShortYearText()
    ensures YearText(999) == "999"
  {
    assert NatToString(9) == "9";
    assert NatToString(99) == "99";
  }

  lemma SmallPads()
    ensures Pad2(1) == "01" && Pad2(2) == "02" && Pad2(3) == "03" && Pad2(4) == "04"
  {
  }

  /** A minute in 2024 gives a 16-character directory name. */
  lemma FullYearStamp()
    ensures StampDir(Stamp(15, 3, 2024, 9, 5)) == "15-03-2024_09-05"
  {
    var y, p15, p3, p9, p5 := YearText(2024), Pad2(15), Pad2(3), Pad2(9), Pad2(5);
    assert y == "2024" by { FullYearText(); }
    assert p15 == "15" && p3 == "03" && p9 == "09" && p5 == "05" by { FullYearPads(); }
  }

  lemma FullYearText()
    ensures YearText(2024) == "2024"
  {
    assert NatToString(2) == "2";
    assert NatToString(20) == "20";
    assert NatToString(202) == "202";
  }

  lemma FullYearPads()
    ensures Pad2(15) == "15" && Pad2(3) == "03" && Pad2(9) == "09" && Pad2(5) == "05"
  {
  }

  /** A path as `Path` sees it: the parent directories, the stem and the
      suffix of the last component. */
  datatype FilePath = FilePath(parent: seq<string>, stem: string, suffix: string)

  const FeedbacksBase: seq<string> := ["docs", "drills", "feedbacks"]

  const FeedbackSuffix := ".md"

  /** `generate_feedback_path(company_name, role, timestamp)`. */
  function FeedbackPath(company: string, role: string, t: Stamp): (p: FilePath)
    requires t.Valid()
    ensures |p.parent| == |FeedbacksBase| + 1 && p.parent[..|FeedbacksBase|] == FeedbacksBase
    ensures ParseStampDir(p.parent[|FeedbacksBase|]) == Some(t)
    ensures p.stem == SanitizeFilename(company) + "_" + SanitizeFilename(role)
    ensures '.' !in p.stem && p.suffix == FeedbackSuffix
  {
    StampDirRoundTrip(t);
    var stem := SanitizeFilename(company) + "_" + SanitizeFilename(role);
    NoDotInStem(SanitizeFilename(company), SanitizeFilename(role));
    var parent := FeedbacksBase + [StampDir(t)];
    assert parent[..|FeedbacksBase|] == FeedbacksBase;
    FilePath(parent, stem, FeedbackSuffix)
  }

  /** The stem holds no `.`, so `.md` is the whole suffix `Path` sees. */
  lemma NoDotInStem(a: string, b: string)
    requires SafeChars(a) && SafeChars(b)
    ensures '.' !in a + "_" + b
  {
    var s := a + "_" + b;
    forall i | 0 <= i < |s|
      ensures s[i] != '.'
    {
      if i < |a| {
        assert s[i] == a[i];
      } else if i > |a| {
        assert s[i] == b[i - |a| - 1];
      }
    }
  }

  // ---------------------------------------------------------------------
  // resolve_duplicate_path

  /** `parent / f"{stem}_{k}{suffix}"`. */
  function Numbered(base: FilePath, k: nat): FilePath
  {
    FilePath(base.parent, base.stem + "_" + NatToString(k), base.suffix)
  }

  lemma NumberedInjective(base: FilePath, j: nat, k: nat)
    requires Numbered(base, j) == Numbered(base, k)
    ensures j == k
  {
    var n := |base.stem| + 1;
    assert Numbered(base, j).stem[n..] == NatToString(j);
    assert Numbered(base, k).stem[n..] == NatToString(k);
    NatToStringInjective(j, k);
  }

  function NumberedUpTo(base: FilePath, k: nat): set<FilePath>
  {
    set j | 1 <= j < k :: Numbered(base, j)
  }

  lemma {:induction false} NumberedUpToSize(base: FilePath, k: nat)
    requires k >= 1
    ensures |NumberedUpTo(base, k)| == k - 1
  {
    if k > 1 {
      NumberedUpToSize(base, k - 1);
      assert NumberedUpTo(base, k) == NumberedUpTo(base, k - 1) + {Numbered(base, k - 1)};
      if Numbered(base, k - 1) in NumberedUpTo(base, k - 1) {
        var j :| 1 <= j < k - 1 && Numbered(base, j) == Numbered(base, k - 1);
        NumberedInjective(base, j, k - 1);
      }
    } else {
      assert NumberedUpTo(base, k) == {};
    }
  }

  /** Finitely many files exist, so the search for a free number stops. */
  lemma NumberedBound(base: FilePath, existing: set<FilePath>, k: nat)
    requires k >= 1
    requires forall j :: 1 <= j < k ==> Numbered(base, j) in existing
    ensures k - 1 <= |existing|
  {
    NumberedUpToSize(base, k);
    SubsetSize(NumberedUpTo(base, k), existing);
  }

  /** `resolve_duplicate_path(base_path)` against the set of existing files. */
  method ResolveDuplicatePath(base: FilePath, existing: set<FilePath>) returns (p: FilePath)
    ensures p !in existing
    ensures base !in existing ==> p == base
    ensures base in existing ==>
      exists k :: k >= 1 && p == Numbered(base, k) && forall j :: 1 <= j < k ==> Numbered(base, j) in existing
  {
    if base !in existing {
      return base;
    }
    var counter := 1;
    while true
      invariant counter >= 1
      invariant forall j :: 1 <= j < counter ==> Numbered(base, j) in existing
      decreases |existing| + 1 - counter
    {
      NumberedBound(base, existing, counter);
      var candidate := Numbered(base, counter);
      if candidate !in existing {
        return candidate;
      }
      counter := counter + 1;
    }
  }

  // ---------------------------------------------------------------------
  // format_feedback_markdown

  /** The score's verdict in the document. */
  datatype Rating = NeedsImprovement | Adequate | Good
  {
    function Text(): string
    {
      match this
      case NeedsImprovement => "Needs Improvement"
      case Adequate => "Adequate"
      case Good => "Good"
    }

    function Rank(): nat
    {
      match this
      case NeedsImprovement => 0
      case Adequate => 1
      case Good => 2
    }
  }

  function ScoreRating(score: real): (r: Rating)
    ensures r == Good <==> score >= 7.0
    ensures r == NeedsImprovement <==> score < 5.0
  {
    if score >= 7.0 then Good else if score >= 5.0 then Adequate else NeedsImprovement
  }

  /** A higher score never gets a worse verdict. */
  lemma RatingMonotone(a: real, b: real)
    requires a <= b
    ensures ScoreRating(a).Rank() <= ScoreRating(b).Rank()
  {
  }

  datatype Strength = Strength(title: string, description: string)

  datatype Improvement = Improvement(title: string, description: string, suggestion: string)

  /** `SolutionFeedback`; `scoreText` is the score as Python prints it. */
  datatype Feedback = Feedback(score: real, scoreText: string, strengths: seq<Strength>,
                               improvements: seq<Improvement>, summary: string)

  const NoStrengths := "_No specific strengths noted._\n"

  const NoImprovements := "_No specific improvements noted._\n"

  function HeaderLines(f: Feedback, company: string, role: string, drillTitle: string, t: Stamp): (lines: seq<string>)
    requires t.Valid()
    ensures |lines| == 11
  {
    ["# Feedback: " + drillTitle, "",
     "**Company:** " + company, "**Role:** " + role, "**Date:** " + StampDate(t),
     "**Score:** " + f.scoreText + "/10 (" + ScoreRating(f.score).Text() + ")",
     "", "---", "", "## Strengths", ""]
  }

  function StrengthBlock(s: Strength): seq<string>
  {
    ["### " + s.title, "", s.description, ""]
  }

  function ImprovementBlock(m: Improvement): seq<string>
  {
    ["### " + m.title, "", m.description, "", "**Suggestion:** " + m.suggestion, ""]
  }

  /** The strengths section: four lines per strength, or the placeholder. */
  function StrengthLines(ss: seq<Strength>): (lines: seq<string>)
    ensures |lines| == if ss == [] then 1 else 4 * |ss|
    ensures lines[0] == NoStrengths <==> ss == []
  {
    if ss == [] then [NoStrengths]
    else
      var blocks := seq(|ss|, k requires 0 <= k < |ss| => StrengthBlock(ss[k]));
      FlattenUniformLength(blocks, 4);
      FlattenUniformAt(blocks, 4, 0, 0);
      assert Flatten(blocks)[0][0] == '#';
      Flatten(blocks)
  }

  /** The improvements section: six lines per item, or the placeholder. */
  function ImprovementLines(ms: seq<Improvement>): (lines: seq<string>)
    ensures |lines| == if ms == [] then 1 else 6 * |ms|
    ensures lines[0] == NoImprovements <==> ms == []
  {
    if ms == [] then [NoImprovements]
    else
      var blocks := seq(|ms|, k requires 0 <= k < |ms| => ImprovementBlock(ms[k]));
      FlattenUniformLength(blocks, 6);
      FlattenUniformAt(blocks, 6, 0, 0);
      assert Flatten(blocks)[0][0] == '#';
      Flatten(blocks)
  }

  /** The document's lines; the document is these joined with "\n". */
  function FeedbackLines(f: Feedback, company: string, role: string, drillTitle: string, t: Stamp): (lines: seq<string>)
    requires t.Valid()
    ensures |lines| > 11 && lines[5] == "**Score:** " + f.scoreText + "/10 (" + ScoreRating(f.score).Text() + ")"
    ensures lines[11] == NoStrengths <==> f.strengths == []
    ensures ImprovementsAt(f) < |lines| && (lines[ImprovementsAt(f)] == NoImprovements <==> f.improvements == [])
    ensures lines[|lines| - 2] == f.summary
  {
    var header := HeaderLines(f, company, role, drillTitle, t);
    var strengths := StrengthLines(f.strengths);
    var middle := ["---", "", "## Areas for Improvement", ""];
    var improvements := ImprovementLines(f.improvements);
    var closing := ["---", "", "## Summary for Next Practice", "", f.summary, ""];
    var lines := header + strengths + middle + improvements + closing;
    assert lines[5] == header[5] && lines[11] == strengths[0];
    assert lines[ImprovementsAt(f)] == improvements[0];
    assert lines[|lines| - 2] == closing[4];
    lines
  }

  /** Where the improvements section starts. */
  function ImprovementsAt(f: Feedback): nat
  {
    11 + (if f.strengths == [] then 1 else 4 * |f.strengths|) + 4
  }

  function FormatFeedbackMarkdown(f: Feedback, company: string, role: string, drillTitle: string, t: Stamp): string
    requires t.Valid()
  {
    Join(FeedbackLines(f, company, role, drillTitle, t), "\n")
  }
}

=== FILE: github_client.dfy ===
/** The deterministic parts of the GitHub GraphQL client
    (`services/github_client.py`): the token check, the retry decision, one
    search page's bookkeeping, README fetching and the query builders. The
    HTTP responses are inputs: the status codes the server answers in turn,
    the search pages it returns, and the README text behind each alias. */
module GithubClient {
  import opened Wrappers
  import opened Seqs
  import opened Text
  import opened ScoutSchemas

  const RateLimitThreshold := 100

  const MaxRetries := 3

  const ReadmeBatchSize := 20

  const ReadmeMaxChars := 16000

  /** The client holds a non-empty token. */
  datatype Client = Client(token: string)

  const MissingTokenMessage := "GITHUB_TOKEN is not configured \U{2014} token is required"

  /** `GitHubGraphQLClient(token)`. */
  function NewClient(token: string): (r: Result<Client, string>)
    ensures r.Failure? <==> token == ""
    ensures r.Failure? ==> r.error == MissingTokenMessage
    ensures r.Success? ==> r.value.token == token
  {
    if token == "" then Failure(MissingTokenMessage) else Success(Client(token))
  }

  // ---------------------------------------------------------------------
  // _retry_request

  /** `raise_for_status` passes exactly the 2xx codes. */
  predicate IsSuccess(status: int) { 200 <= status < 300 }

  /** The gateway errors that are retried. */
  predicate IsGatewayError(status: int) { status == 502 || status == 503 }

  /** How a request ended: the response returned or the status raised, after
      how many attempts. */
  datatype RetryOutcome = Returned(status: int, attempts: nat) | Raised(status: int, attempts: nat)

  /** `_retry_request`, where `statuses[a]` is the server's answer to attempt
      `a`. Retry delays and their jitter are not modelled. */
  method RetryRequest(statuses: seq<int>) returns (r: RetryOutcome)
    requires |statuses| >= MaxRetries
    ensures 1 <= r.attempts <= MaxRetries
    ensures r.status == statuses[r.attempts - 1]
    ensures forall a :: 0 <= a < r.attempts - 1 ==> IsGatewayError(statuses[a])
    ensures r.attempts < MaxRetries ==> !IsGatewayError(r.status)
    ensures r.Returned? <==> IsSuccess(r.status)
  {
    var attempt := 0;
    while attempt < MaxRetries
      invariant 0 <= attempt < MaxRetries
      invariant forall a :: 0 <= a < attempt ==> IsGatewayError(statuses[a])
    {
      var status := statuses[attempt];
      if status == 401 {
        return Raised(status, attempt + 1);
      }
      if IsGatewayError(status) {
        if attempt < MaxRetries - 1 {
          attempt := attempt + 1;
          continue;
        }
        return Raised(status, attempt + 1);
      }
      if !IsSuccess(status) {
        return Raised(status, attempt + 1);
      }
      return Returned(status, attempt + 1);
    }
    assert false;
  }

  /** Three gateway errors in a row raise the third; a 401 raises at once. */
  method GatewayErrorsThenUnauthorized() returns (r1: RetryOutcome, r2: RetryOutcome)
    ensures r1 == Raised(502, 3)
    ensures r2 == Raised(401, 1)
  {
    var gateway, unauthorized := [502, 503, 502], [401, 200, 200];
    assert IsGatewayError(gateway[0]) && IsGatewayError(gateway[1]) && !IsSuccess(gateway[2]);
    assert !IsGatewayError(unauthorized[0]) && !IsSuccess(unauthorized[0]);
    r1 := RetryRequest(gateway);
    r2 := RetryRequest(unauthorized);
  }

  // ---------------------------------------------------------------------
  // _process_search_page

  /** One page of search results: the total count, the repositories in
      order, the remaining rate budget if reported, and the page info. */
  datatype SearchPage = SearchPage(repositoryCount: int, nodes: seq<RepoMetadata>,
                                   rateRemaining: Option<int>, hasNextPage: bool, endCursor: string)

  const IncompleteWarning := "Results may be " + "incomplete" + " (GitHub caps at 1,000). Try narrowing your filters."

  const RateLimitWarning := "GitHub rate limit approaching. Returning partial results."

  /** The default when the page carries no rate information. */
  const DefaultRemaining := 5000

  predicate MentionsIncomplete(w: string)
  {
    Contains(Lower(w), "incomplete")
  }

  predicate AnyMentionsIncomplete(warnings: seq<string>)
  {
    exists i :: 0 <= i < |warnings| && MentionsIncomplete(warnings[i])
  }

  /** The caps warning is due: many results and no earlier mention. */
  predicate AddsCapsWarning(page: SearchPage, warnings: seq<string>)
  {
    page.repositoryCount >= 1000 && !AnyMentionsIncomplete(warnings)
  }

  predicate RateLow(page: SearchPage)
  {
    page.rateRemaining.GetOr(DefaultRemaining) < RateLimitThreshold
  }

  /** Repos and warnings after a page, and the cursor of the next page
      (`None` to stop). */
  datatype PageResult = PageResult(repos: seq<RepoMetadata>, warnings: seq<string>, cursor: Option<string>)

  /** `_process_search_page`. */
  function ProcessSearchPage(page: SearchPage, repos: seq<RepoMetadata>, warnings: seq<string>, maxTotal: int): (r: PageResult)
    ensures r.repos == repos + page.nodes
    ensures r.warnings == warnings + (if AddsCapsWarning(page, warnings) then [IncompleteWarning] else [])
                                   + (if RateLow(page) then [RateLimitWarning] else [])
    ensures r.cursor.None? <==> RateLow(page) || !page.hasNextPage || |r.repos| >= maxTotal
    ensures r.cursor.Some? ==> r.cursor.value == page.endCursor
  {
    var w1 := if AddsCapsWarning(page, warnings) then warnings + [IncompleteWarning] else warnings;
    var rs := repos + page.nodes;
    if RateLow(page) then
      PageResult(rs, w1 + [RateLimitWarning], None)
    else if !page.hasNextPage || |rs| >= maxTotal then PageResult(rs, w1, None)
    else PageResult(rs, w1, Some(page.endCursor))
  }

  /** The caps warning mentions "incomplete", so a second page never adds it
      again. */
  lemma IncompleteWarningMentionsIncomplete()
    ensures MentionsIncomplete(IncompleteWarning)
  {
    var a, b := "Results may be ", " (GitHub caps at 1,000). Try narrowing your filters.";
    assert OccursAt("incomplete", "incomplete", 0);
    ContainsWithin("incomplete", "incomplete", a, b);
    LowerContains(IncompleteWarning, "incomplete");
    LowerIncomplete();
  }

  lemma LowerIncomplete()
    ensures Lower("incomplete") == "incomplete"
  {
    var w := "incomplete";
    assert forall i :: 0 <= i < |w| ==> IsLower(w[i]);
    LowerOfLower(w);
  }

  /** How many warnings are the caps warning. */
  function CountIncomplete(warnings: seq<string>): nat
  {
    if warnings == [] then 0
    else (if warnings[0] == IncompleteWarning then 1 else 0) + CountIncomplete(warnings[1..])
  }

  lemma {:induction false} CountIncompleteAppend(a: seq<string>, b: seq<string>)
    ensures CountIncomplete(a + b) == CountIncomplete(a) + CountIncomplete(b)
  {
    if a == [] {
      assert a + b == b;
    } else {
      assert (a + b)[1..] == a[1..] + b;
      CountIncompleteAppend(a[1..], b);
    }
  }

  lemma {:induction false} NoIncompleteCounted(ws: seq<string>)
    requires IncompleteWarning !in ws
    ensures CountIncomplete(ws) == 0
  {
    if ws != [] {
      NoIncompleteCounted(ws[1..]);
    }
  }

  lemma {:induction false} CountedIncompleteIsIn(ws: seq<string>)
    requires CountIncomplete(ws) > 0
    ensures IncompleteWarning in ws
  {
    if ws[0] != IncompleteWarning {
      CountedIncompleteIsIn(ws[1..]);
    }
  }

  lemma WarningsDiffer()
    ensures IncompleteWarning != RateLimitWarning
  {
    assert |RateLimitWarning| == 57;
  }

  /** One page keeps the caps warning from appearing twice. */
  lemma PageKeepsCapsWarningOnce(page: SearchPage, repos: seq<RepoMetadata>, warnings: seq<string>, maxTotal: int)
    requires CountIncomplete(warnings) <= 1
    ensures CountIncomplete(ProcessSearchPage(page, repos, warnings, maxTotal).warnings) <= 1
  {
    var caps := if AddsCapsWarning(page, warnings) then [IncompleteWarning] else [];
    var rate := if RateLow(page) then [RateLimitWarning] else [];
    CountIncompleteAppend(warnings, caps);
    CountIncompleteAppend(warnings + caps, rate);
    WarningsDiffer();
    assert CountIncomplete(rate) == 0;
    if CountIncomplete(warnings) == 1 {
      CountedIncompleteIsIn(warnings);
      IncompleteWarningMentionsIncomplete();
      assert caps == [];
    }
  }

  /** Over a run of pages the caps warning is added at most once. */
  lemma {:induction false} CapsWarningOnce(pages: seq<SearchPage>, repos: seq<RepoMetadata>, warnings: seq<string>, maxTotal: int)
    requires CountIncomplete(warnings) <= 1
    ensures CountIncomplete(SearchPages(pages, repos, warnings, maxTotal).warnings) <= 1
    decreases |pages|
  {
    if pages != [] {
      PageKeepsCapsWarningOnce(pages[0], repos, warnings, maxTotal);
      var r := ProcessSearchPage(pages[0], repos, warnings, maxTotal);
      if r.cursor.Some? {
        CapsWarningOnce(pages[1..], r.repos, r.warnings, maxTotal);
      }
    }
  }

  /** `search_repositories`' loop over the pages the server returns in turn:
      it stops when a page gives no cursor or the pages run out. */
  function SearchPages(pages: seq<SearchPage>, repos: seq<RepoMetadata>, warnings: seq<string>, maxTotal: int): (r: PageResult)
    ensures r.cursor.None? || pages == []
    decreases |pages|
  {
    if pages == [] then PageResult(repos, warnings, None)
    else
      var step := ProcessSearchPage(pages[0], repos, warnings, maxTotal);
      if step.cursor.None? then step else SearchPages(pages[1..], step.repos, step.warnings, maxTotal)
  }

  // ---------------------------------------------------------------------
  // fetch_readmes

  /** The class `[a-zA-Z0-9._-]`. */
  predicate IsNameChar(c: char) { IsAlnum(c) || c == '.' || c == '_' || c == '-' }

  predicate AllNameChars(s: string)
  {
    forall i :: 0 <= i < |s| ==> IsNameChar(s[i])
  }

  /** `_VALID_NAME_RE.match(s)`: `$` also matches before a final newline, so
      one trailing "\n" is accepted. */
  predicate ValidName(s: string)
  {
    || (s != [] && AllNameChars(s))
    || (|s| >= 2 && s[|s| - 1] == '\n' && AllNameChars(s[..|s| - 1]))
  }

  /** A valid name holds no double quote, so it cannot end the string it is
      placed in inside the README query. */
  lemma ValidNameHasNoQuote(s: string)
    requires ValidName(s)
    ensures '"' !in s
  {
    if s[|s| - 1] == '\n' && !AllNameChars(s) {
      assert forall i :: 0 <= i < |s| - 1 ==> s[i] == s[..|s| - 1][i];
    }
  }

  /** The trailing-newline case, shown on a name. */
  lemma TrailingNewlineAccepted()
    ensures ValidName("repo\n")
    ensures !AllNameChars("repo\n")
  {
    assert "repo\n"[..4] == "repo";
  }

  /** `text[:16000]` when longer, the text itself otherwise. */
  function TruncateReadme(text: Option<string>): (r: Option<string>)
    ensures r.None? <==> text.None?
    ensures r.Some? ==> r.value <= text.value && |r.value| == Min(|text.value|, ReadmeMaxChars)
  {
    match text
    case None => None
    case Some(t) => if t != "" && |t| > ReadmeMaxChars then Some(t[..ReadmeMaxChars]) else Some(t)
  }

  function ReadmeKey(owner: string, name: string): string
  {
    owner + "/" + name
  }

  function Alias(j: nat): string
  {
    "repo_" + NatToString(j)
  }

  /** One aliased repository selection of the README query. */
  function ReadmeSelection(j: nat, owner: string, name: string): string
  {
    Alias(j) + ": repository(owner: \"" + owner + "\", name: \"" + name + "\") "
    + "{ object(expression: \"HEAD:README.md\") { ... on Blob { text } } }"
  }

  /** The selections of `_build_readme_query(batch, offset)`. */
  function ReadmeSelections(batch: seq<(string, string)>, offset: nat): (parts: seq<string>)
    ensures |parts| == |batch|
    ensures forall i :: 0 <= i < |batch| ==> parts[i] == ReadmeSelection(offset + i, batch[i].0, batch[i].1)
  {
    seq(|batch|, i requires 0 <= i < |batch| => ReadmeSelection(offset + i, batch[i].0, batch[i].1))
  }

  /** `_build_readme_query(batch, offset)`. */
  function BuildReadmeQuery(batch: seq<(string, string)>, offset: nat): string
  {
    "query { " + Join(ReadmeSelections(batch, offset), " ") + " rateLimit { remaining resetAt } }"
  }

  /** The number of README batches, `len(range(0, n, 20))`. */
  function BatchCount(n: nat): nat
  {
    (n + ReadmeBatchSize - 1) / ReadmeBatchSize
  }

  /** The batch starting at `20 * b`. */
  function ReadmeBatch(repos: seq<(string, string)>, b: nat): (batch: seq<(string, string)>)
    requires b < BatchCount(|repos|)
    ensures 0 < |batch| <= ReadmeBatchSize
  {
    repos[ReadmeBatchSize * b..Min(ReadmeBatchSize * b + ReadmeBatchSize, |repos|)]
  }

  /** Every repository sits in batch `j / 20` at position `j % 20`, so its
      alias is `repo_{j}`. */
  lemma BatchPosition(repos: seq<(string, string)>, j: nat)
    requires j < |repos|
    ensures j / ReadmeBatchSize < BatchCount(|repos|)
    ensures j % ReadmeBatchSize < |ReadmeBatch(repos, j / ReadmeBatchSize)|
    ensures ReadmeBatch(repos, j / ReadmeBatchSize)[j % ReadmeBatchSize] == repos[j]
    ensures ReadmeSelections(ReadmeBatch(repos, j / ReadmeBatchSize), ReadmeBatchSize * (j / ReadmeBatchSize))[j % ReadmeBatchSize]
            == ReadmeSelection(j, repos[j].0, repos[j].1)
  {
    var b := j / ReadmeBatchSize;
    assert ReadmeBatchSize * b + j % ReadmeBatchSize == j;
  }

  /** The first repository with an invalid owner or name, if any. */
  function FirstInvalid(repos: seq<(string, string)>): (r: Option<nat>)
    ensures r.None? <==> forall i :: 0 <= i < |repos| ==> ValidName(repos[i].0) && ValidName(repos[i].1)
    ensures r.Some? ==> r.value < |repos| && !(ValidName(repos[r.value].0) && ValidName(repos[r.value].1))
    ensures r.Some? ==> forall i :: 0 <= i < r.value ==> ValidName(repos[i].0) && ValidName(repos[i].1)
  {
    if repos == [] then None
    else if !(ValidName(repos[0].0) && ValidName(repos[0].1)) then Some(0)
    else match FirstInvalid(repos[1..])
      case None => None
      case Some(i) => Some(i + 1)
  }

  /** The README map over the first `k` repositories: later entries with
      the same key overwrite earlier ones. */
  function ReadmeMap(repos: seq<(string, string)>, lookup: nat -> Option<string>, k: nat): (m: map<string, Option<string>>)
    requires k <= |repos|
  {
    if k == 0 then map[]
    else ReadmeMap(repos, lookup, k - 1)[ReadmeKey(repos[k - 1].0, repos[k - 1].1) := TruncateReadme(lookup(k - 1))]
  }

  /** The last entry for a key is the one the map keeps. */
  lemma {:induction false} ReadmeMapLastWins(repos: seq<(string, string)>, lookup: nat -> Option<string>, k: nat, i: nat)
    requires i < k <= |repos|
    requires forall j :: i < j < k ==> ReadmeKey(repos[j].0, repos[j].1) != ReadmeKey(repos[i].0, repos[i].1)
    ensures ReadmeKey(repos[i].0, repos[i].1) in ReadmeMap(repos, lookup, k)
    ensures ReadmeMap(repos, lookup, k)[ReadmeKey(repos[i].0, repos[i].1)] == TruncateReadme(lookup(i))
  {
    var key := ReadmeKey(repos[k - 1].0, repos[k - 1].1);
    var prev := ReadmeMap(repos, lookup, k - 1);
    assert ReadmeMap(repos, lookup, k) == prev[key := TruncateReadme(lookup(k - 1))];
    if i < k - 1 {
      ReadmeMapLastWins(repos, lookup, k - 1, i);
      assert ReadmeKey(repos[i].0, repos[i].1) != key;
    }
  }

  /** The map has exactly one key per `owner/name` requested. */
  lemma {:induction false} ReadmeMapKeys(repos: seq<(string, string)>, lookup: nat -> Option<string>, k: nat)
    requires k <= |repos|
    ensures forall i :: 0 <= i < k ==> ReadmeKey(repos[i].0, repos[i].1) in ReadmeMap(repos, lookup, k)
    ensures forall key :: key in ReadmeMap(repos, lookup, k) ==>
      exists i :: 0 <= i < k && key == ReadmeKey(repos[i].0, repos[i].1)
  {
    if k > 0 {
      ReadmeMapKeys(repos, lookup, k - 1);
    }
  }

  /** Every stored README is at most 16000 characters. */
  lemma {:induction false} ReadmeMapTruncated(repos: seq<(string, string)>, lookup: nat -> Option<string>, k: nat)
    requires k <= |repos|
    ensures forall key :: key in ReadmeMap(repos, lookup, k) && ReadmeMap(repos, lookup, k)[key].Some? ==>
      |ReadmeMap(repos, lookup, k)[key].value| <= ReadmeMaxChars
  {
    if k > 0 {
      ReadmeMapTruncated(repos, lookup, k - 1);
    }
  }

  /** The queries sent and the README per `owner/name`. */
  datatype Fetched = Fetched(queries: seq<string>, readmes: map<string, Option<string>>)

  /** `fetch_readmes(repos)`: `lookup(j)` is the README text the server
      returns under alias `repo_{j}` (`None` when the repository, its
      object or its text is missing). */
  function FetchReadmes(repos: seq<(string, string)>, lookup: nat -> Option<string>): (r: Result<Fetched, string>)
    ensures r.Failure? <==> exists i :: 0 <= i < |repos| && !(ValidName(repos[i].0) && ValidName(repos[i].1))
    ensures r.Failure? ==>
      exists i :: && 0 <= i < |repos| && !(ValidName(repos[i].0) && ValidName(repos[i].1))
                  && (forall j :: 0 <= j < i ==> ValidName(repos[j].0) && ValidName(repos[j].1))
                  && r.error == "Repository '" + ReadmeKey(repos[i].0, repos[i].1) + "' contains invalid characters"
    ensures r.Success? ==> |r.value.queries| == BatchCount(|repos|)
    ensures r.Success? ==> forall b :: 0 <= b < BatchCount(|repos|) ==>
      r.value.queries[b] == BuildReadmeQuery(ReadmeBatch(repos, b), ReadmeBatchSize * b)
    ensures r.Success? ==> r.value.readmes == ReadmeMap(repos, lookup, |repos|)
  {
    match FirstInvalid(repos)
    case Some(i) => Failure("Repository '" + ReadmeKey(repos[i].0, repos[i].1) + "' contains invalid characters")
    case None =>
      var queries := seq(BatchCount(|repos|), b requires 0 <= b < BatchCount(|repos|) =>
                           BuildReadmeQuery(ReadmeBatch(repos, b), ReadmeBatchSize * b));
      Success(Fetched(queries, ReadmeMap(repos, lookup, |repos|)))
  }

  /** With distinct keys, each repository's entry is its own README,
      truncated. */
  lemma ReadmeOfEachRepo(repos: seq<(string, string)>, lookup: nat -> Option<string>, i: nat)
    requires FetchReadmes(repos, lookup).Success?
    requires i < |repos|
    requires forall j :: i < j < |repos| ==> ReadmeKey(repos[j].0, repos[j].1) != ReadmeKey(repos[i].0, repos[i].1)
    ensures ReadmeKey(repos[i].0, repos[i].1) in FetchReadmes(repos, lookup).value.readmes
    ensures FetchReadmes(repos, lookup).value.readmes[ReadmeKey(repos[i].0, repos[i].1)] == TruncateReadme(lookup(i))
  {
    ReadmeMapLastWins(repos, lookup, |repos|, i);
  }

  // ---------------------------------------------------------------------
  // _build_search_query_string

  /** The query terms, in order; `sixMonthsAgo` is today minus 180 days as
      `YYYY-MM-DD`, used when the filters give no activity date. */
  function SearchQueryParts(f: SearchFilters, sixMonthsAgo: string): (parts: seq<string>)
    ensures var n := |f.languages|;
      && |parts| == n + 2 + |f.topics| + (if f.license.GetOr("") != "" then 1 else 0) + 2
      && (forall i :: 0 <= i < n ==> parts[i] == "language:" + f.languages[i])
      && parts[n] == "stars:" + IntToString(f.minStars) + ".." + IntToString(f.maxStars)
      && parts[n + 1] == "pushed:>=" + (if f.minActivityDate.GetOr("") != "" then f.minActivityDate.value else sixMonthsAgo)
      && (forall i :: 0 <= i < |f.topics| ==> parts[n + 2 + i] == "topic:" + f.topics[i])
      && (f.license.GetOr("") != "" ==> parts[n + 2 + |f.topics|] == "license:" + f.license.value)
      && parts[|parts| - 2..] == ["archived:false", "fork:false"]
  {
    var langs := seq(|f.languages|, i requires 0 <= i < |f.languages| => "language:" + f.languages[i]);
    var stars := "stars:" + IntToString(f.minStars) + ".." + IntToString(f.maxStars);
    var date := if f.minActivityDate.GetOr("") != "" then f.minActivityDate.value else sixMonthsAgo;
    var topics := seq(|f.topics|, i requires 0 <= i < |f.topics| => "topic:" + f.topics[i]);
    var license := if f.license.GetOr("") != "" then ["license:" + f.license.value] else [];
    langs + [stars, "pushed:>=" + date] + topics + license + ["archived:false", "fork:false"]
  }

  /** `_build_search_query_string(filters)`. */
  function BuildSearchQueryString(f: SearchFilters, sixMonthsAgo: string): string
  {
    Join(SearchQueryParts(f, sixMonthsAgo), " ")
  }

  /** The query always ends by excluding archived repositories and forks. */
  lemma QueryEndsWithExclusions(f: SearchFilters, sixMonthsAgo: string)
    ensures var q := BuildSearchQueryString(f, sixMonthsAgo);
      |q| >= 25 && q[|q| - 25..] == "archived:false fork:false"
  {
    var parts := SearchQueryParts(f, sixMonthsAgo);
    assert parts[|parts| - 2] == "archived:false" && parts[|parts| - 1] == "fork:false" by {
      assert parts[|parts| - 2..] == ["archived:false", "fork:false"];
    }
    JoinEndsWithLastTwo(parts, " ");
  }
}

=== FILE: guardrail_patterns.dfy ===
/** The regex lists of the guardrails (`agents/guardrails/patterns.py`) and
    their first-match-wins check. The regex engine is a parameter: `search(p,
    t)` answers `re.search(p, t, re.IGNORECASE)`. A few of the patterns are
    also given a character-level meaning, and an engine that honours it is
    what the properties about those patterns assume. */
module GuardrailPatterns {
  import opened Wrappers
  import opened Seqs
  import opened Text

  /** `search(pattern, text)`: the pattern, compiled case-insensitively,
      matches somewhere in the text. */
  type Engine = (string, string) -> bool

  const JailbreakPattern := "jailbreak"

  const SkKeyPattern := "sk-[A-Za-z0-9]{20,}"

  const PrivateKeyPattern := "-----BEGIN\\s+(RSA\\s+)?PRIVATE\\s+KEY-----"

  /** Prompt-injection patterns, in checking order. */
  const InjectionPatterns: seq<string> := InjectionBefore16 + [JailbreakPattern] + InjectionAfter16

  const InjectionBefore16: seq<string> := [
      "ignore\\s+(all\\s+)?(previous|prior|above)\\s+(instructions?|prompts?|rules?|guidelines?)",
      "disregard\\s+(all\\s+)?(previous|prior|above)\\s+(instructions?|prompts?|rules?|guidelines?)",
      "forget\\s+(all\\s+)?(previous|prior|above)\\s+(instructions?|prompts?|rules?|guidelines?)",
      "override\\s+(all\\s+)?(previous|prior|above)\\s+(instructions?|prompts?|rules?|guidelines?)",
      "(show|print|display|reveal|tell|share|output|give)\\s+(me\\s+)?(your|the)\\s+(system\\s+)?(prompt|instructions?|rules?|guidelines?)",
      "what\\s+(are|is)\\s+(your|the)\\s+(system\\s+)?(prompt|instructions?|rules?|guidelines?)",
      "repeat\\s+(your|the)\\s+(system\\s+)?(prompt|instructions?|configuration)",
      "(show|print|display|reveal|tell|share|output|give)\\s+(me\\s+)?(the\\s+)?(api\\s*key|secret|token|password|credential)",
      "what\\s+(is|are)\\s+(the\\s+)?(api\\s*key|secret|token|password|credential)",
      "(access|read|show|print|display)\\s+(the\\s+)?\\.env",
      "(what|show|print).+(in|from|inside)\\s+(the\\s+)?\\.env",
      "environment\\s+variable",
      "OPENAI_API_KEY",
      "ANTHROPIC_API_KEY",
      "(you\\s+are|act\\s+as|pretend\\s+to\\s+be|roleplay\\s+as)\\s+(now\\s+)?(a\\s+)?(different|new|another)",
      "(switch|change)\\s+(to\\s+)?(a\\s+)?(new|different)\\s+(mode|role|persona)"]

  const InjectionAfter16: seq<string> := [
      "DAN\\s+mode",
      "<\\/?system>",
      "\\[\\/?INST\\]",
      "```(system|instructions?|prompt)",
      "---\\s*(system|instructions?|prompt)",
      "(execute|run|eval)\\s+(this\\s+)?(code|script|command)",
      "import\\s+os|subprocess|exec\\("]

  /** Secret-leakage patterns, in checking order. */
  const LeakagePatterns: seq<string> :=
    ["sk-proj-[A-Za-z0-9_-]{20,}", SkKeyPattern] + LeakageAfter1 + [PrivateKeyPattern]

  const LeakageAfter1: seq<string> := [
      "sk-ant-[A-Za-z0-9_-]{20,}",
      "AIzaSy[A-Za-z0-9_-]{33}",
      "gsk_[A-Za-z0-9]{20,}",
      "[A-Za-z0-9_]*(api[_-]?key|apikey|secret[_-]?key|access[_-]?token)\\s*[=:]\\s*['\\\"]?[A-Za-z0-9_-]{20,}",
      "Bearer\\s+[A-Za-z0-9_.-]{20,}",
      "Authorization:\\s*(Bearer\\s+)?[A-Za-z0-9_.-]{20,}",
      "(OPENAI_API_KEY|ANTHROPIC_API_KEY|API_KEY|SECRET_KEY|ACCESS_TOKEN)\\s*=\\s*['\\\"]?[A-Za-z0-9_-]{10,}",
      "AKIA[0-9A-Z]{16}",
      "aws_secret_access_key\\s*=\\s*['\\\"]?[A-Za-z0-9/+=]{40}",
      "(postgres|mysql|mongodb)://[^:]+:[^@]+@",
      "eyJ[A-Za-z0-9_-]{10,}\\.eyJ[A-Za-z0-9_-]{10,}\\.[A-Za-z0-9_-]{20,}"]

  // ---------------------------------------------------------------------
  // First match wins

  /** The index of the first pattern that matches. */
  function FirstMatch(patterns: seq<string>, search: Engine, text: string): (r: Option<nat>)
    ensures r.None? <==> forall i :: 0 <= i < |patterns| ==> !search(patterns[i], text)
    ensures r.Some? ==>
      && r.value < |patterns|
      && search(patterns[r.value], text)
      && forall j :: 0 <= j < r.value ==> !search(patterns[j], text)
  {
    if patterns == [] then None
    else if search(patterns[0], text) then Some(0)
    else
      match FirstMatch(patterns[1..], search, text)
      case None => None
      case Some(i) => Some(i + 1)
  }

  /** The `(matched, pattern)` pair of the checks. */
  datatype PatternCheck = PatternCheck(found: bool, matched: Option<string>)

  /** `check_injection_patterns` / `check_leakage_patterns` over a list:
      the first pattern to match is reported, and no match gives
      `(False, None)`. */
  function CheckPatterns(patterns: seq<string>, search: Engine, text: string): (r: PatternCheck)
    ensures r.found <==> exists i :: 0 <= i < |patterns| && search(patterns[i], text)
    ensures !r.found ==> r.matched == None
    ensures r.found ==> exists i :: && 0 <= i < |patterns|
                                    && r.matched == Some(patterns[i])
                                    && search(patterns[i], text)
                                    && forall j :: 0 <= j < i ==> !search(patterns[j], text)
  {
    match FirstMatch(patterns, search, text)
    case Some(i) => PatternCheck(true, Some(patterns[i]))
    case None => PatternCheck(false, None)
  }

  function CheckInjectionPatterns(search: Engine, text: string): PatternCheck
  {
    CheckPatterns(InjectionPatterns, search, text)
  }

  function CheckLeakagePatterns(search: Engine, text: string): PatternCheck
  {
    CheckPatterns(LeakagePatterns, search, text)
  }

  // ---------------------------------------------------------------------
  // What a guardrail reports

  /** The second-tier classifier agent's verdict (`InjectionDetectorOutput`
      / `LeakageDetectorOutput`): flagged, its reasoning, and the pattern or
      leaked type it names. */
  datatype Detection = Detection(flagged: bool, reasoning: string, detail: Option<string>)

  /** A guardrail's result: whether the tripwire fires, the reasoning and
      detail of its `output_info`, and whether the classifier agent was run. */
  datatype GuardrailOutput = GuardrailOutput(tripwire: bool, reasoning: string, detail: Option<string>, consulted: bool)

  // ---------------------------------------------------------------------
  // Character-level meaning of three patterns

  /** `jailbreak`, any casing. */
  predicate MatchesJailbreak(text: string)
  {
    Contains(Lower(text), "jailbreak")
  }

  /** At `i`: `sk-` in any casing, then twenty ASCII letters or digits. A
      search for `{20,}` succeeds exactly when twenty follow somewhere. */
  predicate SkKeyAt(text: string, i: nat)
  {
    && i + 23 <= |text|
    && LowerChar(text[i]) == 's' && LowerChar(text[i + 1]) == 'k' && text[i + 2] == '-'
    && forall j :: i + 3 <= j < i + 23 ==> IsAlnum(text[j])
  }

  predicate MatchesSkKey(text: string)
  {
    exists i :: 0 <= i < |text| && SkKeyAt(text, i)
  }

  /** The two private-key headers with single spaces, any casing; the
      pattern also accepts longer whitespace runs. */
  predicate HasPrivateKeyHeader(text: string)
  {
    || Contains(Lower(text), "-----begin private key-----")
    || Contains(Lower(text), "-----begin rsa private key-----")
  }

  /** An engine that gives these patterns at least their ASCII meaning.
      Only the one direction is asked for: with `IGNORECASE` Python's engine
      also matches a few non-ASCII letters (the dotless i, the long s, the
      Kelvin sign), so it may report more matches than these predicates. */
  ghost predicate HonoursLiterals(search: Engine)
  {
    && (forall t :: MatchesJailbreak(t) ==> search(JailbreakPattern, t))
    && (forall t :: MatchesSkKey(t) ==> search(SkKeyPattern, t))
    && (forall t :: HasPrivateKeyHeader(t) ==> search(PrivateKeyPattern, t))
  }

  /** Case does not matter: any casing of "jailbreak" trips the injection
      check. */
  lemma AnyCasingOfJailbreakTrips(search: Engine, text: string, w: string)
    requires HonoursLiterals(search)
    requires Contains(text, w) && Lower(w) == "jailbreak"
    ensures CheckInjectionPatterns(search, text).found
  {
    LowerContains(text, w);
    assert |InjectionBefore16| == 16;
    assert InjectionPatterns[16] == JailbreakPattern;
  }

  /** An `sk-` key of twenty letters or digits is reported as leakage. */
  lemma SkKeyLeaks(search: Engine, text: string, i: nat)
    requires HonoursLiterals(search) && SkKeyAt(text, i)
    ensures CheckLeakagePatterns(search, text).found
  {
    assert MatchesSkKey(text);
    assert LeakagePatterns[1] == SkKeyPattern;
  }

  /** A PEM private-key header is reported as leakage. */
  lemma PrivateKeyHeaderLeaks(search: Engine, text: string)
    requires HonoursLiterals(search) && HasPrivateKeyHeader(text)
    ensures CheckLeakagePatterns(search, text).found
  {
    assert LeakagePatterns[|LeakagePatterns| - 1] == PrivateKeyPattern;
  }
}

=== FILE: injection_detector.dfy ===
/** The input guardrail against prompt injection
    (`agents/guardrails/injection_detector.py`): the pattern list first, then,
    only for input that looks suspicious, a classifier agent. The agent is an
    oracle from the text to its verdict. */
module InjectionDetector {
  import opened Wrappers
  import opened Text
  import opened GuardrailPatterns

  /** Inputs longer than this are suspicious. */
  const LongInput := 500

  /** More newlines than this are suspicious. */
  const ManyNewlines := 5

  /** Code-like delimiters. */
  const CodeMarkers: seq<string> := ["```", "{{", "}}", "<%", "%>", "${", "$("]

  /** Instruction-like words, looked for in the lower-cased input. */
  const InstructionWords: seq<string> :=
    ["instruction", "prompt", "system", "ignore", "override",
     "forget", "pretend", "roleplay", "execute", "eval"]

  /** `_seems_suspicious`: whether the input deserves the classifier. */
  predicate SeemsSuspicious(text: string)
  {
    || |text| > LongInput
    || Count(text, '\n') > ManyNewlines
    || ContainsAny(text, CodeMarkers)
    || ContainsAny(Lower(text), InstructionWords)
  }

  const PatternReason := "Matched known injection pattern"

  const SafeReason := "Input appears safe"

  /** `injection_guardrail` on the input text. */
  function InjectionGuardrail(search: Engine, text: string, classify: string -> Detection): (g: GuardrailOutput)
    ensures g.tripwire <==> CheckInjectionPatterns(search, text).found || (SeemsSuspicious(text) && classify(text).flagged)
    ensures g.consulted <==> !CheckInjectionPatterns(search, text).found && SeemsSuspicious(text)
    ensures CheckInjectionPatterns(search, text).found ==>
      g.reasoning == PatternReason && g.detail == CheckInjectionPatterns(search, text).matched
    ensures g.consulted && g.tripwire ==>
      g.reasoning == classify(text).reasoning && g.detail == classify(text).detail
    ensures !g.tripwire ==> g.reasoning == SafeReason && g.detail == None
  {
    var check := CheckInjectionPatterns(search, text);
    if check.found then GuardrailOutput(true, PatternReason, check.matched, false)
    else if SeemsSuspicious(text) then
      var detection := classify(text);
      if detection.flagged then GuardrailOutput(true, detection.reasoning, detection.detail, true)
      else GuardrailOutput(false, SafeReason, None, true)
    else GuardrailOutput(false, SafeReason, None, false)
  }

  /** Text that is not suspicious is judged by the patterns alone: the
      classifier cannot change the result. */
  lemma PlainInputIgnoresClassifier(search: Engine, text: string, c1: string -> Detection, c2: string -> Detection)
    requires !SeemsSuspicious(text)
    ensures InjectionGuardrail(search, text, c1) == InjectionGuardrail(search, text, c2)
  {
  }

  /** Suspicion survives embedding the text in a longer one. */
  lemma SuspicionPersists(text: string, a: string, b: string)
    requires SeemsSuspicious(text)
    ensures SeemsSuspicious(a + text + b)
  {
    if Count(text, '\n') > ManyNewlines {
      CountAppend(a, text, '\n');
      CountAppend(a + text, b, '\n');
    } else if ContainsAny(text, CodeMarkers) {
      ContainsAnyWithin(text, CodeMarkers, a, b);
    } else if ContainsAny(Lower(text), InstructionWords) {
      LowerAppend(a, text);
      LowerAppend(a + text, b);
      ContainsAnyWithin(Lower(text), InstructionWords, Lower(a), Lower(b));
    }
  }

  /** Any casing of "jailbreak" trips the guardrail without the classifier. */
  lemma JailbreakTripsWithoutClassifier(search: Engine, text: string, w: string, classify: string -> Detection)
    requires HonoursLiterals(search)
    requires Contains(text, w) && Lower(w) == "jailbreak"
    ensures InjectionGuardrail(search, text, classify).tripwire
    ensures !InjectionGuardrail(search, text, classify).consulted
  {
    AnyCasingOfJailbreakTrips(search, text, w);
  }
}

=== FILE: leakage_detector.dfy ===
/** The output guardrail against secret leakage
    (`agents/guardrails/leakage_detector.py`): the leakage patterns first,
    then, only for output that might hold a secret, a classifier agent. */
module LeakageDetector {
  import opened Wrappers
  import opened Text
  import opened GuardrailPatterns

  /** Secret-like words, looked for in the lower-cased output. */
  const SecretKeywords: seq<string> :=
    ["api_key", "apikey", "api-key", "secret", "token", "password", "credential",
     "bearer", "authorization", "private_key", "access_key", ".env", "environ"]

  /** A key looks at least this long. */
  const LongKeyLength := 32

  /** The class `[A-Za-z0-9_-]`. */
  predicate IsKeyChar(c: char) { IsAlnum(c) || c == '_' || c == '-' }

  /** A run of `LongKeyLength` key characters starts at `i`. */
  predicate LongKeyAt(text: string, i: nat)
  {
    i + LongKeyLength <= |text| && forall j :: i <= j < i + LongKeyLength ==> IsKeyChar(text[j])
  }

  /** `re.findall(r"[A-Za-z0-9_-]{32,}", text)` is non-empty. */
  predicate HasLongKey(text: string)
  {
    exists i :: 0 <= i < |text| && LongKeyAt(text, i)
  }

  /** `[A-Z_]+=\S+` matches at `i`, case-sensitively: an upper-case letter or
      underscore, `=`, and a character that is not whitespace. */
  predicate AssignmentAt(text: string, i: nat)
  {
    && i + 3 <= |text|
    && (IsUpper(text[i]) || text[i] == '_')
    && text[i + 1] == '='
    && !IsSpace(text[i + 2])
  }

  predicate HasAssignment(text: string)
  {
    exists i :: 0 <= i < |text| && AssignmentAt(text, i)
  }

  /** `_might_contain_secrets`: whether the output deserves the classifier. */
  predicate MightContainSecrets(text: string)
  {
    || ContainsAny(Lower(text), SecretKeywords)
    || HasLongKey(text)
    || HasAssignment(text)
  }

  const PatternReason := "Matched known leakage pattern"

  const SafeReason := "Output appears safe"

  /** `leakage_guardrail` on the output text. */
  function LeakageGuardrail(search: Engine, text: string, classify: string -> Detection): (g: GuardrailOutput)
    ensures g.tripwire <==> CheckLeakagePatterns(search, text).found || (MightContainSecrets(text) && classify(text).flagged)
    ensures g.consulted <==> !CheckLeakagePatterns(search, text).found && MightContainSecrets(text)
    ensures CheckLeakagePatterns(search, text).found ==>
      g.reasoning == PatternReason && g.detail == CheckLeakagePatterns(search, text).matched
    ensures g.consulted && g.tripwire ==>
      g.reasoning == classify(text).reasoning && g.detail == classify(text).detail
    ensures !g.tripwire ==> g.reasoning == SafeReason && g.detail == None
  {
    var check := CheckLeakagePatterns(search, text);
    if check.found then GuardrailOutput(true, PatternReason, check.matched, false)
    else if MightContainSecrets(text) then
      var detection := classify(text);
      if detection.flagged then GuardrailOutput(true, detection.reasoning, detection.detail, true)
      else GuardrailOutput(false, SafeReason, None, true)
    else GuardrailOutput(false, SafeReason, None, false)
  }

  /** Output with no sign of a secret is judged by the patterns alone. */
  lemma PlainOutputIgnoresClassifier(search: Engine, text: string, c1: string -> Detection, c2: string -> Detection)
    requires !MightContainSecrets(text)
    ensures LeakageGuardrail(search, text, c1) == LeakageGuardrail(search, text, c2)
  {
  }

  /** A sign of a secret survives embedding the output in a longer one. */
  lemma SecretHintPersists(text: string, a: string, b: string)
    requires MightContainSecrets(text)
    ensures MightContainSecrets(a + text + b)
  {
    var t := a + text + b;
    if ContainsAny(Lower(text), SecretKeywords) {
      LowerAppend(a, text);
      LowerAppend(a + text, b);
      ContainsAnyWithin(Lower(text), SecretKeywords, Lower(a), Lower(b));
    } else if HasLongKey(text) {
      var i :| 0 <= i < |text| && LongKeyAt(text, i);
      assert forall j :: |a| + i <= j < |a| + i + LongKeyLength ==> t[j] == text[j - |a|];
      assert LongKeyAt(t, |a| + i);
    } else {
      var i :| 0 <= i < |text| && AssignmentAt(text, i);
      assert t[|a| + i] == text[i] && t[|a| + i + 1] == text[i + 1] && t[|a| + i + 2] == text[i + 2];
      assert AssignmentAt(t, |a| + i);
    }
  }

  /** A long key the patterns miss is still shown to the classifier. */
  lemma UnmatchedLongKeyIsClassified(search: Engine, text: string, i: nat, classify: string -> Detection)
    requires LongKeyAt(text, i)
    requires !CheckLeakagePatterns(search, text).found
    ensures LeakageGuardrail(search, text, classify).consulted
    ensures LeakageGuardrail(search, text, classify).tripwire == classify(text).flagged
  {
    assert HasLongKey(text);
  }

  /** An `sk-` key trips the guardrail without the classifier. */
  lemma SkKeyTripsWithoutClassifier(search: Engine, text: string, i: nat, classify: string -> Detection)
    requires HonoursLiterals(search) && SkKeyAt(text, i)
    ensures LeakageGuardrail(search, text, classify).tripwire
    ensures !LeakageGuardrail(search, text, classify).consulted
  {
    SkKeyLeaks(search, text, i);
  }

  /** A private-key header trips the guardrail without the classifier. */
  lemma PrivateKeyTripsWithoutClassifier(search: Engine, text: string, classify: string -> Detection)
    requires HonoursLiterals(search) && HasPrivateKeyHeader(text)
    ensures LeakageGuardrail(search, text, classify).tripwire
    ensures !LeakageGuardrail(search, text, classify).consulted
  {
    PrivateKeyHeaderLeaks(search, text);
  }
}

=== FILE: repo_filtering.dfy ===
/** The client-side filter and contribution score of `repo_filtering.py`.

    The tutorial/awesome-list regex is a predicate parameter over the exact
    text the source searches. The score is kept exact by scaling it by ten:
    20·min(gfi,10) + 15·min(hw,10) + min(issues,100). */
module RepoFiltering {
  import opened Wrappers
  import opened Seqs
  import opened ScoutSchemas
  import opened StableSort

  /** The text the tutorial regex is searched in: name, a space, and the
      description or the empty string. */
  function TutorialText(repo: RepoMetadata): (t: string)
    ensures |t| > |repo.name| && t[..|repo.name|] == repo.name && t[|repo.name|] == ' '
    ensures repo.description.None? ==> |t| == |repo.name| + 1
    ensures repo.description.Some? ==> t[|repo.name| + 1..] == repo.description.value
  {
    repo.name + " " + repo.description.GetOr("")
  }

  function IsTutorialOrAwesomeList(repo: RepoMetadata, tutorialRe: string -> bool): bool
  {
    tutorialRe(TutorialText(repo))
  }

  function HasOpenIssues(repo: RepoMetadata): (b: bool)
    ensures b <==> repo.openIssueCount >= 1
  {
    repo.openIssueCount > 0
  }

  /** Ten times `compute_contribution_score`. */
  function ContributionScore(repo: RepoMetadata): (s: int)
    ensures s as real == 10.0 * (2.0 * Min(repo.goodFirstIssueCount, 10) as real
                                 + 1.5 * Min(repo.helpWantedCount, 10) as real
                                 + 0.1 * Min(repo.openIssueCount, 100) as real)
    ensures s <= 450
    ensures repo.goodFirstIssueCount >= 0 && repo.helpWantedCount >= 0 && repo.openIssueCount >= 0 ==> s >= 0
  {
    20 * Min(repo.goodFirstIssueCount, 10) + 15 * Min(repo.helpWantedCount, 10) + Min(repo.openIssueCount, 100)
  }

  /** The sort key. */
  function ScoreKey(repo: RepoMetadata): real
  {
    ContributionScore(repo) as real
  }

  predicate Passes(repo: RepoMetadata, minStars: int, maxStars: int, tutorialRe: string -> bool)
  {
    && !IsTutorialOrAwesomeList(repo, tutorialRe)
    && HasOpenIssues(repo)
    && minStars <= repo.starCount <= maxStars
  }

  /** The filtering loop: the repos that pass, in input order. */
  function Kept(repos: seq<RepoMetadata>, minStars: int, maxStars: int, tutorialRe: string -> bool): (r: seq<RepoMetadata>)
    ensures forall x :: x in r <==> x in repos && Passes(x, minStars, maxStars, tutorialRe)
    ensures forall x :: Passes(x, minStars, maxStars, tutorialRe) ==> multiset(r)[x] == multiset(repos)[x]
    ensures forall x :: !Passes(x, minStars, maxStars, tutorialRe) ==> multiset(r)[x] == 0
  {
    if repos == [] then []
    else
      assert repos == [repos[0]] + repos[1..];
      (if Passes(repos[0], minStars, maxStars, tutorialRe) then [repos[0]] else [])
        + Kept(repos[1..], minStars, maxStars, tutorialRe)
  }

  /** `apply_filters`: the passing repos, stably sorted by score, highest first. */
  function ApplyFilters(repos: seq<RepoMetadata>, minStars: int, maxStars: int, tutorialRe: string -> bool): (r: seq<RepoMetadata>)
    ensures forall x :: x in r ==>
      && !IsTutorialOrAwesomeList(x, tutorialRe)
      && x.openIssueCount > 0
      && minStars <= x.starCount <= maxStars
    ensures forall x :: Passes(x, minStars, maxStars, tutorialRe) ==> multiset(r)[x] == multiset(repos)[x]
    ensures forall x :: !Passes(x, minStars, maxStars, tutorialRe) ==> multiset(r)[x] == 0
    ensures forall i, j :: 0 <= i < j < |r| ==> ContributionScore(r[i]) >= ContributionScore(r[j])
  {
    var kept := Kept(repos, minStars, maxStars, tutorialRe);
    var sorted := Sort(kept, ScoreKey);
    assert forall x :: x in sorted ==> x in multiset(kept);
    sorted
  }

  /** Repos with equal scores keep their input order. */
  lemma ApplyFiltersStable(repos: seq<RepoMetadata>, minStars: int, maxStars: int, tutorialRe: string -> bool, score: int)
    ensures WithKey(ApplyFilters(repos, minStars, maxStars, tutorialRe), ScoreKey, score as real)
         == WithKey(Kept(repos, minStars, maxStars, tutorialRe), ScoreKey, score as real)
  {
    SortStable(Kept(repos, minStars, maxStars, tutorialRe), ScoreKey, score as real);
  }

  /** Both star bounds are inclusive. */
  lemma StarBoundsInclusive(repo: RepoMetadata, tutorialRe: string -> bool)
    requires !IsTutorialOrAwesomeList(repo, tutorialRe) && repo.openIssueCount > 0
    ensures repo in ApplyFilters([repo], repo.starCount, repo.starCount, tutorialRe)
    ensures repo !in ApplyFilters([repo], repo.starCount + 1, repo.starCount + 100, tutorialRe)
    ensures repo !in ApplyFilters([repo], repo.starCount - 100, repo.starCount - 1, tutorialRe)
  {
    assert multiset([repo])[repo] == 1;
  }
}

=== FILE: sanitization.dfy ===
/** Whitespace normalisation of user input (`utils/sanitization.py`):
    `" ".join(text.split())[:max_length]`. */
module Sanitization {
  import opened Seqs
  import opened Text

  /** The default `max_length`. */
  const DefaultMaxLength := 8000

  /** Length of the leading run of non-whitespace characters. */
  function WordLength(s: string): (n: nat)
    ensures n <= |s|
    ensures forall i :: 0 <= i < n ==> !IsSpace(s[i])
    ensures n < |s| ==> IsSpace(s[n])
  {
    if s == [] || IsSpace(s[0]) then 0 else 1 + WordLength(s[1..])
  }

  /** Python's `str.split()` with no separator: the maximal runs of
      non-whitespace characters, in order. */
  function Split(s: string): (words: seq<string>)
    ensures forall k :: 0 <= k < |words| ==> words[k] != [] && forall i :: 0 <= i < |words[k]| ==> !IsSpace(words[k][i])
    decreases |s|
  {
    if s == [] then []
    else if IsSpace(s[0]) then Split(s[1..])
    else
      var n := WordLength(s);
      [s[..n]] + Split(s[n..])
  }

  /** The characters of `s` that are not whitespace, in order. */
  function Squeeze(s: string): string
  {
    if s == [] then [] else (if IsSpace(s[0]) then [] else [s[0]]) + Squeeze(s[1..])
  }

  /** No leading whitespace, no whitespace other than a single space, and no
      two spaces in a row. Every prefix of such a text is again one. */
  predicate Tidy(s: string)
  {
    && (s != [] ==> s[0] != ' ')
    && (forall i :: 0 <= i < |s| && IsSpace(s[i]) ==> s[i] == ' ')
    && (forall i :: 0 <= i < |s| - 1 && s[i] == ' ' ==> s[i + 1] != ' ')
  }

  /** Tidy with no trailing space: what `" ".join(text.split())` produces. */
  predicate Normalised(s: string)
  {
    Tidy(s) && (s != [] ==> s[|s| - 1] != ' ')
  }

  /** `sanitize_input(text, max_length)`. */
  function SanitizeInput(text: string, maxLength: int): (r: string)
    ensures maxLength >= 0 ==> |r| <= maxLength
    ensures maxLength >= 0 ==> |r| == Min(maxLength, |Join(Split(text), " ")|)
    ensures maxLength < 0 ==> |r| == Max(0, |Join(Split(text), " ")| + maxLength)
    ensures r <= Join(Split(text), " ")
    ensures Tidy(r)
    ensures Squeeze(r) <= Squeeze(text)
    ensures (forall i :: 0 <= i < |text| ==> IsSpace(text[i])) ==> r == ""
    ensures Normalised(text) && |text| <= maxLength ==> r == text
  {
    var joined := Join(Split(text), " ");
    JoinedIsNormalised(text);
    SqueezeJoined(text);
    SplitEdgeCases(text);
    var r := PyPrefix(joined, maxLength);
    SqueezePrefix(joined, r);
    r
  }

  function SanitizeDefault(text: string): (r: string)
    ensures |r| <= DefaultMaxLength
    ensures |r| == Min(DefaultMaxLength, |Join(Split(text), " ")|)
    ensures r <= Join(Split(text), " ")
  {
    SanitizeInput(text, DefaultMaxLength)
  }

  // ---------------------------------------------------------------------
  // Split and join

  lemma {:induction false} AllSpaceSplitsToNothing(s: string)
    requires forall i :: 0 <= i < |s| ==> IsSpace(s[i])
    ensures Split(s) == []
    decreases |s|
  {
    if s != [] {
      AllSpaceSplitsToNothing(s[1..]);
    }
  }

  lemma SplitEdgeCases(text: string)
    ensures (forall i :: 0 <= i < |text| ==> IsSpace(text[i])) ==> Split(text) == []
    ensures Normalised(text) ==> Join(Split(text), " ") == text
  {
    if forall i :: 0 <= i < |text| ==> IsSpace(text[i]) {
      AllSpaceSplitsToNothing(text);
    }
    if Normalised(text) {
      NormalisedRoundTrip(text);
    }
  }

  lemma {:induction false} WordLengthSpaceFree(w: string)
    requires forall i :: 0 <= i < |w| ==> !IsSpace(w[i])
    ensures WordLength(w) == |w|
  {
    if w != [] {
      WordLengthSpaceFree(w[1..]);
    }
  }

  lemma SpaceFreeWord(w: string)
    requires w != [] && forall i :: 0 <= i < |w| ==> !IsSpace(w[i])
    ensures Split(w) == [w]
  {
    WordLengthSpaceFree(w);
    assert w[..|w|] == w && w[|w|..] == [];
  }

  /** Joining words that hold no whitespace with single spaces gives a
      normalised text. */
  lemma {:induction false} JoinWordsNormalised(words: seq<string>)
    requires forall k :: 0 <= k < |words| ==> words[k] != [] && forall i :: 0 <= i < |words[k]| ==> !IsSpace(words[k][i])
    ensures Normalised(Join(words, " "))
    ensures words != [] ==> Join(words, " ") != []
  {
    if |words| > 1 {
      JoinWordsNormalised(words[1..]);
      var w, rest := words[0], Join(words[1..], " ");
      var j := w + " " + rest;
      assert j == Join(words, " ");
      forall i | 0 <= i < |j| && IsSpace(j[i])
        ensures j[i] == ' '
      {
        if i > |w| {
          assert j[i] == rest[i - |w| - 1];
        }
      }
      forall i | 0 <= i < |j| - 1 && j[i] == ' '
        ensures j[i + 1] != ' '
      {
        if i == |w| {
          assert j[i + 1] == rest[0];
        } else {
          assert i > |w|;
          assert j[i] == rest[i - |w| - 1] && j[i + 1] == rest[i - |w|];
        }
      }
      assert j[|j| - 1] == rest[|rest| - 1];
    }
  }

  lemma JoinedIsNormalised(text: string)
    ensures Normalised(Join(Split(text), " "))
  {
    JoinWordsNormalised(Split(text));
  }

  lemma {:induction false} SqueezeAppend(a: string, b: string)
    ensures Squeeze(a + b) == Squeeze(a) + Squeeze(b)
  {
    if a == [] {
      assert a + b == b;
    } else {
      assert (a + b)[1..] == a[1..] + b;
      SqueezeAppend(a[1..], b);
    }
  }

  lemma {:induction false} SqueezeSpaceFree(w: string)
    requires forall i :: 0 <= i < |w| ==> !IsSpace(w[i])
    ensures Squeeze(w) == w
  {
    if w != [] {
      SqueezeSpaceFree(w[1..]);
    }
  }

  lemma {:induction false} SqueezeJoinWords(words: seq<string>)
    requires forall k :: 0 <= k < |words| ==> forall i :: 0 <= i < |words[k]| ==> !IsSpace(words[k][i])
    ensures Squeeze(Join(words, " ")) == Flatten(words)
  {
    if words == [] {
    } else if |words| == 1 {
      SqueezeSpaceFree(words[0]);
      assert Flatten(words) == words[0] + Flatten([]);
    } else {
      SqueezeJoinWords(words[1..]);
      SqueezeSpaceFree(words[0]);
      SqueezeAppend(words[0], " ");
      SqueezeAppend(words[0] + " ", Join(words[1..], " "));
      assert Squeeze(" ") == [];
    }
  }

  /** Splitting loses exactly the whitespace. */
  lemma {:induction false} SqueezeSplit(s: string)
    ensures Flatten(Split(s)) == Squeeze(s)
    decreases |s|
  {
    if s == [] {
    } else if IsSpace(s[0]) {
      SqueezeSplit(s[1..]);
    } else {
      var n := WordLength(s);
      SqueezeSplit(s[n..]);
      assert s == s[..n] + s[n..];
      SqueezeAppend(s[..n], s[n..]);
      SqueezeSpaceFree(s[..n]);
    }
  }

  lemma SqueezeJoined(text: string)
    ensures Squeeze(Join(Split(text), " ")) == Squeeze(text)
  {
    SqueezeJoinWords(Split(text));
    SqueezeSplit(text);
  }

  lemma SqueezePrefix(s: string, p: string)
    requires p <= s
    ensures Squeeze(p) <= Squeeze(s)
  {
    assert s == p + s[|p|..];
    SqueezeAppend(p, s[|p|..]);
  }

  /** Normalised text comes back from split-and-join unchanged. */
  lemma {:induction false} NormalisedRoundTrip(s: string)
    requires Normalised(s)
    ensures Join(Split(s), " ") == s
    decreases |s|
  {
    if s != [] {
      var n := WordLength(s);
      if n == |s| {
        assert s[n..] == [];
      } else {
        var rest := s[n + 1..];
        RestNormalised(s, n);
        NormalisedRoundTrip(rest);
        SplitAtSpace(s, n);
        JoinCons(s[..n], Split(rest));
        SliceAtSpace(s, n);
      }
    }
  }

  lemma SliceAtSpace(s: string, n: nat)
    requires n < |s| && s[n] == ' '
    ensures s == s[..n] + " " + s[n + 1..]
  {
    assert s == s[..n] + s[n..];
    assert s[n..] == [s[n]] + s[n + 1..];
  }

  /** What follows a space of a normalised text is normalised and starts
      with a word. */
  lemma RestNormalised(s: string, n: nat)
    requires Normalised(s) && n < |s| && IsSpace(s[n])
    ensures s[n] == ' ' && n + 1 < |s|
    ensures Normalised(s[n + 1..]) && !IsSpace(s[n + 1])
  {
    var rest := s[n + 1..];
    forall i | 0 <= i < |rest| && IsSpace(rest[i])
      ensures rest[i] == ' '
    {
      assert rest[i] == s[n + 1 + i];
    }
    forall i | 0 <= i < |rest| - 1 && rest[i] == ' '
      ensures rest[i + 1] != ' '
    {
      assert rest[i] == s[n + 1 + i] && rest[i + 1] == s[n + 2 + i];
    }
  }

  /** A word followed by a space: the split goes on after the space. */
  lemma SplitAtSpace(s: string, n: nat)
    requires s != [] && n == WordLength(s) && n < |s| && s[n] == ' '
    requires !IsSpace(s[0])
    ensures Split(s) == [s[..n]] + Split(s[n + 1..])
  {
    assert s[n..][1..] == s[n + 1..];
  }

  // ---------------------------------------------------------------------
  // Independent scanners

  /** Where a left-to-right pass over the text stands: nothing kept yet,
      inside a word, or after whitespace that followed a kept word. */
  datatype ScanState = Start | InWord | Gap

  /** Whitespace normalisation as a single pass: whitespace before the first
      word and after the last is dropped, and each whitespace run between
      two words becomes one space. */
  function NormaliseScan(st: ScanState, s: string): (r: string)
    decreases |s|
  {
    if s == [] then []
    else if IsSpace(s[0]) then NormaliseScan(if st == Start then Start else Gap, s[1..])
    else (if st == Gap then " " else "") + [s[0]] + NormaliseScan(InWord, s[1..])
  }

  /** `str.split()` as a single pass with the current word as accumulator:
      whitespace ends the word, and an empty word is never emitted. */
  function ScanWords(word: string, s: string): (words: seq<string>)
    decreases |s|
  {
    if s == [] then (if word == [] then [] else [word])
    else if IsSpace(s[0]) then (if word == [] then [] else [word]) + ScanWords([], s[1..])
    else ScanWords(word + [s[0]], s[1..])
  }

  /** The words joined by single spaces, after a leading space when there is
      at least one word. */
  function Spaced(words: seq<string>): string
  {
    if words == [] then "" else " " + Join(words, " ")
  }

  lemma JoinCons(w: string, words: seq<string>)
    ensures Join([w] + words, " ") == w + Spaced(words)
  {
    assert ([w] + words)[1..] == words;
  }

  /** One unfolding of `Split` at a word boundary. */
  lemma SplitUnfold(t: string)
    ensures Split(t) == (if t[..WordLength(t)] == [] then [] else [t[..WordLength(t)]]) + Split(t[WordLength(t)..])
  {
    if t != [] && IsSpace(t[0]) {
      assert t[0..] == t;
    }
  }

  /** Scanning through a word copies it. */
  lemma {:induction false} WordThenScan(s: string)
    requires s != [] && !IsSpace(s[0])
    ensures [s[0]] + NormaliseScan(InWord, s[1..]) == s[..WordLength(s)] + NormaliseScan(InWord, s[WordLength(s)..])
    decreases |s|
  {
    var t := s[1..];
    if t != [] && !IsSpace(t[0]) {
      var n, m := WordLength(s), WordLength(t);
      assert n == m + 1;
      assert NormaliseScan(InWord, t) == t[..m] + NormaliseScan(InWord, t[m..]) by {
        assert NormaliseScan(InWord, t) == [t[0]] + NormaliseScan(InWord, t[1..]);
        WordThenScan(t);
      }
      assert t[..m] == s[1..n] && t[m..] == s[n..];
      assert s[..n] == [s[0]] + s[1..n];
    } else {
      assert s[..1] == [s[0]] && s[1..] == t;
    }
  }

  /** After a word, the scan gives the remaining words, each after a space. */
  lemma {:induction false} AfterWordScan(t: string)
    requires t == [] || IsSpace(t[0])
    ensures NormaliseScan(InWord, t) == Spaced(Split(t))
    decreases |t|, 0
  {
    if t != [] {
      GapScan(t[1..]);
    }
  }

  /** After a gap, the scan gives the remaining words, each after a space. */
  lemma {:induction false} GapScan(s: string)
    ensures NormaliseScan(Gap, s) == Spaced(Split(s))
    decreases |s|, 1
  {
    if s != [] {
      if IsSpace(s[0]) {
        GapScan(s[1..]);
      } else {
        var n := WordLength(s);
        WordThenScan(s);
        AfterWordScan(s[n..]);
        JoinCons(s[..n], Split(s[n..]));
      }
    }
  }

  /** Split-then-join agrees with the single pass on every text. */
  lemma {:induction false} JoinSplitIsScan(s: string)
    ensures Join(Split(s), " ") == NormaliseScan(Start, s)
    decreases |s|
  {
    if s != [] {
      if IsSpace(s[0]) {
        JoinSplitIsScan(s[1..]);
      } else {
        var n := WordLength(s);
        WordThenScan(s);
        AfterWordScan(s[n..]);
        JoinCons(s[..n], Split(s[n..]));
      }
    }
  }

  /** The accumulator scan emits the current word extended by the rest of
      the word it is in, then the words after it. */
  lemma {:induction false} ScanWordsFrom(word: string, s: string)
    ensures ScanWords(word, s) == (if word + s[..WordLength(s)] == [] then [] else [word + s[..WordLength(s)]]) + Split(s[WordLength(s)..])
    decreases |s|, 1
  {
    if s == [] {
      assert word + s[..0] == word;
    } else if IsSpace(s[0]) {
      ScanWordsAtSpace(word, s);
      assert word + s[..0] == word && s[0..] == s;
    } else {
      ScanWordsInWord(word, s);
    }
  }

  /** At whitespace the accumulated word, if any, is emitted. */
  lemma {:induction false} ScanWordsAtSpace(word: string, s: string)
    requires s != [] && IsSpace(s[0])
    ensures ScanWords(word, s) == (if word == [] then [] else [word]) + Split(s)
    decreases |s|, 0
  {
    var t := s[1..];
    ScanWordsFrom([], t);
    SplitUnfold(t);
    assert [] + t[..WordLength(t)] == t[..WordLength(t)];
  }

  /** Inside a word the accumulator grows to the end of the word. */
  lemma {:induction false} ScanWordsInWord(word: string, s: string)
    requires s != [] && !IsSpace(s[0])
    ensures ScanWords(word, s) == [word + s[..WordLength(s)]] + Split(s[WordLength(s)..])
    decreases |s|, 0
  {
    var n := WordLength(s);
    var t := s[1..];
    ScanWordsFrom(word + [s[0]], t);
    assert WordLength(t) == n - 1;
    assert t[..n - 1] == s[1..n] && t[n - 1..] == s[n..];
    assert word + [s[0]] + s[1..n] == word + s[..n];
  }

  /** `Split` agrees with the accumulator scan on every text, so its words
      are exactly the maximal whitespace-free runs. */
  lemma SplitIsScan(s: string)
    ensures Split(s) == ScanWords([], s)
  {
    ScanWordsFrom([], s);
    SplitUnfold(s);
    assert [] + s[..WordLength(s)] == s[..WordLength(s)];
  }

  /** The scan's state after reading `a`. */
  function StateAfter(st: ScanState, a: string): ScanState
    decreases |a|
  {
    if a == [] then st
    else StateAfter(if !IsSpace(a[0]) then InWord else if st == Start then Start else Gap, a[1..])
  }

  /** The scan reads a concatenation piece by piece. */
  lemma {:induction false} ScanAppend(st: ScanState, a: string, b: string)
    ensures NormaliseScan(st, a + b) == NormaliseScan(st, a) + NormaliseScan(StateAfter(st, a), b)
    decreases |a|
  {
    if a == [] {
      assert a + b == b;
    } else {
      assert (a + b)[0] == a[0] && (a + b)[1..] == a[1..] + b;
      var next := if !IsSpace(a[0]) then InWord else if st == Start then Start else Gap;
      ScanAppend(next, a[1..], b);
    }
  }

  /** Two words with whitespace around and between them normalise to the
      words joined by one space. */
  lemma TwoWordsScan(lead: string, w1: string, gap: string, w2: string, trail: string)
    requires forall i :: 0 <= i < |lead| ==> IsSpace(lead[i])
    requires gap != [] && forall i :: 0 <= i < |gap| ==> IsSpace(gap[i])
    requires forall i :: 0 <= i < |trail| ==> IsSpace(trail[i])
    requires w1 != [] && forall i :: 0 <= i < |w1| ==> !IsSpace(w1[i])
    requires w2 != [] && forall i :: 0 <= i < |w2| ==> !IsSpace(w2[i])
    ensures NormaliseScan(Start, lead + (w1 + (gap + (w2 + trail)))) == w1 + " " + w2
  {
    var rest := gap + (w2 + trail);
    LeadingWordScan(lead, w1, rest);
    SecondWordScan(gap, w2, trail);
    assert w1 + (" " + w2) == w1 + " " + w2;
  }

  /** Leading whitespace is dropped and the first word copied. */
  lemma LeadingWordScan(lead: string, w: string, rest: string)
    requires forall i :: 0 <= i < |lead| ==> IsSpace(lead[i])
    requires w != [] && forall i :: 0 <= i < |w| ==> !IsSpace(w[i])
    ensures NormaliseScan(Start, lead + (w + rest)) == w + NormaliseScan(InWord, rest)
  {
    SpacesThen(Start, lead, w + rest);
    WordThen(Start, w, rest);
    assert "" + w == w;
  }

  /** A gap, a word and trailing whitespace after a word give the word after
      one space. */
  lemma SecondWordScan(gap: string, w: string, trail: string)
    requires gap != [] && forall i :: 0 <= i < |gap| ==> IsSpace(gap[i])
    requires forall i :: 0 <= i < |trail| ==> IsSpace(trail[i])
    requires w != [] && forall i :: 0 <= i < |w| ==> !IsSpace(w[i])
    ensures NormaliseScan(InWord, gap + (w + trail)) == " " + w
  {
    SpacesThen(InWord, gap, w + trail);
    WordThen(Gap, w, trail);
    SpacesScan(InWord, trail);
    assert " " + w + [] == " " + w;
  }

  lemma SpacesThen(st: ScanState, a: string, b: string)
    requires forall i :: 0 <= i < |a| ==> IsSpace(a[i])
    ensures NormaliseScan(st, a + b) == NormaliseScan(if a == [] then st else if st == Start then Start else Gap, b)
  {
    ScanAppend(st, a, b);
    SpacesScan(st, a);
  }

  lemma WordThen(st: ScanState, w: string, b: string)
    requires w != [] && forall i :: 0 <= i < |w| ==> !IsSpace(w[i])
    ensures NormaliseScan(st, w + b) == (if st == Gap then " " else "") + w + NormaliseScan(InWord, b)
  {
    ScanAppend(st, w, b);
    WordScan(st, w);
  }

  /** Whitespace adds nothing and moves a started scan into a gap. */
  lemma {:induction false} SpacesScan(st: ScanState, a: string)
    requires forall i :: 0 <= i < |a| ==> IsSpace(a[i])
    ensures NormaliseScan(st, a) == []
    ensures StateAfter(st, a) == if a == [] then st else if st == Start then Start else Gap
    decreases |a|
  {
    if a != [] {
      SpacesScan(if st == Start then Start else Gap, a[1..]);
    }
  }

  /** A word is copied, after one space when it follows a gap. */
  lemma {:induction false} WordScan(st: ScanState, w: string)
    requires w != [] && forall i :: 0 <= i < |w| ==> !IsSpace(w[i])
    ensures NormaliseScan(st, w) == (if st == Gap then " " else "") + w
    ensures StateAfter(st, w) == InWord
    decreases |w|
  {
    if |w| > 1 {
      WordScan(InWord, w[1..]);
      assert w == [w[0]] + w[1..];
    }
  }

  /** Sanitising with the default limit is a prefix of the single pass. */
  lemma SanitizedByScan(text: string, expected: string)
    requires NormaliseScan(Start, text) == expected && |expected| <= DefaultMaxLength
    ensures SanitizeDefault(text) == expected
  {
    JoinSplitIsScan(text);
  }

  /** The cases the unit tests name: surrounding whitespace, a run of
      spaces, and a tab followed by a newline all give "hello world". */
  lemma SanitizeHelloWorld(lead: string, gap: string, trail: string)
    requires forall i :: 0 <= i < |lead| ==> IsSpace(lead[i])
    requires gap != [] && forall i :: 0 <= i < |gap| ==> IsSpace(gap[i])
    requires forall i :: 0 <= i < |trail| ==> IsSpace(trail[i])
    ensures SanitizeDefault(lead + ("hello" + (gap + ("world" + trail)))) == "hello world"
  {
    TwoWordsScan(lead, "hello", gap, "world", trail);
    SanitizedByScan(lead + ("hello" + (gap + ("world" + trail))), "hello world");
  }

  lemma SanitizeSurroundingSpace()
    ensures SanitizeDefault("  hello world  ") == "hello world"
  {
    HelloWorldText("  ", " ", "  ", "  hello world  ");
    SanitizeHelloWorld("  ", " ", "  ");
  }

  lemma SanitizeSpaceRun()
    ensures SanitizeDefault("hello    world") == "hello world"
  {
    HelloWorldText("", "    ", "", "hello    world");
    SanitizeHelloWorld("", "    ", "");
  }

  lemma SanitizeTabNewline()
    ensures SanitizeDefault("hello\t\nworld") == "hello world"
  {
    HelloWorldText("", "\t\n", "", "hello\t\nworld");
    SanitizeHelloWorld("", "\t\n", "");
  }

  /** `text` is "hello" and "world" with the given whitespace around and
      between them. */
  lemma HelloWorldText(lead: string, gap: string, trail: string, text: string)
    requires |text| == |lead| + 5 + |gap| + 5 + |trail|
    requires text[..|lead|] == lead && text[|lead|..|lead| + 5] == "hello"
    requires text[|lead| + 5..|lead| + 5 + |gap|] == gap
    requires text[|lead| + 5 + |gap|..|text| - |trail|] == "world" && text[|text| - |trail|..] == trail
    ensures lead + ("hello" + (gap + ("world" + trail))) == text
  {
    var a, b, c, d := |lead|, |lead| + 5, |lead| + 5 + |gap|, |text| - |trail|;
    assert text == text[..a] + text[a..b] + text[b..c] + text[c..d] + text[d..];
  }

  /** A single word longer than the limit is cut to exactly the limit. */
  lemma LongWordTruncated(n: nat, maxLength: nat)
    requires maxLength <= n
    ensures SanitizeInput(seq(n, _ => 'a'), maxLength) == seq(maxLength, _ => 'a')
  {
    var text := seq(n, _ => 'a');
    assert forall i :: 0 <= i < |text| ==> text[i] == 'a' && !IsSpace(text[i]);
    NormalisedRoundTrip(text);
    var r := SanitizeInput(text, maxLength);
    assert |r| == maxLength;
    assert r == text[..maxLength];
  }

  /** One hundred letters limited to fifty give fifty characters. */
  lemma SanitizeCustomLimit()
    ensures |SanitizeInput(seq(100, _ => 'a'), 50)| == 50
  {
    LongWordTruncated(100, 50);
  }

  /** Ten thousand letters under the default limit give 8000 characters. */
  lemma SanitizeDefaultLimit()
    ensures |SanitizeDefault(seq(10000, _ => 'a'))| == 8000
  {
    LongWordTruncated(10000, DefaultMaxLength);
  }

  // ---------------------------------------------------------------------
  // Truncation makes the operation not idempotent

  /** `"a b".split()` is `["a", "b"]`. */
  lemma SplitTwoLetters()
    ensures Split("a b") == ["a", "b"]
  {
    assert !IsSpace('a') && IsSpace(' ');
    assert WordLength("a b") == 1 by {
      assert "a b"[1..] == " b";
    }
    assert "a b"[..1] == "a" && "a b"[1..] == " b" && " b"[1..] == "b";
    SpaceFreeWord("b");
  }

  /** `"a ".split()` is `["a"]`. */
  lemma SplitTrailingSpace()
    ensures Split("a ") == ["a"]
  {
    assert !IsSpace('a') && IsSpace(' ');
    assert WordLength("a ") == 1 by {
      assert "a "[1..] == " ";
    }
    assert "a "[..1] == "a" && "a "[1..] == " " && " "[1..] == [];
  }

  /** Truncation can stop right after a space, and a second pass then drops
      it: `sanitize_input` is not idempotent. */
  lemma TruncationLeavesTrailingSpace()
    ensures SanitizeInput("a b", 2) == "a "
    ensures SanitizeInput("a ", 2) == "a"
  {
    SplitTwoLetters();
    SplitTrailingSpace();
  }
}

=== FILE: scout_analysis.dfy ===
/** The batched repository analysis of `scout_analysis.py`: the prompt
    builder, the batch splitter, the per-batch result handling and the
    streamed progress counter, with the analyst agent's runs as inputs. */
module ScoutAnalysis {
  import opened Wrappers
  import opened Seqs
  import opened Text
  import opened ScoutSchemas
  import opened TaskRegistry

  /** `_README_MAX_CHARS`. */
  const ReadmeMaxChars := 16000

  /** The scout settings the source reads from its configuration
      (`scout_max_repos`, `scout_batch_size`). */
  type BatchSize = n: nat | n > 0 witness 1

  datatype ScoutSettings = ScoutSettings(maxRepos: nat, batchSize: BatchSize)

  // ---------------------------------------------------------------------
  // batch_repos

  /** `batch_repos`: `range(0, len, batch_size)` raises for a zero step and
      is empty for a negative one. */
  function BatchRepos<T>(repos: seq<T>, batchSize: int): (r: Result<seq<seq<T>>, string>)
    ensures batchSize == 0 <==> r.Failure?
    ensures batchSize < 0 ==> r == Success([])
    ensures batchSize > 0 ==> r.Success? && Flatten(r.value) == repos
    ensures batchSize > 0 ==> forall i :: 0 <= i < |r.value| ==> 0 < |r.value[i]| <= batchSize
    ensures batchSize > 0 ==> forall i :: 0 <= i < |r.value| - 1 ==> |r.value[i]| == batchSize
    ensures batchSize > 0 ==> (|r.value| - 1) * batchSize < |repos| <= |r.value| * batchSize
  {
    if batchSize == 0 then Failure("range() arg 3 must not be zero")
    else if batchSize < 0 then Success([])
    else Success(Chunk(repos, batchSize))
  }

  /** The number of batches is the ceiling of n / batch_size, and an empty
      list gives no batches. */
  lemma BatchCount<T>(repos: seq<T>, batchSize: BatchSize)
    ensures |Chunk(repos, batchSize)| == (|repos| + batchSize - 1) / batchSize
    ensures repos == [] ==> Chunk(repos, batchSize) == []
  {
    var k := |Chunk(repos, batchSize)|;
    var n := |repos|;
    var b: int := batchSize;
    assert (k - 1) * b < n <= k * b;
    assert k * b <= n + b - 1 < (k + 1) * b;
    DivBetween(n + b - 1, b, k);
  }

  /** Integer division pinned down by bounds. */
  lemma DivBetween(a: int, b: int, k: int)
    requires b > 0 && k * b <= a < (k + 1) * b
    ensures a / b == k
  {
    var q, r := a / b, a % b;
    assert a == q * b + r && 0 <= r < b;
    MulMonotone(q + 1, k, b);
    MulMonotone(k + 1, q, b);
  }

  lemma MulMonotone(x: int, y: int, b: int)
    requires b > 0
    ensures x <= y ==> x * b <= y * b
  {
  }

  /** Two lists of the same length split into batches of the same shapes,
      so the repo batches and the README batches pair up one to one. */
  lemma ChunkShapesAgree<S, T>(a: seq<S>, b: seq<T>, n: BatchSize)
    requires |a| == |b|
    ensures |Chunk(a, n)| == |Chunk(b, n)|
    ensures forall i :: 0 <= i < |Chunk(a, n)| ==> |Chunk(a, n)[i]| == |Chunk(b, n)[i]|
    decreases |a|
  {
    if |a| > n {
      ChunkShapesAgree(a[n..], b[n..], n);
    }
  }

  // ---------------------------------------------------------------------
  // _build_batch_input

  /** The README line of one repo: a missing or empty README is reported as
      not available, otherwise at most the first 16000 characters follow the
      excerpt header. */
  function ReadmeLine(readme: Option<string>): (line: string)
    ensures readme.None? || readme == Some("") ==> line == "README: Not available"
    ensures readme.Some? && readme.value != "" ==>
      && |line| >= 18
      && line[..18] == "README (excerpt):\n"
      && line[18..] <= readme.value
      && |line[18..]| == Min(|readme.value|, ReadmeMaxChars)
  {
    if readme.Some? && readme.value != "" then "README (excerpt):\n" + PyPrefix(readme.value, ReadmeMaxChars)
    else "README: Not available"
  }

  function OrNA(s: Option<string>): string
  {
    if s.Some? && s.value != "" then s.value else "N/A"
  }

  /** The line that opens a repo's block. */
  function RepoHeader(repo: RepoMetadata): string
  {
    "--- " + repo.owner + "/" + repo.name + " ---"
  }

  /** The fourteen lines describing one repo. */
  function RepoBlock(repo: RepoMetadata, readme: Option<string>): (lines: seq<string>)
    ensures |lines| == 14
    ensures lines[1] == RepoHeader(repo)
    ensures lines[13] == ReadmeLine(readme)
  {
    [ "",
      RepoHeader(repo),
      "URL: " + repo.url,
      "Description: " + OrNA(repo.description),
      "Primary Language: " + OrNA(repo.primaryLanguage),
      "Languages: " + Join(repo.languages, ", "),
      "Stars: " + IntToString(repo.starCount),
      "Open Issues: " + IntToString(repo.openIssueCount),
      "Good First Issues: " + IntToString(repo.goodFirstIssueCount),
      "Help Wanted: " + IntToString(repo.helpWantedCount),
      "Topics: " + Join(repo.topics, ", "),
      "License: " + OrNA(repo.license),
      "Last Pushed: " + OrNA(repo.pushedAt),
      ReadmeLine(readme) ]
  }

  function ProfileHeader(profile: DeveloperProfile): (lines: seq<string>)
    ensures |lines| == 7
  {
    [ "DEVELOPER PROFILE:",
      "Languages: " + Join(profile.languages, ", "),
      "Topics: " + Join(profile.topics, ", "),
      "Skill Level: " + profile.skillLevel.Value(),
      "Goals: " + profile.goals,
      "",
      "REPOSITORIES TO ANALYZE:" ]
  }

  /** One block per repo, in order. */
  function RepoBlockList(repos: seq<RepoMetadata>, readmes: seq<Option<string>>): (blocks: seq<seq<string>>)
    requires |repos| == |readmes|
    ensures |blocks| == |repos|
    ensures forall k :: 0 <= k < |blocks| ==> blocks[k] == RepoBlock(repos[k], readmes[k])
  {
    seq(|repos|, k requires 0 <= k < |repos| => RepoBlock(repos[k], readmes[k]))
  }

  function RepoBlocks(repos: seq<RepoMetadata>, readmes: seq<Option<string>>): (lines: seq<string>)
    requires |repos| == |readmes|
    ensures |lines| == 14 * |repos|
  {
    FlattenUniformLength(RepoBlockList(repos, readmes), 14);
    Flatten(RepoBlockList(repos, readmes))
  }

  /** The i-th block of the prompt names the i-th repo and carries the
      i-th README. */
  lemma RepoBlockAt(repos: seq<RepoMetadata>, readmes: seq<Option<string>>, i: nat)
    requires |repos| == |readmes| && i < |repos|
    ensures RepoBlocks(repos, readmes)[14 * i + 1] == RepoHeader(repos[i])
    ensures RepoBlocks(repos, readmes)[14 * i + 13] == ReadmeLine(readmes[i])
  {
    var blocks := RepoBlockList(repos, readmes);
    FlattenUniformAt(blocks, 14, i, 1);
    FlattenUniformAt(blocks, 14, i, 13);
    assert blocks[i] == RepoBlock(repos[i], readmes[i]);
  }

  /** `_build_batch_input`: the profile header, then one block per repo in
      order; a length mismatch between repos and READMEs is a `ValueError`. */
  function BuildBatchInput(profile: DeveloperProfile, repos: seq<RepoMetadata>, readmes: seq<Option<string>>): (r: Result<seq<string>, string>)
    ensures r.Failure? <==> |repos| != |readmes|
    ensures r.Success? ==>
      && |r.value| == 7 + 14 * |repos|
      && r.value[..7] == ProfileHeader(profile)
      && r.value[7..] == RepoBlocks(repos, readmes)
  {
    if |repos| != |readmes| then Failure("repos and readmes must have same length")
    else Success(ProfileHeader(profile) + RepoBlocks(repos, readmes))
  }

  /** Each repo of the batch appears in the prompt, in input order, with its
      own README line. */
  lemma BatchInputNamesEveryRepo(profile: DeveloperProfile, repos: seq<RepoMetadata>, readmes: seq<Option<string>>, i: nat)
    requires |repos| == |readmes| && i < |repos|
    ensures BuildBatchInput(profile, repos, readmes).value[7 + 14 * i + 1] == "--- " + repos[i].owner + "/" + repos[i].name + " ---"
    ensures BuildBatchInput(profile, repos, readmes).value[7 + 14 * i + 13] == ReadmeLine(readmes[i])
  {
    RepoBlockAt(repos, readmes, i);
    var lines := BuildBatchInput(profile, repos, readmes).value;
    assert lines[7 + 14 * i + 1] == lines[7..][14 * i + 1];
    assert lines[7 + 14 * i + 13] == lines[7..][14 * i + 13];
  }

  /** The prompt text: the lines joined by newlines. */
  function BatchPrompt(profile: DeveloperProfile, repos: seq<RepoMetadata>, readmes: seq<Option<string>>): Result<string, string>
  {
    match BuildBatchInput(profile, repos, readmes)
    case Success(lines) => Success(Join(lines, "\n"))
    case Failure(e) => Failure(e)
  }

  // ---------------------------------------------------------------------
  // analyze_batch

  /** How one analysis batch ended, as its awaiting loop sees it. */
  datatype BatchOutcome = Analyzed(results: seq<AnalysisResult>) | BatchTimedOut | BatchFailed

  /** `analyze_batch`: a prompt-building error or an agent exception fails
      the batch, a timeout is reported as such, and a run that finished
      without output counts as an empty result list. */
  function AnalyzeBatch(prompt: Result<string, string>, run: RunResult<seq<AnalysisResult>, string>): (o: BatchOutcome)
    ensures prompt.Failure? ==> o == BatchFailed
    ensures prompt.Success? ==>
      && (run == Returned(None) ==> o == Analyzed([]))
      && (run.Returned? && run.output.Some? ==> o == Analyzed(run.output.value))
      && (run.TimeoutRaised? <==> o == BatchTimedOut)
      && (run.ErrorRaised? <==> o == BatchFailed)
  {
    if prompt.Failure? then BatchFailed
    else match run
      case Returned(None) => Analyzed([])
      case Returned(Some(results)) => Analyzed(results)
      case TimeoutRaised => BatchTimedOut
      case ErrorRaised(_) => BatchFailed
  }

  // ---------------------------------------------------------------------
  // analyze_repos_streamed

  datatype AnalysisEvent =
    | Progress(analyzed: int, total: nat)
    | BatchError(message: string, analyzed: int, total: nat)
  {
    /** The event's `message` field. */
    function Message(): string {
      match this
      case Progress(a, t) => "Analyzed " + IntToString(a) + "/" + IntToString(t) + " repos..."
      case BatchError(m, a, t) => m + " (" + IntToString(a) + "/" + IntToString(t) + ")"
    }
  }

  /** The event for one batch outcome, given the counter after it. */
  function BatchEvent(o: BatchOutcome, next: int, total: nat): (e: AnalysisEvent)
    ensures e.Progress? <==> o.Analyzed?
    ensures e.analyzed == next && e.total == total
  {
    match o
    case Analyzed(_) => Progress(next, total)
    case BatchTimedOut => BatchError("Batch timed out, skipping...", next, total)
    case BatchFailed => BatchError("Batch failed, continuing...", next, total)
  }

  /** The counter rule of `analyze_repos_streamed` as written: a timed-out or
      failed batch adds the full batch size. */
  function StreamedEventsAsWritten(outcomes: seq<BatchOutcome>, batchSize: nat, total: nat, analyzed: int): (events: seq<AnalysisEvent>)
    ensures |events| == |outcomes|
    ensures forall i :: 0 <= i < |outcomes| ==> (events[i].Progress? <==> outcomes[i].Analyzed?)
    ensures forall i :: 0 <= i < |outcomes| ==> events[i].total == total
  {
    if outcomes == [] then []
    else
      var o := outcomes[0];
      var next := if o.Analyzed? then analyzed + |o.results| else analyzed + batchSize;
      [BatchEvent(o, next, total)] + StreamedEventsAsWritten(outcomes[1..], batchSize, total, next)
  }

  /** `analyze_repos_streamed` as written: one task per batch of the capped
      input, so exactly one outcome, and one event, per batch. */
  function AnalyzeReposStreamedAsWritten(repos: seq<RepoMetadata>, settings: ScoutSettings, outcomes: seq<BatchOutcome>): (events: seq<AnalysisEvent>)
    requires |outcomes| == |Chunk(PyPrefix(repos, settings.maxRepos), settings.batchSize)|
    ensures |events| == |outcomes| == (Min(|repos|, settings.maxRepos) + settings.batchSize - 1) / settings.batchSize
    ensures forall i :: 0 <= i < |events| ==> (events[i].Progress? <==> outcomes[i].Analyzed?)
    ensures forall i :: 0 <= i < |events| ==> events[i].total == Min(|repos|, settings.maxRepos)
  {
    BatchCount(PyPrefix(repos, settings.maxRepos), settings.batchSize);
    StreamedEventsAsWritten(outcomes, settings.batchSize, |PyPrefix(repos, settings.maxRepos)|, 0)
  }

  /** As written, the counter can report more repos than exist: three repos
      in batches of two, both batches failing, end at "4/3". */
  lemma StreamedCounterOvershoots()
    ensures AnalyzeReposStreamedAsWritten(SampleRepos(3), ScoutSettings(50, 2), [BatchFailed, BatchFailed])[1]
         == BatchError("Batch failed, continuing...", 4, 3)
  {
  }

  /** The counter rule the orchestrator uses instead: a timed-out or failed
      batch advances the counter by the batch size but never past the total. */
  function AfterFailedBatch(analyzed: int, batchSize: nat, total: nat): (next: int)
    ensures analyzed <= total ==> analyzed <= next <= total
    ensures next <= total
    ensures analyzed + batchSize <= total ==> next == analyzed + batchSize
    ensures total < analyzed + batchSize ==> next == total
  {
    Min(analyzed + batchSize, total)
  }

  /** The counter after one batch outcome: a successful batch adds its
      results, any other outcome follows `AfterFailedBatch`. */
  function CounterAfter(o: BatchOutcome, analyzed: int, batchSize: nat, total: nat): int
  {
    if o.Analyzed? then analyzed + |o.results| else AfterFailedBatch(analyzed, batchSize, total)
  }

  /** The counter of `analyze_repos_streamed` with the orchestrator's rule:
      the same events, except that a failed batch never carries the counter
      past the total. */
  function StreamedEvents(outcomes: seq<BatchOutcome>, batchSize: nat, total: nat, analyzed: int): (events: seq<AnalysisEvent>)
    ensures |events| == |outcomes|
    ensures forall i :: 0 <= i < |outcomes| ==> (events[i].Progress? <==> outcomes[i].Analyzed?)
    ensures forall i :: 0 <= i < |outcomes| ==> events[i].total == total
    ensures forall i :: 0 <= i < |outcomes| && events[i].BatchError? ==> events[i].analyzed <= total
    ensures |outcomes| > 0 ==> events[0].analyzed == CounterAfter(outcomes[0], analyzed, batchSize, total)
    ensures forall i :: 0 < i < |outcomes| ==> events[i].analyzed == CounterAfter(outcomes[i], events[i - 1].analyzed, batchSize, total)
  {
    if outcomes == [] then []
    else
      var o := outcomes[0];
      var next := CounterAfter(o, analyzed, batchSize, total);
      var rest := StreamedEvents(outcomes[1..], batchSize, total, next);
      var events := [BatchEvent(o, next, total)] + rest;
      assert forall i :: 0 < i < |outcomes| ==> events[i] == rest[i - 1] && outcomes[i] == outcomes[1..][i - 1];
      events
  }

  /** `analyze_repos_streamed`: caps the input at `scout_max_repos`, splits it
      into batches and yields one progress-or-error event per batch outcome,
      in completion order, without stopping at a failure. The batch
      outcomes are the input. */
  function AnalyzeReposStreamed(repos: seq<RepoMetadata>, settings: ScoutSettings, outcomes: seq<BatchOutcome>): (events: seq<AnalysisEvent>)
    requires |outcomes| == |Chunk(PyPrefix(repos, settings.maxRepos), settings.batchSize)|
    ensures |events| == |outcomes| == (Min(|repos|, settings.maxRepos) + settings.batchSize - 1) / settings.batchSize
    ensures forall i :: 0 <= i < |events| ==> events[i].total == Min(|repos|, settings.maxRepos) <= settings.maxRepos
    ensures forall i :: 0 <= i < |events| ==> (events[i].BatchError? <==> !outcomes[i].Analyzed?)
    ensures forall i :: 0 <= i < |events| && events[i].BatchError? ==> events[i].analyzed <= events[i].total
    ensures |events| > 0 ==> events[0].analyzed == CounterAfter(outcomes[0], 0, settings.batchSize, events[0].total)
    ensures forall i :: 0 < i < |events| ==> events[i].analyzed == CounterAfter(outcomes[i], events[i - 1].analyzed, settings.batchSize, events[i].total)
  {
    var capped := PyPrefix(repos, settings.maxRepos);
    BatchCount(capped, settings.batchSize);
    StreamedEvents(outcomes, settings.batchSize, |capped|, 0)
  }

  /** While every batch succeeds, the corrected counter and the one as
      written agree event for event. */
  lemma {:induction false} CountersAgreeWithoutFailures(outcomes: seq<BatchOutcome>, batchSize: nat, total: nat, analyzed: int)
    requires forall i :: 0 <= i < |outcomes| ==> outcomes[i].Analyzed?
    ensures StreamedEvents(outcomes, batchSize, total, analyzed) == StreamedEventsAsWritten(outcomes, batchSize, total, analyzed)
    decreases |outcomes|
  {
    if outcomes != [] {
      var next := analyzed + |outcomes[0].results|;
      CountersAgreeWithoutFailures(outcomes[1..], batchSize, total, next);
    }
  }

  /** The corrected counter ends the same three-repo example at "3/3". */
  lemma StreamedCounterCapped()
    ensures AnalyzeReposStreamed(SampleRepos(3), ScoutSettings(50, 2), [BatchFailed, BatchFailed])[1]
         == BatchError("Batch failed, continuing...", 3, 3)
  {
  }

  function SampleRepos(n: nat): (rs: seq<RepoMetadata>)
    ensures |rs| == n
  {
    seq(n, i => RepoMetadata(i, "org", "repo", "", None, None, [], 0, 0, 1, [], None, None, None, 0, 0))
  }}

=== FILE: scout_api.dfy ===
/** The search endpoints' bookkeeping in `api/scout.py`: the in-process
    rate limiter (a sliding one-hour window of start times per client
    address, and a global "one search at a time" rule), the set of runs
    whose stream is open, and the task registry the streams and the cancel
    endpoint clean up. The database is reduced to the facts the endpoints
    branch on (the run exists, the profile and filters were found); the
    clock is a parameter in seconds. */
module ScoutApi {
  import opened Wrappers
  import opened Text
  import TaskRegistry
  import opened ScoutSchemas
  import ScoutOrchestrator

  const SearchRateLimit := 5

  /** The window, in seconds. */
  const SearchRateWindow: real := 3600.0

  const AlreadyRunningMessage := "A search is already running. Please wait for it to complete."

  const RateLimitMessage := "Rate limit exceeded. Maximum " + NatToString(SearchRateLimit) + " searches per hour."

  const NoProfileMessage := "Save a developer profile before searching"

  const RunNotFoundMessage := "Search run not found"

  const InProgressMessage := "Search already in progress"

  const MissingInputsMessage := "Profile or filters not found"

  /** The module-level state: the active-search flags by run id, the start
      times by client address, and the task registry. */
  datatype ApiState = ApiState(
    active: map<string, bool>,
    ipCounts: map<string, seq<real>>,
    registry: TaskRegistry.Registry)

  /** Some search is flagged as running. */
  predicate AnyActive(active: map<string, bool>)
  {
    exists k :: k in active && active[k]
  }

  /** The start times recorded for an address (the default-dict's empty
      list when there are none). */
  function Starts(counts: map<string, seq<real>>, ip: string): seq<real>
  {
    if ip in counts then counts[ip] else []
  }

  /** A start time still inside the window at `now`. */
  predicate Recent(t: real, now: real)
  {
    now - t < SearchRateWindow
  }

  /** The start times still inside the window, in their original order. */
  function Prune(ts: seq<real>, now: real): (r: seq<real>)
    ensures |r| <= |ts|
    ensures forall t :: t in r <==> t in ts && Recent(t, now)
  {
    if ts == [] then []
    else (if Recent(ts[0], now) then [ts[0]] else []) + Prune(ts[1..], now)
  }

  /** Pruning is a filter: it distributes over concatenation, so the kept
      times keep their relative order. */
  lemma {:induction false} PruneAppend(a: seq<real>, b: seq<real>, now: real)
    ensures Prune(a + b, now) == Prune(a, now) + Prune(b, now)
    decreases |a|
  {
    if a == [] {
      assert a + b == b;
    } else {
      assert (a + b)[1..] == a[1..] + b;
      PruneAppend(a[1..], b, now);
    }
  }

  /** Times that are all inside the window are kept as they are. */
  lemma {:induction false} PruneKeepsRecent(ts: seq<real>, now: real)
    requires forall i :: 0 <= i < |ts| ==> Recent(ts[i], now)
    ensures Prune(ts, now) == ts
    decreases |ts|
  {
    if ts != [] {
      PruneKeepsRecent(ts[1..], now);
    }
  }

  /** Pruning twice is pruning once. */
  lemma PruneIdempotent(ts: seq<real>, now: real)
    ensures Prune(Prune(ts, now), now) == Prune(ts, now)
  {
    var p := Prune(ts, now);
    assert forall i :: 0 <= i < |p| ==> p[i] in p;
    PruneKeepsRecent(p, now);
  }

  datatype RateCheck = RateCheck(state: ApiState, error: Option<string>)

  /** `_check_rate_limit`: refuse while any search is flagged as running,
      touching nothing; otherwise prune the caller's start times to the
      window and refuse once five or more remain. */
  function CheckRateLimit(st: ApiState, ip: string, now: real): (r: RateCheck)
    ensures r.state.active == st.active && r.state.registry == st.registry
    ensures AnyActive(st.active) ==> r == RateCheck(st, Some(AlreadyRunningMessage))
    ensures !AnyActive(st.active) ==>
      && ip in r.state.ipCounts
      && r.state.ipCounts[ip] == Prune(Starts(st.ipCounts, ip), now)
      && (r.error.Some? <==> |r.state.ipCounts[ip]| >= SearchRateLimit)
      && (r.error.Some? ==> r.error.value == RateLimitMessage)
    ensures forall k :: k != ip ==> Starts(r.state.ipCounts, k) == Starts(st.ipCounts, k)
  {
    if AnyActive(st.active) then RateCheck(st, Some(AlreadyRunningMessage))
    else
      var kept := Prune(Starts(st.ipCounts, ip), now);
      var st' := st.(ipCounts := st.ipCounts[ip := kept]);
      if |kept| >= SearchRateLimit then RateCheck(st', Some(RateLimitMessage))
      else RateCheck(st', None)
  }

  /** What `start_search` answers: the new run, or an HTTP error. */
  datatype StartResponse = Started(runId: string) | StartRefused(status: nat, detail: string)

  datatype StartResult = StartResult(state: ApiState, response: StartResponse)

  /** `start_search`: 429 with the limiter's message, 400 without a saved
      profile, and otherwise the run the database created for the filters,
      with one more start time recorded for the caller. The limiter reads
      the clock at `now`; the recorded time is a second reading,
      `appendedAt`, taken after the database calls, so never earlier. */
  function StartSearch(st: ApiState, ip: string, now: real, appendedAt: real, hasProfile: bool, newRunId: string): (r: StartResult)
    requires now <= appendedAt
    ensures r.state.active == st.active && r.state.registry == st.registry
    ensures CheckRateLimit(st, ip, now).error.Some? ==>
      r == StartResult(CheckRateLimit(st, ip, now).state, StartRefused(429, CheckRateLimit(st, ip, now).error.value))
    ensures CheckRateLimit(st, ip, now).error.None? && !hasProfile ==>
      r == StartResult(CheckRateLimit(st, ip, now).state, StartRefused(400, NoProfileMessage))
    ensures r.response.Started? <==> CheckRateLimit(st, ip, now).error.None? && hasProfile
    ensures r.response.Started? ==>
      && r.response.runId == newRunId
      && r.state.ipCounts == CheckRateLimit(st, ip, now).state.ipCounts[ip := Prune(Starts(st.ipCounts, ip), now) + [appendedAt]]
    ensures forall k :: k != ip ==> Starts(r.state.ipCounts, k) == Starts(st.ipCounts, k)
  {
    var check := CheckRateLimit(st, ip, now);
    if check.error.Some? then StartResult(check.state, StartRefused(429, check.error.value))
    else if !hasProfile then StartResult(check.state, StartRefused(400, NoProfileMessage))
    else
      var counts := check.state.ipCounts;
      StartResult(check.state.(ipCounts := counts[ip := counts[ip] + [appendedAt]]), Started(newRunId))
  }

  /** The limiter holds: after a start is accepted, the caller has at most
      five start times recorded, the newest being the second clock reading,
      and at most five of them are inside the window at that reading. */
  lemma AcceptedStartKeepsWindow(st: ApiState, ip: string, now: real, appendedAt: real, hasProfile: bool, newRunId: string)
    requires now <= appendedAt
    requires StartSearch(st, ip, now, appendedAt, hasProfile, newRunId).response.Started?
    ensures var ts := Starts(StartSearch(st, ip, now, appendedAt, hasProfile, newRunId).state.ipCounts, ip);
            && |ts| <= SearchRateLimit
            && |Prune(ts, appendedAt)| <= SearchRateLimit
            && ts[|ts| - 1] == appendedAt
            && forall i :: 0 <= i < |ts| ==> Recent(ts[i], now)
  {
    var kept := Prune(Starts(st.ipCounts, ip), now);
    var ts := Starts(StartSearch(st, ip, now, appendedAt, hasProfile, newRunId).state.ipCounts, ip);
    assert ts == kept + [appendedAt];
    assert |kept| < SearchRateLimit;
    PruneAppend(kept, [appendedAt], appendedAt);
    assert Prune([appendedAt], appendedAt) == [appendedAt];
    forall i | 0 <= i < |ts|
      ensures Recent(ts[i], now)
    {
      if i < |kept| {
        assert ts[i] == kept[i] && kept[i] in kept;
      }
    }
  }

  /** A sixth search within the hour is refused with 429, whatever the
      profile. */
  lemma SixthStartRefused(st: ApiState, ip: string, now: real, appendedAt: real, hasProfile: bool, newRunId: string)
    requires now <= appendedAt
    requires !AnyActive(st.active)
    requires |Starts(st.ipCounts, ip)| == SearchRateLimit
    requires forall i :: 0 <= i < SearchRateLimit ==> Recent(Starts(st.ipCounts, ip)[i], now)
    ensures StartSearch(st, ip, now, appendedAt, hasProfile, newRunId).response == StartRefused(429, RateLimitMessage)
  {
    PruneKeepsRecent(Starts(st.ipCounts, ip), now);
  }

  /** Start times older than the window no longer count: the same caller is
      let through an hour later. */
  lemma StaleStartsForgotten(st: ApiState, ip: string, now: real, appendedAt: real, newRunId: string)
    requires now <= appendedAt
    requires !AnyActive(st.active)
    requires forall t :: t in Starts(st.ipCounts, ip) ==> !Recent(t, now)
    ensures StartSearch(st, ip, now, appendedAt, true, newRunId).response == Started(newRunId)
  {
    PruneDropsStale(Starts(st.ipCounts, ip), now);
  }

  /** Times that are all outside the window are all dropped. */
  lemma {:induction false} PruneDropsStale(ts: seq<real>, now: real)
    requires forall t :: t in ts ==> !Recent(t, now)
    ensures Prune(ts, now) == []
    decreases |ts|
  {
    if ts != [] {
      assert ts[0] in ts;
      PruneDropsStale(ts[1..], now);
    }
  }

  // ---------------------------------------------------------------------
  // Streams and cancellation

  /** `_validate_stream_request` followed by `stream_search`'s flagging:
      an error event's message, or the state with the run flagged active. */
  datatype StreamOpen = Opened(state: ApiState) | Rejected(message: string)

  function OpenStream(st: ApiState, runId: string, runExists: bool, inputsFound: bool): (r: StreamOpen)
    ensures !runExists ==> r == Rejected(RunNotFoundMessage)
    ensures runExists && runId in st.active ==> r == Rejected(InProgressMessage)
    ensures runExists && runId !in st.active && !inputsFound ==> r == Rejected(MissingInputsMessage)
    ensures r.Opened? <==> runExists && runId !in st.active && inputsFound
    ensures r.Opened? ==>
      && r.state.active == st.active[runId := true]
      && r.state.ipCounts == st.ipCounts && r.state.registry == st.registry
  {
    if !runExists then Rejected(RunNotFoundMessage)
    else if runId in st.active then Rejected(InProgressMessage)
    else if !inputsFound then Rejected(MissingInputsMessage)
    else Opened(st.(active := st.active[runId := true]))
  }

  /** The `finally` of the event stream, reached whether the stream ends
      normally or by an exception: unflag the run and drop its registry
      entry without cancelling anything. */
  function CloseStream(st: ApiState, runId: string): (r: ApiState)
    ensures runId !in r.active && runId !in r.registry
    ensures forall k :: k != runId ==> (k in r.active <==> k in st.active)
    ensures forall k :: k != runId && k in st.active ==> r.active[k] == st.active[k]
    ensures TaskRegistry.OthersUnchanged(st.registry, r.registry, runId)
    ensures r.ipCounts == st.ipCounts
  {
    ApiState(st.active - {runId}, st.ipCounts, TaskRegistry.Cleanup(st.registry, runId).registry)
  }

  /** While a stream is open, every new search is refused as already
      running, from any address. */
  lemma OpenStreamBlocksStarts(st: ApiState, runId: string, inputsFound: bool, ip: string, now: real,
                               appendedAt: real, hasProfile: bool, newRunId: string)
    requires now <= appendedAt
    requires OpenStream(st, runId, true, inputsFound).Opened?
    ensures var open := OpenStream(st, runId, true, inputsFound).state;
            StartSearch(open, ip, now, appendedAt, hasProfile, newRunId).response == StartRefused(429, AlreadyRunningMessage)
  {
    var open := OpenStream(st, runId, true, inputsFound).state;
    assert runId in open.active && open.active[runId];
  }

  /** A second stream for a run whose stream is open is refused. */
  lemma SecondStreamRefused(st: ApiState, runId: string, inputsFound: bool, again: bool)
    requires OpenStream(st, runId, true, inputsFound).Opened?
    ensures OpenStream(OpenStream(st, runId, true, inputsFound).state, runId, true, again)
            == Rejected(InProgressMessage)
  {
  }

  /** Opening and then closing a stream gives back the active flags as they
      were before, and leaves the run with no registry entry. */
  lemma OpenCloseRestoresActive(st: ApiState, runId: string, inputsFound: bool)
    requires OpenStream(st, runId, true, inputsFound).Opened?
    ensures var closed := CloseStream(OpenStream(st, runId, true, inputsFound).state, runId);
            && closed.active == st.active
            && closed.ipCounts == st.ipCounts
            && runId !in closed.registry
  {
    var closed := CloseStream(OpenStream(st, runId, true, inputsFound).state, runId);
    assert closed.active.Keys == st.active.Keys;
  }

  /** What `cancel_search` answers. */
  datatype CancelResponse = CancelNotFound(code: nat, detail: string) | CancelDone(status: string)

  /** The cancel endpoint's effect: the next state, the handles cancelled,
      and the database update written for the run. */
  datatype CancelResult = CancelResult(
    state: ApiState,
    cancelled: seq<TaskRegistry.Handle>,
    update: Option<ScoutOrchestrator.RunUpdate>,
    response: CancelResponse)

  /** `cancel_search`: 404 for an unknown run; otherwise cancel the run's
      unfinished agent runs, unflag it, and record it as cancelled with
      zero counts. */
  function CancelSearch(st: ApiState, runId: string, runExists: bool): (r: CancelResult)
    ensures !runExists ==> r == CancelResult(st, [], None, CancelNotFound(404, RunNotFoundMessage))
    ensures runExists ==>
      && r.response == CancelDone("cancelled")
      && r.update == Some(ScoutOrchestrator.RunUpdate(SearchRunStatus.Cancelled, 0, 0, 0))
      && runId !in r.state.active && runId !in r.state.registry
      && (forall x :: x in r.cancelled <==> x in TaskRegistry.HandlesOf(st.registry, runId) && !x.isComplete)
      && (forall k :: k != runId ==> (k in r.state.active <==> k in st.active))
      && (forall k :: k != runId && k in st.active ==> r.state.active[k] == st.active[k])
      && TaskRegistry.OthersUnchanged(st.registry, r.state.registry, runId)
      && r.state.ipCounts == st.ipCounts
  {
    if !runExists then CancelResult(st, [], None, CancelNotFound(404, RunNotFoundMessage))
    else
      var step := TaskRegistry.CancelAll(st.registry, runId);
      CancelResult(
        ApiState(st.active - {runId}, st.ipCounts, step.registry),
        step.cancelled,
        Some(ScoutOrchestrator.RunUpdate(SearchRunStatus.Cancelled, 0, 0, 0)),
        CancelDone("cancelled"))
  }

  /** Cancelling the only running search frees the limiter's global lock:
      a new search is no longer refused as already running. */
  lemma CancelReleasesLock(st: ApiState, runId: string, ip: string, now: real)
    requires forall k :: k in st.active && k != runId ==> !st.active[k]
    ensures CheckRateLimit(CancelSearch(st, runId, true).state, ip, now).error != Some(AlreadyRunningMessage)
  {
    var after := CancelSearch(st, runId, true).state;
    assert !AnyActive(after.active);
    assert |RateLimitMessage| != |AlreadyRunningMessage| by {
      assert NatToString(SearchRateLimit) == "5";
    }
  }
}

=== FILE: scout_orchestrator.dfy ===
/** The scout search pipeline of `scout_orchestrator.py`: discovery with a
    topic-relaxing retry, client-side filtering and capping, README lookup,
    batched analysis driven by completion rounds, and the completion event.

    The environment is an input: the GitHub search, the README fetch, the
    cancellation probe and the analysis batches' outcomes are values of
    `World`, and the database writes are returned as `RunUpdate` values. */
module ScoutOrchestrator {
  import opened Wrappers
  import opened Seqs
  import opened Text
  import opened StableSort
  import opened ScoutSchemas
  import opened RepoFiltering
  import opened ScoutAnalysis

  datatype Phase = Discovering | Filtering | Analyzing
  {
    function Value(): string {
      match this
      case Discovering => "discovering"
      case Filtering => "filtering"
      case Analyzing => "analyzing"
    }
  }

  /** The status notes of the pipeline; each belongs to one phase. */
  datatype Note =
    | Searching
    | Discovered(count: nat)
    | FilteringCandidates
    | PassedFilters(count: nat)
    | FetchingReadmes(count: nat)
    | StartingAnalysis
  {
    function Phase(): Phase {
      match this
      case Searching => Discovering
      case Discovered(_) => Discovering
      case StartingAnalysis => Analyzing
      case _ => Filtering
    }

    function Text(): string {
      match this
      case Searching => "Searching GitHub..."
      case Discovered(n) => "Discovered " + NatToString(n) + " repositories"
      case FilteringCandidates => "Filtering candidates..."
      case PassedFilters(n) => NatToString(n) + " repos passed filters"
      case FetchingReadmes(n) => "Fetching READMEs for " + NatToString(n) + " repos..."
      case StartingAnalysis => "Starting AI analysis..."
    }
  }

  /** The two ways a run ends early without failing. */
  datatype Problem = NoRepositories | AllFilteredOut
  {
    function Text(): string {
      match this
      case NoRepositories => "No repositories found. Try broadening your filters."
      case AllFilteredOut => "All repos filtered out. Try adjusting your filters."
    }
  }

  /** The events the stream yields. `BatchIssue` and `BatchProgress` belong to the
      analyzing phase; `Failed` is the top-level failure event. */
  datatype Event =
    | Status(note: Note)
    | BatchProgress(analyzed: int, total: nat)
    | BatchIssue(timedOut: bool, analyzed: int, total: nat)
    | Error(problem: Problem)
    | SearchFailed(detail: string)
    | CancelledEvent
    | Complete(data: ScoutSearchResult)
  {
    /** The event's `type` field. */
    function Type(): string {
      match this
      case Status(_) => "status"
      case CancelledEvent => "status"
      case BatchProgress(_, _) => "progress"
      case Complete(_) => "complete"
      case _ => "error"
    }

    /** The event's `message` field (the completion event has none). */
    function Message(): string {
      match this
      case Status(n) => n.Text()
      case BatchProgress(a, t) => "Analyzed " + IntToString(a) + "/" + IntToString(t) + " repos..."
      case BatchIssue(timedOut, a, t) =>
        (if timedOut then "Batch timed out (" else "Batch failed (") + IntToString(a) + "/" + IntToString(t) + ")"
      case Error(p) => p.Text()
      case SearchFailed(d) => "Scout search failed: " + d
      case CancelledEvent => "Search cancelled"
      case Complete(_) => ""
    }

    /** Whether the stream ends with this event. */
    predicate IsTerminal() {
      Error? || SearchFailed? || CancelledEvent? || Complete?
    }
  }

  /** One `update_search_run` call: status and the three counters. */
  datatype RunUpdate = RunUpdate(status: SearchRunStatus, discovered: nat, filtered: nat, analyzed: nat)

  /** The answer of `_check_cancelled`: the run goes on, it was cancelled,
      or the probe itself raised. */
  datatype Probe = Live | CancelRequested | ProbeFails(error: string)

  /** The message of the `AttributeError` `_check_cancelled` raises against a
      registry without `is_cancelled`. */
  const MissingProbeError := "'TaskRegistry' object has no attribute 'is_cancelled'"

  /** One page of `search_repositories`: repos and warnings. */
  datatype SearchPage = SearchPage(repos: seq<RepoMetadata>, warnings: seq<string>)

  /** The environment of one run. `probe(k)` answers the k-th cancellation
      check; `roundSize(j)` is the number of batches `asyncio.wait` reports
      done in round j (clamped to at least one and at most those pending);
      `outcome(k)` is how the k-th batch to complete ended. */
  datatype World = World(
    githubToken: string,
    search: SearchFilters -> Result<SearchPage, string>,
    tutorialRe: string -> bool,
    readmes: Result<map<string, string>, string>,
    probe: nat -> Probe,
    roundSize: nat -> nat,
    outcome: nat -> BatchOutcome)

  // ---------------------------------------------------------------------
  // _discover

  datatype Discovery = Discovery(repos: seq<RepoMetadata>, warnings: seq<string>, searches: seq<SearchFilters>)
  {
    /** `upsert_repositories` runs exactly when something was found. */
    predicate Upserts() { repos != [] }
  }

  function TopicWarning(topics: seq<string>): string
  {
    "No repos matched topic filter (" + Join(topics, ", ") + "). " + RelaxedResultsNote
  }

  /** The fixed second sentence of the topic warning. */
  const RelaxedResultsNote := "Showing results without topic filter \U{2014} topics still influence AI ranking."

  /** The note added after a relaxed search: the topic warning when it
      found repos, nothing otherwise. */
  function TopicNote(repos: seq<RepoMetadata>, topics: seq<string>): (note: seq<string>)
    ensures repos != [] ==> note == [TopicWarning(topics)]
    ensures repos == [] ==> note == []
  {
    if repos != [] then [TopicWarning(topics)] else []
  }

  /** The second half of `_discover`, once the first search found nothing
      under a topic filter: the relaxed search's repos, the first search's
      warnings, then the relaxed search's, then the note; a failed relaxed
      search fails the discovery. */
  function RelaxedDiscovery(filters: SearchFilters, first: SearchPage, second: Result<SearchPage, string>): (r: Result<Discovery, string>)
    ensures second.Failure? ==> r == Failure(second.error)
    ensures second.Success? ==>
      && r.Success?
      && r.value.searches == [filters, filters.(topics := [])]
      && r.value.repos == second.value.repos
      && r.value.warnings == first.warnings + second.value.warnings + TopicNote(second.value.repos, filters.topics)
  {
    match second
    case Failure(e) => Failure(e)
    case Success(page) =>
      var warnings := first.warnings + page.warnings + TopicNote(page.repos, filters.topics);
      Success(Discovery(page.repos, warnings, [filters, filters.(topics := [])]))
  }

  /** `_discover`: one search, and when it finds nothing while topic filters
      are set, a second search with the topics cleared; its warnings are
      appended, plus a note when the relaxed search found repos. */
  function Discover(filters: SearchFilters, search: SearchFilters -> Result<SearchPage, string>): (r: Result<Discovery, string>)
    ensures search(filters).Failure? ==> r == Failure(search(filters).error)
    ensures (search(filters).Success? && search(filters).value.repos == [] && filters.topics != []
             && search(filters.(topics := [])).Failure?) ==> r == Failure(search(filters.(topics := [])).error)
    ensures r.Success? ==>
      var first := search(filters).value;
      && 1 <= |r.value.searches| <= 2
      && r.value.searches[0] == filters
      && (|r.value.searches| == 2 <==> first.repos == [] && filters.topics != [])
      && first.warnings <= r.value.warnings
      && (|r.value.searches| == 1 ==> r.value.repos == first.repos && r.value.warnings == first.warnings)
      && (|r.value.searches| == 2 ==>
            && r.value.searches[1] == filters.(topics := [])
            && search(filters.(topics := [])).Success?
            && r.value.repos == search(filters.(topics := [])).value.repos
            && r.value.warnings == first.warnings + search(filters.(topics := [])).value.warnings
                                   + TopicNote(r.value.repos, filters.topics))
      && (|r.value.searches| == 2 && r.value.repos != [] ==>
            |r.value.warnings| > 0 && r.value.warnings[|r.value.warnings| - 1] == TopicWarning(filters.topics))
  {
    match search(filters)
    case Failure(e) => Failure(e)
    case Success(first) =>
      if first.repos == [] && filters.topics != [] then RelaxedDiscovery(filters, first, search(filters.(topics := [])))
      else Success(Discovery(first.repos, first.warnings, [filters]))
  }

  /** Discovery comes back empty exactly when the search found nothing and
      either no topic filter was set or the relaxed search found nothing
      too; a found list is the first search's when that one found anything. */
  lemma DiscoverEmptyIff(filters: SearchFilters, search: SearchFilters -> Result<SearchPage, string>)
    requires Discover(filters, search).Success?
    ensures var d := Discover(filters, search).value;
            && search(filters).Success?
            && (d.repos == [] <==>
                  search(filters).value.repos == []
                  && (filters.topics == [] || search(filters.(topics := [])).value.repos == []))
            && (search(filters).value.repos != [] ==> d.repos == search(filters).value.repos)
  {
  }

  /** The warnings grow by the relaxed search's own and the one topic note:
      a run that did not relax reports the first search's warnings only, and
      the note is there exactly when the relaxed search found repos. */
  lemma DiscoverWarningCount(filters: SearchFilters, search: SearchFilters -> Result<SearchPage, string>)
    requires Discover(filters, search).Success?
    ensures var d := Discover(filters, search).value;
            var first := search(filters).value;
            if |d.searches| == 1 then |d.warnings| == |first.warnings|
            else |d.warnings| == |first.warnings| + |search(filters.(topics := [])).value.warnings|
                                 + (if d.repos != [] then 1 else 0)
  {
  }

  // ---------------------------------------------------------------------
  // _filter_repos, _fetch_readmes

  /** `_filter_repos`: the filtered list and its first `scout_max_repos`. */
  function FilterRepos(repos: seq<RepoMetadata>, filters: SearchFilters, tutorialRe: string -> bool, maxRepos: nat): (r: (seq<RepoMetadata>, seq<RepoMetadata>))
    ensures r.0 == ApplyFilters(repos, filters.minStars, filters.maxStars, tutorialRe)
    ensures r.1 <= r.0
    ensures |r.1| == Min(|r.0|, maxRepos)
  {
    var filtered := ApplyFilters(repos, filters.minStars, filters.maxStars, tutorialRe);
    (filtered, PyPrefix(filtered, maxRepos))
  }

  function RepoKey(repo: RepoMetadata): string
  {
    repo.owner + "/" + repo.name
  }

  /** `_fetch_readmes`: the fetched READMEs looked up by `owner/name`, one per
      capped repo and in the same order. */
  function OrderedReadmes(capped: seq<RepoMetadata>, fetched: map<string, string>): (r: seq<Option<string>>)
    ensures |r| == |capped|
    ensures forall i :: 0 <= i < |capped| ==>
      (r[i].Some? <==> RepoKey(capped[i]) in fetched)
      && (r[i].Some? ==> r[i].value == fetched[RepoKey(capped[i])])
  {
    seq(|capped|, i requires 0 <= i < |capped| =>
      if RepoKey(capped[i]) in fetched then Some(fetched[RepoKey(capped[i])]) else None)
  }

  // ---------------------------------------------------------------------
  // _run_analysis

  datatype LoopEnd = AllDone | StopCancelled | StopFailed(error: string)

  datatype Analysis = Analysis(events: seq<Event>, results: seq<AnalysisResult>, end: LoopEnd)

  predicate IsAnalysisEvent(e: Event)
  {
    e.BatchProgress? || e.BatchIssue?
  }

  /** The counter an analysis event reports; zero for other events. */
  function CounterOf(e: Event): int
  {
    match e
    case BatchProgress(a, _) => a
    case BatchIssue(_, a, _) => a
    case _ => 0
  }

  function Clamp(n: nat, lo: nat, hi: nat): (r: nat)
    requires 1 <= lo <= hi
    ensures lo <= r <= hi
  {
    if n < lo then lo else if n > hi then hi else n
  }

  /** The event one batch outcome is reported as, carrying the counter
      `next`: progress for an analysed batch, an issue otherwise. */
  function OutcomeEvent(o: BatchOutcome, next: int, total: nat): (e: Event)
    ensures IsAnalysisEvent(e) && e.total == total && CounterOf(e) == next
    ensures e.BatchProgress? <==> o.Analyzed?
    ensures e.BatchIssue? ==> e.timedOut == o.BatchTimedOut?
  {
    match o
    case Analyzed(_) => BatchProgress(next, total)
    case BatchTimedOut => BatchIssue(true, next, total)
    case BatchFailed => BatchIssue(false, next, total)
  }

  /** The results after one batch outcome: an analysed batch's are appended. */
  function ResultsAfter(o: BatchOutcome, results: seq<AnalysisResult>): (r: seq<AnalysisResult>)
    ensures o.Analyzed? ==> r == results + o.results
    ensures !o.Analyzed? ==> r == results
  {
    if o.Analyzed? then results + o.results else results
  }

  /** The events of one round: `count` completed batches, starting with the
      `first`-th to complete. Results accumulate; a timed-out or failed
      batch advances the counter by the batch size, capped at the total. */
  function RoundEvents(w: World, first: nat, count: nat, results: seq<AnalysisResult>, analyzed: int, total: nat, batchSize: nat)
    : (r: (seq<Event>, seq<AnalysisResult>, int))
    ensures |r.0| == count
    ensures results <= r.1
    ensures forall i :: 0 <= i < count ==> IsAnalysisEvent(r.0[i]) && r.0[i].total == total
    ensures forall i :: 0 <= i < count ==> (r.0[i].BatchProgress? <==> w.outcome(first + i).Analyzed?)
    ensures forall i :: 0 <= i < count && r.0[i].BatchIssue? ==> r.0[i].analyzed <= total
    decreases count
  {
    if count == 0 then ([], results, analyzed)
    else
      var o := w.outcome(first);
      var next := CounterAfter(o, analyzed, batchSize, total);
      var rest := RoundEvents(w, first + 1, count - 1, ResultsAfter(o, results), next, total, batchSize);
      var events := [OutcomeEvent(o, next, total)] + rest.0;
      assert events[1..] == rest.0;
      (events, rest.1, rest.2)
  }

  /** Each event's counter follows from the one before it (from `start` for
      the first) and the outcome of the batch it reports, by `CounterAfter`. */
  predicate CountersChained(w: World, first: nat, start: int, events: seq<Event>, batchSize: nat, total: nat)
    decreases |events|
  {
    events == [] ||
      (CounterOf(events[0]) == CounterAfter(w.outcome(first), start, batchSize, total)
       && CountersChained(w, first + 1, CounterOf(events[0]), events[1..], batchSize, total))
  }

  /** The counters of one round: each event's follows from the previous
      one by the outcome it reports, and the round hands on the last. */
  lemma {:induction false} RoundCounters(w: World, first: nat, count: nat, results: seq<AnalysisResult>, analyzed: int, total: nat, batchSize: nat)
    ensures var r := RoundEvents(w, first, count, results, analyzed, total, batchSize);
            && CountersChained(w, first, analyzed, r.0, batchSize, total)
            && r.2 == if count == 0 then analyzed else CounterOf(r.0[count - 1])
    decreases count
  {
    if count > 0 {
      var o := w.outcome(first);
      var next := CounterAfter(o, analyzed, batchSize, total);
      RoundCounters(w, first + 1, count - 1, ResultsAfter(o, results), next, total, batchSize);
      var r := RoundEvents(w, first, count, results, analyzed, total, batchSize);
      var rest := RoundEvents(w, first + 1, count - 1, ResultsAfter(o, results), next, total, batchSize);
      assert r.0 == [OutcomeEvent(o, next, total)] + rest.0;
      assert r.0[1..] == rest.0;
      if count > 1 {
        assert r.0[count - 1] == rest.0[count - 2];
      }
    }
  }

  /** The chain read at one position: event `i` reports the outcome of batch
      `first + i` applied to the counter of event `i - 1`. */
  lemma {:induction false} ChainedAt(w: World, first: nat, start: int, events: seq<Event>, batchSize: nat, total: nat, i: nat)
    requires CountersChained(w, first, start, events, batchSize, total) && i < |events|
    ensures CounterOf(events[i]) == CounterAfter(w.outcome(first + i), if i == 0 then start else CounterOf(events[i - 1]), batchSize, total)
    decreases i
  {
    if i > 0 {
      ChainedAt(w, first + 1, CounterOf(events[0]), events[1..], batchSize, total, i - 1);
      assert events[1..][i - 1] == events[i];
      if i > 1 {
        assert events[1..][i - 2] == events[i - 1];
      }
    }
  }


  /** Event `i` of a round reports the counter after batch `first + i`,
      computed from the previous event's counter (the round's starting
      counter for the first): plus the batch's results when it was analysed,
      plus the batch size capped at the total when it timed out or failed. */
  lemma RoundEventCounter(w: World, first: nat, count: nat, results: seq<AnalysisResult>, analyzed: int, total: nat, batchSize: nat, i: nat)
    requires i < count
    ensures var events := RoundEvents(w, first, count, results, analyzed, total, batchSize).0;
            var prev := if i == 0 then analyzed else CounterOf(events[i - 1]);
            && (w.outcome(first + i).Analyzed? ==> CounterOf(events[i]) == prev + |w.outcome(first + i).results|)
            && (!w.outcome(first + i).Analyzed? ==> CounterOf(events[i]) == Min(prev + batchSize, total))
  {
    var events := RoundEvents(w, first, count, results, analyzed, total, batchSize).0;
    RoundCounters(w, first, count, results, analyzed, total, batchSize);
    ChainStep(w, first, analyzed, events, batchSize, total, i);
    var prev := if i == 0 then analyzed else CounterOf(events[i - 1]);
    if w.outcome(first + i).Analyzed? {
      assert CounterOf(events[i]) == prev + |w.outcome(first + i).results|;
    } else {
      assert CounterOf(events[i]) == Min(prev + batchSize, total);
    }
  }

  /** One link of a chain of counters, with `CounterAfter` spelled out. */
  lemma ChainStep(w: World, first: nat, start: int, events: seq<Event>, batchSize: nat, total: nat, i: nat)
    requires CountersChained(w, first, start, events, batchSize, total) && i < |events|
    ensures var prev := if i == 0 then start else CounterOf(events[i - 1]);
            && (w.outcome(first + i).Analyzed? ==> CounterOf(events[i]) == prev + |w.outcome(first + i).results|)
            && (!w.outcome(first + i).Analyzed? ==> CounterOf(events[i]) == Min(prev + batchSize, total))
  {
    ChainedAt(w, first, start, events, batchSize, total, i);
  }

  /** The `while pending` loop: each round first checks for cancellation
      (the probe index continues after the pipeline's three earlier
      checks), then handles the batches `asyncio.wait` reports done. */
  function AnalysisLoop(w: World, pending: nat, done: nat, round: nat, results: seq<AnalysisResult>, analyzed: int, total: nat, batchSize: nat)
    : (a: Analysis)
    ensures results <= a.results
    ensures forall i :: 0 <= i < |a.events| ==> IsAnalysisEvent(a.events[i]) && a.events[i].total == total
    ensures forall i :: 0 <= i < |a.events| && a.events[i].BatchIssue? ==> a.events[i].analyzed <= total
    ensures a.end == AllDone ==> |a.events| == pending
    ensures a.end != AllDone ==> |a.events| < pending
    ensures pending > 0 && w.probe(3 + round) == CancelRequested ==> a == Analysis([], results, StopCancelled)
    decreases pending
  {
    if pending == 0 then Analysis([], results, AllDone)
    else
      match w.probe(3 + round)
      case CancelRequested => Analysis([], results, StopCancelled)
      case ProbeFails(e) => Analysis([], results, StopFailed(e))
      case Live =>
        var size := Clamp(w.roundSize(round), 1, pending);
        var (events, results', analyzed') := RoundEvents(w, done, size, results, analyzed, total, batchSize);
        var rest := AnalysisLoop(w, pending - size, done + size, round + 1, results', analyzed', total, batchSize);
        Analysis(events + rest.events, rest.results, rest.end)
  }

  /** `_run_analysis` over the capped repos: one batch per slice of
      `scout_batch_size`, each reported exactly once when the loop runs to
      the end. */
  function RunAnalysis(w: World, capped: seq<RepoMetadata>, settings: ScoutSettings): (a: Analysis)
    ensures a.end == AllDone ==> |a.events| == |Chunk(capped, settings.batchSize)|
    ensures forall i :: 0 <= i < |a.events| && a.events[i].BatchIssue? ==> a.events[i].analyzed <= |capped|
  {
    var batches := Chunk(capped, settings.batchSize);
    AnalysisLoop(w, |batches|, 0, 0, [], 0, |capped|, settings.batchSize)
  }

  // ---------------------------------------------------------------------
  // _build_completion_event

  function NonRejected(results: seq<AnalysisResult>): (r: seq<AnalysisResult>)
    ensures forall x :: x in r <==> x in results && !x.reject
    ensures forall x :: multiset(r)[x] == if x.reject then 0 else multiset(results)[x]
  {
    if results == [] then []
    else
      assert results == [results[0]] + results[1..];
      (if results[0].reject then [] else [results[0]]) + NonRejected(results[1..])
  }

  function FitKey(r: AnalysisResult): real
  {
    r.fitScore
  }

  /** `_build_completion_event`: the run is partial when fewer results came
      back than repos were sent; the visible results are the non-rejected
      ones, best fit first, ties in arrival order. */
  function CompletionEvent(runId: string, repos: seq<RepoMetadata>, filtered: seq<RepoMetadata>, capped: seq<RepoMetadata>,
                           results: seq<AnalysisResult>, warnings: seq<string>): (r: (Event, RunUpdate))
    ensures r.0.Complete?
    ensures r.1.status == (if |results| < |capped| then Partial else Completed)
    ensures r.1 == RunUpdate(r.0.data.status, |repos|, |filtered|, |results|)
    ensures r.0.data.totalDiscovered == |repos| && r.0.data.totalFiltered == |filtered|
    ensures r.0.data.totalAnalyzed == |results| && r.0.data.repos == capped && r.0.data.warnings == warnings
    ensures SortedDesc(r.0.data.results, FitKey)
    ensures forall x :: multiset(r.0.data.results)[x] == if x.reject then 0 else multiset(results)[x]
  {
    var status := if |results| < |capped| then Partial else Completed;
    var visible := Sort(NonRejected(results), FitKey);
    (Complete(ScoutSearchResult(runId, status, |repos|, |filtered|, |results|, visible, capped, warnings)),
     RunUpdate(status, |repos|, |filtered|, |results|))
  }

  // ---------------------------------------------------------------------
  // scout_search_stream

  datatype Trace = Trace(events: seq<Event>, update: RunUpdate)

  /** Events yielded before the end: the opening status and nothing terminal. */
  ghost predicate OpenPrefix(events: seq<Event>)
  {
    && |events| >= 1
    && events[0] == Status(Searching)
    && forall i :: 0 <= i < |events| ==> !events[i].IsTerminal()
  }

  /** The last event agrees with the run status recorded for it. */
  ghost predicate Agrees(last: Event, update: RunUpdate)
  {
    && last.IsTerminal()
    && (update.status == SearchRunStatus.Cancelled <==> last.CancelledEvent?)
    && (update.status == SearchRunStatus.Failed <==> last.SearchFailed?)
    && (update.status == Partial ==> last.Complete?)
    && update.status != Running
    && (last.Complete? ==> last.data.status == update.status && update.analyzed == last.data.totalAnalyzed)
  }

  /** The well-formedness every run satisfies: the opening status, a single
      terminal event at the end, agreeing with the recorded run status. */
  ghost predicate WellFormed(t: Trace)
  {
    && |t.events| >= 2
    && OpenPrefix(t.events[..|t.events| - 1])
    && Agrees(t.events[|t.events| - 1], t.update)
  }

  /** Ends the stream with `last`, recording `update`. */
  function Close(events: seq<Event>, last: Event, update: RunUpdate): (t: Trace)
    requires OpenPrefix(events) && Agrees(last, update)
    ensures WellFormed(t)
    ensures t.events == events + [last] && t.update == update
  {
    assert (events + [last])[..|events|] == events;
    Trace(events + [last], update)
  }

  lemma ExtendOpen(events: seq<Event>, more: seq<Event>)
    requires OpenPrefix(events)
    requires forall i :: 0 <= i < |more| ==> !more[i].IsTerminal()
    ensures OpenPrefix(events + more)
  {
  }

  function FailTrace(events: seq<Event>, error: string): (t: Trace)
    requires OpenPrefix(events)
    ensures WellFormed(t)
    ensures t.update == RunUpdate(SearchRunStatus.Failed, 0, 0, 0)
  {
    Close(events, SearchFailed(error), RunUpdate(SearchRunStatus.Failed, 0, 0, 0))
  }

  function CancelTrace(events: seq<Event>): (t: Trace)
    requires OpenPrefix(events)
    ensures WellFormed(t)
    ensures t.update == RunUpdate(SearchRunStatus.Cancelled, 0, 0, 0)
  {
    Close(events, CancelledEvent, RunUpdate(SearchRunStatus.Cancelled, 0, 0, 0))
  }

  /** A checkpoint: `_check_cancelled` with probe index `k`, then `next`. */
  function Checkpoint(w: World, k: nat, events: seq<Event>, next: Trace): (t: Trace)
    requires OpenPrefix(events) && WellFormed(next)
    ensures WellFormed(t)
    ensures w.probe(k) == Live ==> t == next
    ensures w.probe(k) == CancelRequested ==> t == CancelTrace(events)
    ensures w.probe(k).ProbeFails? ==> t == FailTrace(events, w.probe(k).error)
  {
    match w.probe(k)
    case Live => next
    case CancelRequested => CancelTrace(events)
    case ProbeFails(e) => FailTrace(events, e)
  }

  /** The stages from filtering on, once discovery found repos; the first
      cancellation check precedes them. */
  function FilterStage(filters: SearchFilters, runId: string, settings: ScoutSettings, w: World,
                       d: Discovery, events: seq<Event>): (t: Trace)
    requires OpenPrefix(events)
    ensures WellFormed(t)
    ensures w.probe(0) == CancelRequested ==> t == CancelTrace(events)
    ensures w.probe(0).ProbeFails? ==> t == FailTrace(events, w.probe(0).error)
  {
    var r := FilterRepos(d.repos, filters, w.tutorialRe, settings.maxRepos);
    Checkpoint(w, 0, events, FilteredStage(runId, settings, w, d, r.0, r.1, events))
  }

  /** Filtering reported; nothing passing ends the run, otherwise the second
      cancellation check precedes the README stage. */
  function FilteredStage(runId: string, settings: ScoutSettings, w: World, d: Discovery,
                         filtered: seq<RepoMetadata>, capped: seq<RepoMetadata>, events: seq<Event>): (t: Trace)
    requires OpenPrefix(events)
    ensures WellFormed(t)
  {
    var more := [Status(FilteringCandidates), Status(PassedFilters(|filtered|))];
    ExtendOpen(events, more);
    if filtered == [] then NothingPassed(events + more, |d.repos|)
    else Checkpoint(w, 1, events + more, ReadmeStage(runId, settings, w, d, filtered, capped, events + more))
  }

  function NothingPassed(events: seq<Event>, discovered: nat): (t: Trace)
    requires OpenPrefix(events)
    ensures WellFormed(t)
    ensures t.update == RunUpdate(Completed, discovered, 0, 0)
  {
    Close(events, Error(AllFilteredOut), RunUpdate(Completed, discovered, 0, 0))
  }

  /** README fetching, then the third cancellation check. */
  function ReadmeStage(runId: string, settings: ScoutSettings, w: World, d: Discovery,
                       filtered: seq<RepoMetadata>, capped: seq<RepoMetadata>, events: seq<Event>): (t: Trace)
    requires OpenPrefix(events)
    ensures WellFormed(t)
  {
    var e2 := events + [Status(FetchingReadmes(|capped|))];
    match w.readmes
    case Failure(e) => FailTrace(e2, e)
    case Success(_) => Checkpoint(w, 2, e2, AnalysisStage(runId, settings, w, d, filtered, capped, e2))
  }

  /** The analysis loop and, when it runs to the end, the completion event. */
  function AnalysisStage(runId: string, settings: ScoutSettings, w: World, d: Discovery,
                         filtered: seq<RepoMetadata>, capped: seq<RepoMetadata>, events: seq<Event>): (t: Trace)
    requires OpenPrefix(events)
    ensures WellFormed(t)
  {
    var a := RunAnalysis(w, capped, settings);
    var e3 := events + ([Status(StartingAnalysis)] + a.events);
    ExtendOpen(events, [Status(StartingAnalysis)] + a.events);
    match a.end
    case StopCancelled => CancelTrace(e3)
    case StopFailed(e) => FailTrace(e3, e)
    case AllDone =>
      var (complete, update) := CompletionEvent(runId, d.repos, filtered, capped, a.results, d.warnings);
      Close(e3, complete, update)
  }

  /** `scout_search_stream`: the full pipeline, as the events it yields and
      the one run-status update it records. */
  function ScoutSearchStream(filters: SearchFilters, runId: string, settings: ScoutSettings, w: World): (t: Trace)
    ensures WellFormed(t)
  {
    var e0 := [Status(Searching)];
    if w.githubToken == "" then
      FailTrace(e0, "GITHUB_TOKEN is not configured \U{2014} token is required")
    else
      match Discover(filters, w.search)
      case Failure(e) => FailTrace(e0, e)
      case Success(d) => DiscoveryStage(filters, runId, settings, w, d)
  }

  /** Discovery reported: nothing found ends the run, otherwise filtering
      follows. */
  function DiscoveryStage(filters: SearchFilters, runId: string, settings: ScoutSettings, w: World, d: Discovery): (t: Trace)
    ensures WellFormed(t)
    ensures d.repos == [] ==> t == Close([Status(Searching), Status(Discovered(0))], Error(NoRepositories), RunUpdate(Completed, 0, 0, 0))
    ensures d.repos != [] ==> t == FilterStage(filters, runId, settings, w, d, [Status(Searching), Status(Discovered(|d.repos|))])
  {
    var e1 := [Status(Searching), Status(Discovered(|d.repos|))];
    if d.repos == [] then Close(e1, Error(NoRepositories), RunUpdate(Completed, 0, 0, 0))
    else FilterStage(filters, runId, settings, w, d, e1)
  }

  // ---------------------------------------------------------------------
  // Properties of whole runs

  /** A search that discovers nothing completes with zero counters and an
      error event telling the user to broaden the filters. */
  lemma NothingDiscoveredCompletes(filters: SearchFilters, runId: string, settings: ScoutSettings, w: World)
    requires w.githubToken != ""
    requires Discover(filters, w.search).Success? && Discover(filters, w.search).value.repos == []
    ensures ScoutSearchStream(filters, runId, settings, w).update == RunUpdate(Completed, 0, 0, 0)
    ensures ScoutSearchStream(filters, runId, settings, w).events[2]
         == Error(NoRepositories)
  {
  }

  /** A cancellation seen at the first check after discovery records the
      run as cancelled with zero counters and ends with the cancelled
      event. */
  lemma CancelAfterDiscovery(filters: SearchFilters, runId: string, settings: ScoutSettings, w: World)
    requires w.githubToken != ""
    requires Discover(filters, w.search).Success? && Discover(filters, w.search).value.repos != []
    requires w.probe(0) == CancelRequested
    ensures ScoutSearchStream(filters, runId, settings, w).update == RunUpdate(SearchRunStatus.Cancelled, 0, 0, 0)
    ensures ScoutSearchStream(filters, runId, settings, w).events
         == [Status(Searching),
             Status(Discovered(|Discover(filters, w.search).value.repos|)),
             CancelledEvent]
  {
    var d := Discover(filters, w.search).value;
    var e1 := [Status(Searching), Status(Discovered(|d.repos|))];
    assert ScoutSearchStream(filters, runId, settings, w) == DiscoveryStage(filters, runId, settings, w, d);
    assert DiscoveryStage(filters, runId, settings, w, d) == FilterStage(filters, runId, settings, w, d, e1);
    assert FilterStage(filters, runId, settings, w, d, e1) == CancelTrace(e1);
    assert CancelTrace(e1).events == e1 + [CancelledEvent];
  }

  /** The registry has no `is_cancelled`, so as written the first check
      raises: every search that discovers repos ends as failed, before
      filtering is reported. */
  lemma MissingProbeFailsEveryRun(filters: SearchFilters, runId: string, settings: ScoutSettings, w: World)
    requires w.githubToken != ""
    requires Discover(filters, w.search).Success? && Discover(filters, w.search).value.repos != []
    requires forall k :: w.probe(k) == ProbeFails(MissingProbeError)
    ensures ScoutSearchStream(filters, runId, settings, w).update == RunUpdate(SearchRunStatus.Failed, 0, 0, 0)
    ensures |ScoutSearchStream(filters, runId, settings, w).events| == 3
    ensures ScoutSearchStream(filters, runId, settings, w).events[2] == SearchFailed(MissingProbeError)
  {
    assert w.probe(0) == ProbeFails(MissingProbeError);
  }

  /** With no cancellation, the analysis loop runs to the end and reports
      every batch exactly once, however the completions are grouped into
      rounds. */
  lemma FullAnalysisCompletes(w: World, capped: seq<RepoMetadata>, settings: ScoutSettings)
    requires forall k :: w.probe(k) == Live
    ensures RunAnalysis(w, capped, settings).end == AllDone
    ensures |RunAnalysis(w, capped, settings).events| == |Chunk(capped, settings.batchSize)|
  {
    var batches := Chunk(capped, settings.batchSize);
    LiveLoopFinishes(w, |batches|, 0, 0, [], 0, |capped|, settings.batchSize);
  }

  lemma {:induction false} LiveLoopFinishes(w: World, pending: nat, done: nat, round: nat, results: seq<AnalysisResult>,
                                            analyzed: int, total: nat, batchSize: nat)
    requires forall k :: w.probe(k) == Live
    ensures AnalysisLoop(w, pending, done, round, results, analyzed, total, batchSize).end == AllDone
    decreases pending
  {
    if pending > 0 {
      assert w.probe(3 + round) == Live;
      var size := Clamp(w.roundSize(round), 1, pending);
      var round' := RoundEvents(w, done, size, results, analyzed, total, batchSize);
      LiveLoopFinishes(w, pending - size, done + size, round + 1, round'.1, round'.2, total, batchSize);
    }
  }
}

=== FILE: scout_schemas.dfy ===
/** The GitHub Scout records of `schemas/scout.py` and their field bounds.
    Pydantic's validation becomes a constructor function returning `Result`;
    the error text names the offending field (Pydantic's own wording is not
    modelled, except for the star-range validator's message). */
module ScoutSchemas {
  import opened Wrappers

  datatype SkillLevel = Beginner | Intermediate | Advanced {
    function Value(): string {
      match this
      case Beginner => "beginner"
      case Intermediate => "intermediate"
      case Advanced => "advanced"
    }
  }

  /** The `Literal["beginner", "intermediate", "advanced"]` check. */
  function ParseSkillLevel(s: string): (r: Option<SkillLevel>)
    ensures r.Some? <==> s in {"beginner", "intermediate", "advanced"}
    ensures r.Some? ==> r.value.Value() == s
  {
    if s == "beginner" then Some(Beginner)
    else if s == "intermediate" then Some(Intermediate)
    else if s == "advanced" then Some(Advanced)
    else None
  }

  lemma SkillLevelRoundTrip(l: SkillLevel)
    ensures ParseSkillLevel(l.Value()) == Some(l)
  {
  }

  datatype DeveloperProfile = DeveloperProfile(
    languages: seq<string>,
    topics: seq<string>,
    skillLevel: SkillLevel,
    goals: string)

  const MaxGoalsLength := 500

  ghost predicate ValidProfile(p: DeveloperProfile)
  {
    |p.languages| >= 1 && |p.goals| <= MaxGoalsLength
  }

  /** `DeveloperProfile(...)`: at least one language, a known skill level
      (default "intermediate"), goals of at most 500 characters (default ""). */
  function MakeDeveloperProfile(languages: seq<string>, topics: seq<string>,
                                skillLevel: Option<string>, goals: Option<string>): (r: Result<DeveloperProfile, string>)
    ensures r.Success? <==>
      && |languages| >= 1
      && (skillLevel.None? || ParseSkillLevel(skillLevel.value).Some?)
      && |goals.GetOr("")| <= MaxGoalsLength
    ensures r.Success? ==> ValidProfile(r.value)
    ensures r.Success? ==> r.value.languages == languages && r.value.topics == topics
    ensures r.Success? && skillLevel.None? ==> r.value.skillLevel == Intermediate
    ensures r.Success? && goals.None? ==> r.value.goals == ""
  {
    var level := if skillLevel.None? then Some(Intermediate) else ParseSkillLevel(skillLevel.value);
    if |languages| < 1 then Failure("languages")
    else if level.None? then Failure("skill_level")
    else if |goals.GetOr("")| > MaxGoalsLength then Failure("goals")
    else Success(DeveloperProfile(languages, topics, level.value, goals.GetOr("")))
  }

  datatype SearchFilters = SearchFilters(
    languages: seq<string>,
    minStars: int,
    maxStars: int,
    topics: seq<string>,
    minActivityDate: Option<string>,
    license: Option<string>)

  const DefaultMinStars := 10
  const DefaultMaxStars := 50000

  ghost predicate ValidFilters(f: SearchFilters)
  {
    |f.languages| >= 1 && 0 <= f.minStars <= f.maxStars
  }

  /** `SearchFilters(...)` with its field bounds and `validate_star_range`. */
  function MakeSearchFilters(languages: seq<string>, minStars: int, maxStars: int, topics: seq<string>,
                             minActivityDate: Option<string>, license: Option<string>): (r: Result<SearchFilters, string>)
    ensures r.Success? <==> |languages| >= 1 && minStars >= 0 && maxStars >= 0 && minStars <= maxStars
    ensures r.Success? ==> ValidFilters(r.value)
    ensures r.Success? ==> r.value == SearchFilters(languages, minStars, maxStars, topics, minActivityDate, license)
    ensures |languages| >= 1 && minStars >= 0 && maxStars >= 0 && minStars > maxStars ==>
      r == Failure("min_stars must be <= max_stars")
  {
    if |languages| < 1 then Failure("languages")
    else if minStars < 0 then Failure("min_stars")
    else if maxStars < 0 then Failure("max_stars")
    else if minStars > maxStars then Failure("min_stars must be <= max_stars")
    else Success(SearchFilters(languages, minStars, maxStars, topics, minActivityDate, license))
  }

  /** The defaults: 10..50000 stars, no topics, no date, no license. */
  lemma DefaultFiltersValid(languages: seq<string>)
    requires |languages| >= 1
    ensures MakeSearchFilters(languages, DefaultMinStars, DefaultMaxStars, [], None, None).Success?
  {
  }

  /** Equal bounds are an accepted star range. */
  lemma EqualStarBoundsAccepted(languages: seq<string>, stars: nat)
    requires |languages| >= 1
    ensures MakeSearchFilters(languages, stars, stars, [], None, None).Success?
  {
  }

  datatype RepoMetadata = RepoMetadata(
    githubId: int,
    owner: string,
    name: string,
    url: string,
    description: Option<string>,
    primaryLanguage: Option<string>,
    languages: seq<string>,
    starCount: int,
    forkCount: int,
    openIssueCount: int,
    topics: seq<string>,
    license: Option<string>,
    pushedAt: Option<string>,
    createdAt: Option<string>,
    goodFirstIssueCount: int,
    helpWantedCount: int)

  /** A fit score lies in [0, 10]. */
  type FitScore = r: real | 0.0 <= r <= 10.0

  datatype AnalysisResult = AnalysisResult(
    repo: string,
    fitScore: FitScore,
    reason: string,
    contributions: seq<string>,
    reject: bool,
    rejectReason: Option<string>)

  /** `AnalysisResult(...)`: the fit score must lie in [0, 10]; omitted
      fields take their defaults (no contributions, not rejected, no reason). */
  function MakeAnalysisResult(repo: string, fitScore: real, reason: string): (r: Result<AnalysisResult, string>)
    ensures r.Success? <==> 0.0 <= fitScore <= 10.0
    ensures r.Success? ==> r.value.fitScore == fitScore && r.value.repo == repo && r.value.reason == reason
    ensures r.Success? ==> r.value.contributions == [] && !r.value.reject && r.value.rejectReason == None
  {
    if 0.0 <= fitScore <= 10.0 then Success(AnalysisResult(repo, fitScore, reason, [], false, None))
    else Failure("fit_score")
  }

  /** `SearchRunStatus`: exactly five values. */
  datatype SearchRunStatus = Running | Completed | Failed | Cancelled | Partial {
    function Value(): string {
      match this
      case Running => "running"
      case Completed => "completed"
      case Failed => "failed"
      case Cancelled => "cancelled"
      case Partial => "partial"
    }
  }

  function ParseRunStatus(s: string): (r: Option<SearchRunStatus>)
    ensures r.Some? <==> s in {"running", "completed", "failed", "cancelled", "partial"}
    ensures r.Some? ==> r.value.Value() == s
  {
    if s == "running" then Some(Running)
    else if s == "completed" then Some(Completed)
    else if s == "failed" then Some(Failed)
    else if s == "cancelled" then Some(Cancelled)
    else if s == "partial" then Some(Partial)
    else None
  }

  lemma RunStatusRoundTrip(st: SearchRunStatus)
    ensures ParseRunStatus(st.Value()) == Some(st)
  {
  }

  datatype ScoutSearchResult = ScoutSearchResult(
    runId: string,
    status: SearchRunStatus,
    totalDiscovered: nat,
    totalFiltered: nat,
    totalAnalyzed: nat,
    results: seq<AnalysisResult>,
    repos: seq<RepoMetadata>,
    warnings: seq<string>)
}

=== FILE: seqs.dfy ===
/** Generic sequence helpers: Python prefix slicing, concatenation of
    sub-sequences and splitting into fixed-size batches. */
module Seqs {

  function Min(a: int, b: int): int { if a <= b then a else b }

  function Max(a: int, b: int): int { if a >= b then a else b }

  /** Python's `s[:n]`: a non-negative `n` keeps at most `n` elements, a
      negative `n` drops the last `-n` elements. */
  function PyPrefix<T>(s: seq<T>, n: int): (r: seq<T>)
    ensures r <= s
    ensures n >= 0 ==> |r| == Min(n, |s|)
    ensures n < 0 ==> |r| == Max(0, |s| + n)
  {
    if n >= 0 then s[..Min(n, |s|)] else s[..Max(0, |s| + n)]
  }

  /** A subset is no larger than its superset. */
  lemma {:induction false} SubsetSize<T>(a: set<T>, b: set<T>)
    requires a <= b
    ensures |a| <= |b|
    decreases a
  {
    if a != {} {
      var x :| x in a;
      SubsetSize(a - {x}, b - {x});
    }
  }

  /** Concatenation of a sequence of sequences. */
  function Flatten<T>(ss: seq<seq<T>>): seq<T>
  {
    if ss == [] then [] else ss[0] + Flatten(ss[1..])
  }

  lemma {:induction false} FlattenAppend<T>(a: seq<seq<T>>, b: seq<seq<T>>)
    ensures Flatten(a + b) == Flatten(a) + Flatten(b)
  {
    if a == [] {
      assert a + b == b;
    } else {
      assert (a + b)[1..] == a[1..] + b;
      FlattenAppend(a[1..], b);
    }
  }

  /** Every element of every part is in the concatenation. */
  lemma {:induction false} InFlatten<T>(ss: seq<seq<T>>, i: nat, j: nat)
    requires i < |ss| && j < |ss[i]|
    ensures ss[i][j] in Flatten(ss)
  {
    if i > 0 {
      InFlatten(ss[1..], i - 1, j);
    }
  }

  /** Parts of one common length `m` add up to `m` per part. */
  lemma {:induction false} FlattenUniformLength<T>(ss: seq<seq<T>>, m: nat)
    requires forall k :: 0 <= k < |ss| ==> |ss[k]| == m
    ensures |Flatten(ss)| == m * |ss|
  {
    if ss != [] {
      FlattenUniformLength(ss[1..], m);
      assert m * |ss| == m + m * |ss[1..]|;
    }
  }

  /** Parts of one common length `m` are laid out at multiples of `m`. */
  lemma {:induction false} FlattenUniformAt<T>(ss: seq<seq<T>>, m: nat, i: nat, j: nat)
    requires forall k :: 0 <= k < |ss| ==> |ss[k]| == m
    requires i < |ss| && j < m
    ensures m * i + j < |Flatten(ss)| && Flatten(ss)[m * i + j] == ss[i][j]
  {
    assert Flatten(ss) == ss[0] + Flatten(ss[1..]);
    if i > 0 {
      FlattenUniformAt(ss[1..], m, i - 1, j);
      assert m * i + j == m * (i - 1) + j + m;
    }
  }

  /** The batches of `batch_repos`: consecutive slices of length `n`, the
      last one possibly shorter. */
  function Chunk<T>(s: seq<T>, n: nat): (r: seq<seq<T>>)
    requires n > 0
    ensures Flatten(r) == s
    ensures forall i :: 0 <= i < |r| ==> 0 < |r[i]| <= n
    ensures forall i :: 0 <= i < |r| - 1 ==> |r[i]| == n
    ensures (|r| - 1) * n < |s| <= |r| * n
    decreases |s|
  {
    if |s| == 0 then []
    else if |s| <= n then [s]
    else [s[..n]] + Chunk(s[n..], n)
  }

  // ---------------------------------------------------------------------
  // Completion orders

  /** `0, 1, ..., n-1`: list order. */
  function Indices(n: nat): (r: seq<nat>)
    ensures |r| == n
    ensures forall i :: 0 <= i < n ==> r[i] == i
  {
    seq(n, i => i)
  }

  predicate InRange(order: seq<nat>, n: nat)
  {
    forall i :: 0 <= i < |order| ==> order[i] < n
  }

  /** `order` lists the tasks `0..n-1` once each: the order in which `n`
      concurrent tasks complete. (The range is implied by the multiset;
      it is spelled out for the callers that index by it.) */
  predicate IsOrder(order: seq<nat>, n: nat)
  {
    && InRange(order, n)
    && multiset(order) == multiset(Indices(n))
  }

  /** Every task completes somewhere in the order. */
  lemma OrderCovers(order: seq<nat>, n: nat, j: nat)
    requires IsOrder(order, n) && j < n
    ensures j in order
  {
    assert Indices(n)[j] == j;
    assert j in multiset(Indices(n));
  }

  /** `f` applied to every element. */
  function Map<A, B>(s: seq<A>, f: A -> B): (r: seq<B>)
    ensures |r| == |s|
    ensures forall i :: 0 <= i < |s| ==> r[i] == f(s[i])
  {
    seq(|s|, i requires 0 <= i < |s| => f(s[i]))
  }

  lemma MapAppend<A, B>(u: seq<A>, v: seq<A>, f: A -> B)
    ensures Map(u + v, f) == Map(u, f) + Map(v, f)
  {
  }

  /** Taking out the element at `k` takes one copy out of the multiset. */
  lemma RemoveAt<A>(b: seq<A>, k: nat)
    requires k < |b|
    ensures b == b[..k] + [b[k]] + b[k + 1..]
    ensures multiset(b[..k] + b[k + 1..]) == multiset(b) - multiset{b[k]}
  {
    assert b == b[..k] + [b[k]] + b[k + 1..];
  }

  /** Reordering the input reorders the images the same way. */
  lemma {:induction false} MapPermutation<A, B>(a: seq<A>, b: seq<A>, f: A -> B)
    requires multiset(a) == multiset(b)
    ensures multiset(Map(a, f)) == multiset(Map(b, f))
    decreases |a|
  {
    if a == [] {
      assert |b| == |multiset(b)| == 0;
    } else {
      var x := a[0];
      assert x in multiset(b);
      var k :| 0 <= k < |b| && b[k] == x;
      RemoveAt(b, k);
      var b' := b[..k] + b[k + 1..];
      assert a == [x] + a[1..];
      MapPermutation(a[1..], b', f);
      MapAppend([x], a[1..], f);
      MapAppend(b[..k] + [x], b[k + 1..], f);
      MapAppend(b[..k], [x], f);
      MapAppend(b[..k], b[k + 1..], f);
    }
  }
}

=== FILE: session_store.dfy ===
/** The in-memory interview-session store (`services/session_store.py`):
    sessions keyed by id, each visible for a fixed time after it was
    created. The clock is a parameter: `now` and `createdAt` are UTC
    seconds. */
module SessionStore {
  import opened Wrappers

  /** One interview session; `createdAt` is taken from the clock when the
      session is created. */
  datatype Session = Session(
    sessionId: string,
    companyName: string,
    role: string,
    roleDescription: Option<string>,
    createdAt: real)

  /** The sessions by id, and how long (in seconds) each stays visible. */
  datatype Store = Store(sessions: map<string, Session>, ttl: real)

  const DefaultTtlHours := 24

  const SecondsPerHour := 3600

  /** An empty store whose sessions live `ttlHours` hours. */
  function NewStore(ttlHours: int): (s: Store)
    ensures s.sessions == map[]
    ensures s.ttl == (ttlHours * SecondsPerHour) as real
  {
    Store(map[], (ttlHours * SecondsPerHour) as real)
  }

  /** The store every request uses: one day of life per session. */
  function DefaultStore(): (s: Store)
    ensures s.sessions == map[] && s.ttl == 86400.0
  {
    NewStore(DefaultTtlHours)
  }

  datatype Created = Created(store: Store, session: Session)

  /** `create`: a new session stamped `now`, stored under its id in place
      of any earlier session with that id. */
  function Create(s: Store, id: string, companyName: string, role: string,
                  roleDescription: Option<string>, now: real): (r: Created)
    ensures r.session == Session(id, companyName, role, roleDescription, now)
    ensures r.store.ttl == s.ttl
    ensures id in r.store.sessions && r.store.sessions[id] == r.session
    ensures forall k :: k != id ==> (k in r.store.sessions <==> k in s.sessions)
    ensures forall k :: k != id && k in s.sessions ==> r.store.sessions[k] == s.sessions[k]
  {
    var session := Session(id, companyName, role, roleDescription, now);
    Created(s.(sessions := s.sessions[id := session]), session)
  }

  /** The session is still young at `now`. */
  predicate Live(s: Store, x: Session, now: real)
  {
    now - x.createdAt < s.ttl
  }

  /** `get`: the stored session while it is younger than the time to live,
      and nothing otherwise. The store is not changed: an expired session
      stays stored, only unseen. */
  function Get(s: Store, id: string, now: real): (r: Option<Session>)
    ensures r.Some? <==> id in s.sessions && now - s.sessions[id].createdAt < s.ttl
    ensures r.Some? ==> r.value == s.sessions[id]
    ensures id !in s.sessions ==> r == None
  {
    if id in s.sessions && Live(s, s.sessions[id], now) then Some(s.sessions[id]) else None
  }

  /** A session just created is returned until its time to live has
      passed, and not after. */
  lemma CreateThenGet(s: Store, id: string, companyName: string, role: string,
                      roleDescription: Option<string>, now: real, later: real)
    ensures var c := Create(s, id, companyName, role, roleDescription, now);
            Get(c.store, id, later) == (if later - now < s.ttl then Some(c.session) else None)
  {
  }

  /** Creating one session leaves what every other id returns unchanged. */
  lemma CreateLeavesOthers(s: Store, id: string, other: string, companyName: string, role: string,
                           roleDescription: Option<string>, now: real, at: real)
    requires other != id
    ensures Get(Create(s, id, companyName, role, roleDescription, now).store, other, at) == Get(s, other, at)
  {
  }

  /** Re-creating a session under the same id replaces it: the older one
      is never returned again. */
  lemma CreateReplaces(s: Store, id: string, companyName: string, role: string,
                       roleDescription: Option<string>, now: real, at: real)
    requires id in s.sessions && s.sessions[id].createdAt != now
    ensures var r := Get(Create(s, id, companyName, role, roleDescription, now).store, id, at);
            r != Some(s.sessions[id])
  {
  }

  /** Expiry is final: once a session is unseen, it stays unseen as the
      clock moves forward. */
  lemma ExpiryIsFinal(s: Store, id: string, t1: real, t2: real)
    requires t1 <= t2 && Get(s, id, t1).None?
    ensures Get(s, id, t2).None?
  {
  }

  /** An expired session is still in the store although `get` hides it. */
  lemma ExpiredStaysStored(s: Store, id: string, now: real)
    requires id in s.sessions && now - s.sessions[id].createdAt >= s.ttl
    ensures Get(s, id, now) == None && id in s.sessions
  {
  }

  /** A session is visible for a whole day in the default store and gone
      once the day is over. */
  lemma DefaultLifetime(id: string, companyName: string, role: string, now: real)
    ensures var c := Create(DefaultStore(), id, companyName, role, None, now);
            && Get(c.store, id, now + 86399.0) == Some(c.session)
            && Get(c.store, id, now + 86400.0) == None
  {
    CreateThenGet(DefaultStore(), id, companyName, role, None, now, now + 86399.0);
    CreateThenGet(DefaultStore(), id, companyName, role, None, now, now + 86400.0);
  }
}

=== FILE: stable_sort.dfy ===
/** Python's `list.sort(key=..., reverse=True)` / `sorted(..., reverse=True)`:
    a stable sort into non-increasing key order. Python documents that
    `reverse=True` keeps the stability of equal keys, so elements with equal
    keys keep their input order. */
module StableSort {

  ghost predicate SortedDesc<T>(s: seq<T>, key: T -> real)
  {
    forall i, j :: 0 <= i < j < |s| ==> key(s[i]) >= key(s[j])
  }

  /** The elements of `s` whose key is `k`, in order. Stability means this
      subsequence is the same before and after sorting, for every `k`. */
  function WithKey<T>(s: seq<T>, key: T -> real, k: real): seq<T>
  {
    if s == [] then []
    else (if key(s[0]) == k then [s[0]] else []) + WithKey(s[1..], key, k)
  }

  lemma {:induction false} WithKeyAppend<T>(a: seq<T>, b: seq<T>, key: T -> real, k: real)
    ensures WithKey(a + b, key, k) == WithKey(a, key, k) + WithKey(b, key, k)
  {
    if a == [] {
      assert a + b == b;
    } else {
      var h := if key(a[0]) == k then [a[0]] else [];
      assert (a + b)[0] == a[0] && (a + b)[1..] == a[1..] + b;
      assert WithKey(a + b, key, k) == h + WithKey(a[1..] + b, key, k);
      assert WithKey(a, key, k) == h + WithKey(a[1..], key, k);
      WithKeyAppend(a[1..], b, key, k);
    }
  }

  lemma {:induction false} WithKeyNone<T>(s: seq<T>, key: T -> real, k: real)
    requires forall i :: 0 <= i < |s| ==> key(s[i]) != k
    ensures WithKey(s, key, k) == []
  {
    if s != [] {
      WithKeyNone(s[1..], key, k);
    }
  }

  /** Inserts `x` after every element whose key is at least `key(x)`. */
  function Insert<T>(x: T, s: seq<T>, key: T -> real): (r: seq<T>)
    requires SortedDesc(s, key)
    ensures SortedDesc(r, key)
    ensures multiset(r) == multiset(s) + multiset{x}
    ensures |r| == |s| + 1
    ensures r[0] == x || (s != [] && r[0] == s[0])
  {
    if s == [] then [x]
    else if key(s[0]) >= key(x) then
      var t := Insert(x, s[1..], key);
      assert s == [s[0]] + s[1..];
      assert key(s[0]) >= key(t[0]);
      ConsSorted(s[0], t, key);
      [s[0]] + t
    else
      ConsSorted(x, s, key);
      [x] + s
  }

  /** A head whose key is at least the first key keeps a sorted tail sorted. */
  lemma ConsSorted<T>(h: T, t: seq<T>, key: T -> real)
    requires SortedDesc(t, key) && (t == [] || key(h) >= key(t[0]))
    ensures SortedDesc([h] + t, key)
  {
    var r := [h] + t;
    forall i, j | 0 <= i < j < |r|
      ensures key(r[i]) >= key(r[j])
    {
      if i == 0 {
        assert r[j] == t[j - 1] && key(t[0]) >= key(t[j - 1]);
      } else {
        assert r[i] == t[i - 1] && r[j] == t[j - 1];
      }
    }
  }

  lemma {:induction false} InsertStable<T>(x: T, s: seq<T>, key: T -> real, k: real)
    requires SortedDesc(s, key)
    ensures WithKey(Insert(x, s, key), key, k) == WithKey(s, key, k) + WithKey([x], key, k)
  {
    if s == [] {
      assert Insert(x, s, key) == [x];
    } else if key(s[0]) >= key(x) {
      InsertStable(x, s[1..], key, k);
      InsertAfterHead(x, s, Insert(x, s[1..], key), key, k);
    } else {
      InsertFrontStable(x, s, key, k);
    }
  }

  /** The head of `s` stays in front of the insertion into the rest. */
  lemma InsertAfterHead<T>(x: T, s: seq<T>, t: seq<T>, key: T -> real, k: real)
    requires s != []
    requires WithKey(t, key, k) == WithKey(s[1..], key, k) + WithKey([x], key, k)
    ensures WithKey([s[0]] + t, key, k) == WithKey(s, key, k) + WithKey([x], key, k)
  {
    var h := if key(s[0]) == k then [s[0]] else [];
    var r := [s[0]] + t;
    assert r[0] == s[0] && r[1..] == t;
    assert WithKey(r, key, k) == h + WithKey(t, key, k);
    assert WithKey(s, key, k) == h + WithKey(s[1..], key, k);
  }

  /** `x` goes in front when its key beats the head's: nothing with its
      key is already there. */
  lemma InsertFrontStable<T>(x: T, s: seq<T>, key: T -> real, k: real)
    requires SortedDesc(s, key) && s != [] && key(s[0]) < key(x)
    ensures WithKey(Insert(x, s, key), key, k) == WithKey(s, key, k) + WithKey([x], key, k)
  {
    assert Insert(x, s, key) == [x] + s;
    WithKeyAppend([x], s, key, k);
    if key(x) == k {
      assert forall i :: 0 <= i < |s| ==> key(s[i]) <= key(s[0]);
      WithKeyNone(s, key, k);
    }
  }

  /** The stable descending sort, by insertion of each element in input order. */
  function Sort<T>(s: seq<T>, key: T -> real): (r: seq<T>)
    ensures SortedDesc(r, key)
    ensures multiset(r) == multiset(s)
    ensures |r| == |s|
  {
    if s == [] then []
    else
      assert s == s[..|s| - 1] + [s[|s| - 1]];
      Insert(s[|s| - 1], Sort(s[..|s| - 1], key), key)
  }

  /** Stability: for every key value, the elements with that key appear in
      the sorted output in the same order as in the input. */
  lemma {:induction false} SortStable<T>(s: seq<T>, key: T -> real, k: real)
    ensures WithKey(Sort(s, key), key, k) == WithKey(s, key, k)
  {
    if s != [] {
      var init, last := s[..|s| - 1], s[|s| - 1];
      assert s == init + [last];
      var sorted := Sort(init, key);
      assert Sort(s, key) == Insert(last, sorted, key);
      SortStable(init, key, k);
      InsertStable(last, sorted, key, k);
      WithKeyAppend(init, [last], key, k);
    }
  }
}

=== FILE: task_registry.dfy ===
/** The task registry of `task_registry.py`: a map from session id to the
    in-flight streamed agent runs registered under it, and the wrapper
    `run_agent_streamed` that registers a run, drains it under a timeout and
    always unregisters it.

    The registry is a value; every operation returns the next registry
    together with the handles it cancelled in immediate mode, in call order.
    The lock only serialises these transitions and is not modelled. */
module TaskRegistry {
  import opened Wrappers

  /** A streamed agent run. Python compares runs by identity; `id` plays that
      role. `isComplete` is the run's `is_complete` flag. */
  datatype Handle = Handle(id: nat, isComplete: bool)

  type Registry = map<string, seq<Handle>>

  /** A registry transition and the immediate-mode cancels it issued. */
  datatype Step = Step(registry: Registry, cancelled: seq<Handle>)

  /** Every registered id has at least one handle; all operations keep this. */
  ghost predicate Valid(r: Registry)
  {
    forall sid :: sid in r ==> |r[sid]| > 0
  }

  /** The handles registered under `sid` (Python's `_active.get(sid, [])`). */
  function HandlesOf(r: Registry, sid: string): seq<Handle>
  {
    if sid in r then r[sid] else []
  }

  ghost predicate OthersUnchanged(r: Registry, r': Registry, sid: string)
  {
    forall s :: s != sid ==> (s in r <==> s in r') && (s in r ==> r'[s] == r[s])
  }

  /** `register`: append the handle to the id's list, creating the entry. */
  function Register(r: Registry, sid: string, h: Handle): (r': Registry)
    ensures sid in r' && r'[sid] == HandlesOf(r, sid) + [h]
    ensures OthersUnchanged(r, r', sid)
    ensures Valid(r) ==> Valid(r')
  {
    r[sid := HandlesOf(r, sid) + [h]]
  }

  /** The index of the first occurrence of `h` in `s`. */
  function IndexOf(s: seq<Handle>, h: Handle): (i: nat)
    requires h in s
    ensures i < |s| && s[i] == h && h !in s[..i]
  {
    if s[0] == h then 0
    else
      var i := IndexOf(s[1..], h);
      assert s[..i + 1] == [s[0]] + s[1..][..i];
      i + 1
  }

  /** Python's `list.remove`, with the `ValueError` for a missing element
      swallowed as `unregister` does: drop the first occurrence, if any. */
  function RemoveFirst(s: seq<Handle>, h: Handle): (t: seq<Handle>)
    ensures h !in s ==> t == s
    ensures h in s ==> |t| == |s| - 1
    ensures multiset(t) == multiset(s) - multiset{h}
  {
    if h in s then
      var i := IndexOf(s, h);
      assert s == s[..i] + [h] + s[i + 1..];
      s[..i] + s[i + 1..]
    else
      s
  }

  /** `unregister`: remove one occurrence of the handle; drop the entry when
      its list becomes empty; an unknown id or handle changes nothing. */
  function Unregister(r: Registry, sid: string, h: Handle): (r': Registry)
    ensures sid !in r || h !in r[sid] ==> r' == r
    ensures sid in r && h in r[sid] ==>
      && (|r[sid]| == 1 ==> sid !in r')
      && (|r[sid]| > 1 ==> sid in r' && r'[sid] == RemoveFirst(r[sid], h))
    ensures OthersUnchanged(r, r', sid)
    ensures Valid(r) ==> Valid(r')
  {
    if sid in r && h in r[sid] then
      var rest := RemoveFirst(r[sid], h);
      if rest == [] then r - {sid} else r[sid := rest]
    else
      r
  }

  /** The handles of `s` that are not complete, in order. */
  function Incomplete(s: seq<Handle>): (t: seq<Handle>)
    ensures forall x :: x in t <==> x in s && !x.isComplete
    ensures forall x: Handle :: !x.isComplete ==> multiset(t)[x] == multiset(s)[x]
    ensures forall x: Handle :: x.isComplete ==> multiset(t)[x] == 0
  {
    if s == [] then []
    else
      assert s == [s[0]] + s[1..];
      (if s[0].isComplete then [] else [s[0]]) + Incomplete(s[1..])
  }

  /** `cancel_all`: pop the id's entry, then cancel every popped handle that
      is not complete, once per registration. */
  function CancelAll(r: Registry, sid: string): (st: Step)
    ensures sid !in st.registry
    ensures OthersUnchanged(r, st.registry, sid)
    ensures forall x :: x in st.cancelled <==> x in HandlesOf(r, sid) && !x.isComplete
    ensures forall x: Handle :: !x.isComplete ==> multiset(st.cancelled)[x] == multiset(HandlesOf(r, sid))[x]
    ensures sid !in r ==> st == Step(r, [])
    ensures Valid(r) ==> Valid(st.registry)
  {
    Step(r - {sid}, Incomplete(HandlesOf(r, sid)))
  }

  /** The handles `cancel_all` cancels, as a set. */
  function CancelledSet(r: Registry, sid: string): (hs: set<Handle>)
    ensures forall x :: x in hs <==> x in HandlesOf(r, sid) && !x.isComplete
  {
    set x | x in CancelAll(r, sid).cancelled
  }

  /** `cleanup`: drop the id's entry without cancelling anything. */
  function Cleanup(r: Registry, sid: string): (st: Step)
    ensures sid !in st.registry
    ensures OthersUnchanged(r, st.registry, sid)
    ensures st.cancelled == []
    ensures Valid(r) ==> Valid(st.registry)
  {
    Step(r - {sid}, [])
  }

  /** Removing a handle that was just appended, and is not otherwise present,
      gives back the original list. */
  lemma RemoveFirstAppended(s: seq<Handle>, h: Handle)
    requires h !in s
    ensures RemoveFirst(s + [h], h) == s
  {
    assert (s + [h])[..|s|] == s;
    assert IndexOf(s + [h], h) == |s|;
  }

  /** Undoing the append on an id that already had handles. */
  lemma UnregisterAfterAppend(r: Registry, sid: string, h: Handle)
    requires sid in r && r[sid] != [] && h !in r[sid]
    ensures Unregister(r[sid := r[sid] + [h]], sid, h) == r
  {
    var r1 := r[sid := r[sid] + [h]];
    RemoveFirstAppended(r[sid], h);
    assert RemoveFirst(r1[sid], h) == r[sid];
    assert r1[sid := r[sid]] == r;
  }

  /** Undoing the registration of an id's only handle. */
  lemma UnregisterOnly(r: Registry, sid: string, h: Handle)
    requires sid !in r
    ensures Unregister(r[sid := [h]], sid, h) == r
  {
    assert RemoveFirst([h], h) == [] by {
      RemoveFirstAppended([], h);
    }
    assert r[sid := [h]] - {sid} == r;
  }

  /** `register` followed by `unregister` of a handle not already registered
      under that id restores the registry exactly. */
  lemma RegisterUnregisterRestores(r: Registry, sid: string, h: Handle)
    requires Valid(r)
    requires h !in HandlesOf(r, sid)
    ensures Unregister(Register(r, sid, h), sid, h) == r
  {
    if sid in r {
      UnregisterAfterAppend(r, sid, h);
    } else {
      UnregisterOnly(r, sid, h);
    }
  }

  // ---------------------------------------------------------------------
  // run_agent_streamed

  /** How draining the stream ended: the run finished with a final output
      (possibly None), the timeout expired, or an exception (including a
      guardrail tripwire) escaped. */
  datatype StreamOutcome<T, E> = Finished(output: Option<T>) | TimedOut | Raised(error: E)

  /** What the caller of `run_agent_streamed` observes. */
  datatype RunResult<T, E> = Returned(output: Option<T>) | TimeoutRaised | ErrorRaised(error: E)

  datatype RunTrace<T, E> = RunTrace(registry: Registry, cancelled: seq<Handle>, result: RunResult<T, E>)

  /** `run_agent_streamed`: register, drain, cancel on timeout, always
      unregister. The concurrent registrations of other runs while this one
      drains are not part of this model. */
  function RunAgentStreamed<T, E>(r: Registry, sid: string, h: Handle, outcome: StreamOutcome<T, E>): (t: RunTrace<T, E>)
    ensures outcome.TimedOut? <==> t.cancelled == [h]
    ensures !outcome.TimedOut? ==> t.cancelled == []
    ensures outcome.TimedOut? <==> t.result.TimeoutRaised?
    ensures outcome.Finished? ==> t.result == Returned(outcome.output)
    ensures outcome.Raised? ==> t.result == ErrorRaised(outcome.error)
    ensures t.registry == Unregister(Register(r, sid, h), sid, h)
  {
    var registered := Register(r, sid, h);
    var cancels := if outcome.TimedOut? then [h] else [];
    var result := match outcome
      case Finished(v) => Returned(v)
      case TimedOut => TimeoutRaised
      case Raised(e) => ErrorRaised(e);
    RunTrace(Unregister(registered, sid, h), cancels, result)
  }

  /** Whatever the outcome, a run that was not already registered leaves the
      registry exactly as it found it. */
  lemma RunAgentStreamedRestores<T, E>(r: Registry, sid: string, h: Handle, outcome: StreamOutcome<T, E>)
    requires Valid(r)
    requires h !in HandlesOf(r, sid)
    ensures RunAgentStreamed(r, sid, h, outcome).registry == r
  {
    RegisterUnregisterRestores(r, sid, h);
  }
}

=== FILE: text.dfy ===
/** Character classes and string helpers with Python's meaning.

    Whitespace is Python's exact `str.isspace` set, which is also what
    `str.split()`, `str.strip()` and the regex class `\s` use. Letter case and
    the regex class `\w` are approximated by their ASCII part. */
module Text {
  import opened Seqs

  /** Python's `str.isspace()` (and the regex class `\s`). */
  predicate IsSpace(c: char)
  {
    || ('\U{0009}' <= c <= '\U{000D}')
    || ('\U{001C}' <= c <= '\U{0020}')
    || c == '\U{0085}' || c == '\U{00A0}' || c == '\U{1680}'
    || ('\U{2000}' <= c <= '\U{200A}')
    || c == '\U{2028}' || c == '\U{2029}' || c == '\U{202F}'
    || c == '\U{205F}' || c == '\U{3000}'
  }

  predicate IsUpper(c: char) { 'A' <= c <= 'Z' }

  predicate IsLower(c: char) { 'a' <= c <= 'z' }

  predicate IsDigit(c: char) { '0' <= c <= '9' }

  predicate IsAlnum(c: char) { IsUpper(c) || IsLower(c) || IsDigit(c) }

  /** The regex class `\w`, restricted to ASCII. */
  predicate IsWordChar(c: char) { IsAlnum(c) || c == '_' }

  /** `str.lower()` on one character, ASCII only. */
  function LowerChar(c: char): (r: char)
    ensures !IsUpper(r)
    ensures IsUpper(c) ==> IsLower(r)
    ensures !IsUpper(c) ==> r == c
  {
    if IsUpper(c) then (c as int + 32) as char else c
  }

  /** `str.lower()`, ASCII only. */
  function Lower(s: string): (r: string)
    ensures |r| == |s|
    ensures forall i :: 0 <= i < |s| ==> r[i] == LowerChar(s[i])
  {
    if s == [] then [] else [LowerChar(s[0])] + Lower(s[1..])
  }

  /** `str.upper()` on one character, ASCII only. */
  function UpperChar(c: char): (r: char)
    ensures !IsLower(r)
    ensures IsLower(c) ==> IsUpper(r) && LowerChar(r) == c
    ensures !IsLower(c) ==> r == c
  {
    if IsLower(c) then (c as int - 32) as char else c
  }

  /** `str.capitalize()`, ASCII only: the first character upper-cased, the
      rest lower-cased. */
  function Capitalize(s: string): (r: string)
    ensures |r| == |s|
    ensures s != [] ==> r[0] == UpperChar(s[0]) && r[1..] == Lower(s[1..])
  {
    if s == [] then [] else [UpperChar(s[0])] + Lower(s[1..])
  }

  /** `p` occurs in `s` starting at index `i`. */
  ghost predicate OccursAt(s: string, p: string, i: int)
  {
    0 <= i && i + |p| <= |s| && s[i..i + |p|] == p
  }

  /** Python's `p in s`. */
  function Contains(s: string, p: string): (b: bool)
    ensures b <==> exists i :: OccursAt(s, p, i)
    decreases |s|
  {
    if p <= s then
      assert OccursAt(s, p, 0);
      true
    else if |s| == 0 then
      assert forall i :: !OccursAt(s, p, i);
      false
    else
      var b := Contains(s[1..], p);
      assert forall i :: OccursAt(s[1..], p, i) <==> OccursAt(s, p, i + 1);
      assert forall i :: OccursAt(s, p, i) && i > 0 ==> OccursAt(s[1..], p, i - 1);
      b
  }

  /** True if any of `ps` occurs in `s`. */
  function ContainsAny(s: string, ps: seq<string>): (b: bool)
    ensures b <==> exists k :: 0 <= k < |ps| && Contains(s, ps[k])
  {
    if ps == [] then false else Contains(s, ps[0]) || ContainsAny(s, ps[1..])
  }

  /** An occurrence stays an occurrence inside a longer text. */
  lemma ContainsWithin(s: string, p: string, a: string, b: string)
    requires Contains(s, p)
    ensures Contains(a + s + b, p)
  {
    var i :| OccursAt(s, p, i);
    assert (a + s + b)[|a| + i..|a| + i + |p|] == s[i..i + |p|];
    assert OccursAt(a + s + b, p, |a| + i);
  }

  lemma ContainsAnyWithin(s: string, ps: seq<string>, a: string, b: string)
    requires ContainsAny(s, ps)
    ensures ContainsAny(a + s + b, ps)
  {
    var k :| 0 <= k < |ps| && Contains(s, ps[k]);
    ContainsWithin(s, ps[k], a, b);
  }

  /** Lower-casing keeps an occurrence, lower-cased. */
  lemma LowerContains(s: string, p: string)
    requires Contains(s, p)
    ensures Contains(Lower(s), Lower(p))
  {
    var i :| OccursAt(s, p, i);
    var w := Lower(s)[i..i + |p|];
    forall k | 0 <= k < |p|
      ensures w[k] == Lower(p)[k]
    {
      assert w[k] == LowerChar(s[i + k]) && s[i + k] == p[k];
    }
    assert w == Lower(p);
    assert OccursAt(Lower(s), Lower(p), i);
  }

  /** Text without upper-case letters is its own lower case. */
  lemma LowerOfLower(s: string)
    requires forall i :: 0 <= i < |s| ==> !IsUpper(s[i])
    ensures Lower(s) == s
  {
  }

  lemma LowerAppend(a: string, b: string)
    ensures Lower(a + b) == Lower(a) + Lower(b)
  {
  }

  /** Python's `s.count(c)` for a single character. */
  function Count(s: string, c: char): nat
  {
    if s == [] then 0 else (if s[0] == c then 1 else 0) + Count(s[1..], c)
  }

  lemma {:induction false} CountAppend(a: string, b: string, c: char)
    ensures Count(a + b, c) == Count(a, c) + Count(b, c)
  {
    if a == [] {
      assert a + b == b;
    } else {
      assert (a + b)[1..] == a[1..] + b;
      CountAppend(a[1..], b, c);
    }
  }

  /** Python's `sep.join(parts)`. */
  function Join(parts: seq<string>, sep: string): string
  {
    if parts == [] then ""
    else if |parts| == 1 then parts[0]
    else parts[0] + sep + Join(parts[1..], sep)
  }

  /** A join ends with its last part. */
  lemma {:induction false} JoinEndsWithLast(parts: seq<string>, sep: string)
    requires parts != []
    ensures |Join(parts, sep)| >= |parts[|parts| - 1]|
    ensures Join(parts, sep)[|Join(parts, sep)| - |parts[|parts| - 1]|..] == parts[|parts| - 1]
  {
    if |parts| > 1 {
      JoinEndsWithLast(parts[1..], sep);
    }
  }

  /** Joining one more part adds the separator and the part. */
  lemma {:induction false} JoinSplitLast(front: seq<string>, last: string, sep: string)
    requires front != []
    ensures Join(front + [last], sep) == Join(front, sep) + sep + last
  {
    if |front| == 1 {
      assert front + [last] == [front[0], last];
      assert [front[0], last][1..] == [last];
    } else {
      assert (front + [last])[1..] == front[1..] + [last];
      JoinSplitLast(front[1..], last, sep);
    }
  }

  /** `s.endswith(suffix)`. */
  predicate EndsWith(s: string, suffix: string)
  {
    |s| >= |suffix| && s[|s| - |suffix|..] == suffix
  }

  /** Appending to both keeps a suffix a suffix. */
  lemma EndsWithAppend(x: string, a: string, b: string)
    requires EndsWith(x, a)
    ensures EndsWith(x + b, a + b)
  {
    assert (x + b)[|x + b| - |a + b|..] == x[|x| - |a|..] + b;
  }

  /** A join ends with its last two parts around the separator. */
  lemma JoinEndsWithLastTwo(parts: seq<string>, sep: string)
    requires |parts| >= 2
    ensures EndsWith(Join(parts, sep), parts[|parts| - 2] + sep + parts[|parts| - 1])
  {
    var front, last := parts[..|parts| - 1], parts[|parts| - 1];
    assert parts == front + [last];
    JoinSplitLast(front, last, sep);
    JoinEndsWithLast(front, sep);
    assert front[|front| - 1] == parts[|parts| - 2];
    EndsWithAppend(Join(front, sep), parts[|parts| - 2], sep);
    EndsWithAppend(Join(front, sep) + sep, parts[|parts| - 2] + sep, last);
  }

  /** A string does not end with a suffix whose last character differs
      from its own. */
  lemma LastCharDiffers(s: string, suffix: string)
    requires |s| > 0 && |suffix| > 0 && s[|s| - 1] != suffix[|suffix| - 1]
    ensures !EndsWith(s, suffix)
  {
    assert |s| >= |suffix| ==> s[|s| - |suffix|..][|suffix| - 1] == s[|s| - 1];
  }

  /** Python's `str.lstrip()`: drop leading whitespace. */
  function LStrip(s: string): (r: string)
    ensures r == [] || !IsSpace(r[0])
    ensures exists k :: 0 <= k <= |s| && r == s[k..] && forall i :: 0 <= i < k ==> IsSpace(s[i])
  {
    if s != [] && IsSpace(s[0]) then
      var r := LStrip(s[1..]);
      ghost var k :| 0 <= k <= |s[1..]| && r == s[1..][k..] && forall i :: 0 <= i < k ==> IsSpace(s[1..][i]);
      assert r == s[k + 1..];
      r
    else
      assert s == s[0..];
      s
  }

  /** Python's `str.rstrip()`: drop trailing whitespace. */
  function RStrip(s: string): (r: string)
    ensures r == [] || !IsSpace(r[|r| - 1])
    ensures exists k :: 0 <= k <= |s| && r == s[..k] && forall i :: k <= i < |s| ==> IsSpace(s[i])
  {
    if s != [] && IsSpace(s[|s| - 1]) then
      var r := RStrip(s[..|s| - 1]);
      ghost var k :| 0 <= k <= |s| - 1 && r == s[..|s| - 1][..k] && forall i :: k <= i < |s| - 1 ==> IsSpace(s[i]);
      assert r == s[..k];
      r
    else
      assert s == s[..|s|];
      s
  }

  /** Python's `str.strip()`. */
  function Strip(s: string): (r: string)
    ensures r == [] || (!IsSpace(r[0]) && !IsSpace(r[|r| - 1]))
    ensures |r| <= |s|
  {
    RStrip(LStrip(s))
  }

  /** Text with no whitespace at either end is its own strip. */
  lemma StripKeeps(s: string)
    requires s == [] || (!IsSpace(s[0]) && !IsSpace(s[|s| - 1]))
    ensures Strip(s) == s
  {
    assert LStrip(s) == s;
  }

  lemma StripIdempotent(s: string)
    ensures Strip(Strip(s)) == Strip(s)
  {
    StripKeeps(Strip(s));
  }

  /** Decimal rendering of a natural number, as Python's `str(n)`. */
  function NatToString(n: nat): (r: string)
    ensures |r| >= 1
  {
    if n < 10 then [DigitChar(n)] else NatToString(n / 10) + [DigitChar(n % 10)]
  }

  /** Decimal rendering uses digits only, so it never contains a separator
      such as `_`, `-`, `.` or a space. */
  lemma {:induction false} NatToStringDigits(n: nat)
    ensures forall i :: 0 <= i < |NatToString(n)| ==> IsDigit(NatToString(n)[i])
  {
    if n >= 10 {
      NatToStringDigits(n / 10);
    }
  }

  function DigitChar(d: nat): (c: char)
    requires d < 10
    ensures IsDigit(c)
  {
    ('0' as int + d) as char
  }

  /** Decimal rendering is injective: distinct numbers print differently. */
  lemma {:induction false} NatToStringInjective(a: nat, b: nat)
    requires NatToString(a) == NatToString(b)
    ensures a == b
  {
    if a < 10 && b < 10 {
      assert DigitChar(a) == NatToString(a)[0];
    } else if a >= 10 && b >= 10 {
      var sa, sb := NatToString(a), NatToString(b);
      assert sa[..|sa| - 1] == NatToString(a / 10);
      assert sb[..|sb| - 1] == NatToString(b / 10);
      NatToStringInjective(a / 10, b / 10);
      assert DigitChar(a % 10) == sa[|sa| - 1] == sb[|sb| - 1] == DigitChar(b % 10);
    }
  }

  /** Python's `str(n)` for any integer. */
  function IntToString(n: int): string
  {
    if n >= 0 then NatToString(n) else "-" + NatToString(-n)
  }
}

=== FILE: user_selection.dfy ===
/** The validators of the user-selection request (`schemas/user_selection.py`):
    the company name and the optional role description. The field's length
    bounds are checked on the raw value first, then the validator runs on it. */
module UserSelection {
  import opened Wrappers
  import opened Text

  const MinCompanyName := 2

  const MaxCompanyName := 100

  const MaxRoleDescription := 8000

  /** Why a company name is refused, in the order the checks run. */
  datatype CompanyNameError =
    | RawTooShort      // field `min_length`, on the raw value
    | RawTooLong       // field `max_length`, on the raw value
    | Required
    | TooShort
    | TooLong
    | HasEmoji
    | RepeatedSymbols
  {
    function Message(): string
    {
      match this
      case RawTooShort => "String should have at least 2 characters"
      case RawTooLong => "String should have at most 100 characters"
      case Required => "Company name is required"
      case TooShort => "Company name must be at least 2 characters"
      case TooLong => "Company name must be at most 100 characters"
      case HasEmoji => "Company name cannot contain emojis"
      case RepeatedSymbols => "Company name cannot contain repeated symbols"
    }
  }

  /** The nine code-point ranges of the emoji class. */
  predicate IsEmoji(c: char)
  {
    var n := c as int;
    || 0x1F600 <= n <= 0x1F64F
    || 0x1F300 <= n <= 0x1F5FF
    || 0x1F680 <= n <= 0x1F6FF
    || 0x1F1E0 <= n <= 0x1F1FF
    || 0x2702 <= n <= 0x27B0
    || 0x1F900 <= n <= 0x1F9FF
    || 0x1FA00 <= n <= 0x1FA6F
    || 0x1FA70 <= n <= 0x1FAFF
    || 0x2600 <= n <= 0x26FF
  }

  predicate ContainsEmoji(s: string)
  {
    exists i :: 0 <= i < |s| && IsEmoji(s[i])
  }

  /** `([^\w\s])\1{2,}` matches at `i`: a character that is neither a word
      character nor whitespace, three times in a row. */
  predicate RepeatedSymbolAt(s: string, i: nat)
  {
    && i + 2 < |s|
    && !IsWordChar(s[i]) && !IsSpace(s[i])
    && s[i + 1] == s[i] && s[i + 2] == s[i]
  }

  predicate HasRepeatedSymbol(s: string)
  {
    exists i :: 0 <= i < |s| && RepeatedSymbolAt(s, i)
  }

  /** `company_name` through its field bounds and `validate_company_name`. */
  function ValidateCompanyName(raw: string): (r: Result<string, CompanyNameError>)
    ensures r.Success? <==>
      && MinCompanyName <= |raw| <= MaxCompanyName
      && MinCompanyName <= |Strip(raw)|
      && !ContainsEmoji(Strip(raw))
      && !HasRepeatedSymbol(Strip(raw))
    ensures r.Success? ==> r.value == Strip(raw)
    ensures r == Failure(RawTooShort) <==> |raw| < MinCompanyName
    ensures r == Failure(HasEmoji) ==> ContainsEmoji(Strip(raw))
    ensures r == Failure(RepeatedSymbols) ==> HasRepeatedSymbol(Strip(raw)) && !ContainsEmoji(Strip(raw))
  {
    if |raw| < MinCompanyName then Failure(RawTooShort)
    else if |raw| > MaxCompanyName then Failure(RawTooLong)
    else
      var v := Strip(raw);
      if v == [] then Failure(Required)
      else if |v| < MinCompanyName then Failure(TooShort)
      else if |v| > MaxCompanyName then Failure(TooLong)
      else if ContainsEmoji(v) then Failure(HasEmoji)
      else if HasRepeatedSymbol(v) then Failure(RepeatedSymbols)
      else Success(v)
  }

  /** The validator's own upper bound never fires: the field bound has
      already limited the raw value, and stripping only shortens it. */
  lemma StrippedNeverTooLong(raw: string)
    ensures ValidateCompanyName(raw) != Failure(TooLong)
  {
  }

  /** An accepted name is accepted again, unchanged. */
  lemma CompanyNameStable(raw: string)
    ensures ValidateCompanyName(raw).Success? ==>
              ValidateCompanyName(ValidateCompanyName(raw).value) == ValidateCompanyName(raw)
  {
    StripIdempotent(raw);
  }

  /** ASCII text holds no emoji. */
  lemma AsciiHasNoEmoji(s: string)
    requires forall i :: 0 <= i < |s| ==> s[i] as int < 0x80
    ensures !ContainsEmoji(s)
  {
  }

  /** A name that passes every check comes back as its stripped self. */
  lemma AcceptedUnchanged(s: string)
    requires MinCompanyName <= |s| <= MaxCompanyName
    requires !IsSpace(s[0]) && !IsSpace(s[|s| - 1])
    requires !ContainsEmoji(s) && !HasRepeatedSymbol(s)
    ensures ValidateCompanyName(s) == Success(s)
  {
    StripKeeps(s);
  }

  /** Names with digits, hyphens, dots and spaces pass unchanged. */
  lemma DigitsAccepted()
    ensures ValidateCompanyName("Google123") == Success("Google123")
  {
    var s := "Google123";
    assert forall i :: 0 <= i < |s| ==> IsAlnum(s[i]);
    AsciiHasNoEmoji(s);
    AcceptedUnchanged(s);
  }

  lemma SeparatorsAccepted()
    ensures ValidateCompanyName("Company-Name Inc.") == Success("Company-Name Inc.")
  {
    var s := "Company-Name Inc.";
    assert forall i :: 0 <= i < |s| && i != 7 && i != 12 && i != 16 ==> IsAlnum(s[i]);
    assert s[7] == '-' && s[12] == ' ' && s[16] == '.';
    AsciiHasNoEmoji(s);
    AcceptedUnchanged(s);
  }

  /** Three of the same symbol in a row are refused. */
  lemma RepeatedSymbolsRefused()
    ensures ValidateCompanyName("Acme!!!") == Failure(RepeatedSymbols)
  {
    var s := "Acme!!!";
    StripKeeps(s);
    AsciiHasNoEmoji(s);
    assert RepeatedSymbolAt(s, 4);
  }

  /** Why a role description is refused. */
  datatype RoleDescriptionError = RoleTooShort | RoleTooLong
  {
    function Message(): string
    {
      match this
      case RoleTooShort => "Role description must be at least 1 character"
      case RoleTooLong => "Role description must be at most 8000 characters"
    }
  }

  /** `validate_role_description`: absent or blank becomes absent, a stripped
      text of at most 8000 characters is kept. */
  function ValidateRoleDescription(v: Option<string>): (r: Result<Option<string>, RoleDescriptionError>)
    ensures r == Success(None) <==> v.None? || Strip(v.value) == []
    ensures r.Failure? <==> v.Some? && |Strip(v.value)| > MaxRoleDescription
    ensures r.Failure? ==> r.error == RoleTooLong
    ensures r.Success? && r.value.Some? ==>
      v.Some? && r.value.value == Strip(v.value) && 1 <= |r.value.value| <= MaxRoleDescription
  {
    match v
    case None => Success(None)
    case Some(text) =>
      var s := Strip(text);
      if s == [] then Success(None)
      else if |s| < 1 then Failure(RoleTooShort)
      else if |s| > MaxRoleDescription then Failure(RoleTooLong)
      else Success(Some(s))
  }

  /** A kept description is kept again, unchanged. */
  lemma RoleDescriptionStable(v: Option<string>)
    ensures ValidateRoleDescription(v).Success? && ValidateRoleDescription(v).value.Some? ==>
              ValidateRoleDescription(ValidateRoleDescription(v).value) == ValidateRoleDescription(v)
  {
    if ValidateRoleDescription(v).Success? && ValidateRoleDescription(v).value.Some? {
      StripIdempotent(v.value);
    }
  }
}

=== FILE: wrappers.dfy ===
/** Option and Result datatypes shared by every module of the model.
    `Option` stands for Python's `X | None`; `Result` stands for a value or a
    raised exception, the error carrying the exception's message. */
module Wrappers {

  datatype Option<+T> = None | Some(value: T) {

    /** The value inside `Some`, or `default` for `None`. */
    function GetOr(default: T): T {
      match this
      case Some(v) => v
      case None => default
    }
  }

  datatype Result<+R, +E> = Success(value: R) | Failure(error: E)
}
